=== FILE: README.md ===
# CRISYS order lifecycle in Dafny

CRISYS is a point-of-sale system for a small restaurant. Customers scan a
table's QR code and place orders from the menu page with a cart. The kitchen
and the till work from an admin dashboard that websocket messages keep
current. A finance area behind a login sums up the payments. The backend is
FastAPI with SQLAlchemy and the frontend is React.

This project models the order lifecycle and the pure helpers around it as
immutable Dafny values and pure transitions:

- `Store` and `Api`: the database rows (mesas, productos, ordenes,
  orden_detalle, pagos) as one `Db` value, the integrity every handler keeps
  (`Valid`), and the response and broadcast shapes.
- `Ordenes`: placing an order, which merges into the table's newest unpaid
  order or opens a new one. Also the listing of unpaid orders, the manual
  status change, charging, and the two per-line delivery updates. Each
  handler yields the committed database, the response and the broadcast event.
- `Productos`: create, partial update, and the guarded delete.
- `OrderToken`: the table token `"{mesa}:{exp}.{sig}"` and its verifier.
  HMAC is a parameter.
- `Finanzas`: the session token `b64("{user}:{ts}:{b64(sig)}")`, its verifier,
  the login check, the authentication guard and the payment summary. HMAC
  and base64 are parameters.
- `HexColor`: the QR renderer's colour parser, as written and corrected.
- `Qr`: the recommended link prefix, the preview's fallback to it, and the
  naming of the batch archive's entries.
- `Cart`: the menu page's cart reducer.
- `Dashboard`: the admin dashboard's message reducer, reconnect backoff,
  tickets view, kitchen queue, missing-unit counts and category counts.
- `Routing`: the single-page application's choice of page by path prefix.
- `Base`, `Strings`, `Sequences`: results with HTTP errors, Python's string
  operations (str/int, split, rsplit, strip, int(x, 16)), and sums, filters
  and stable sorting.

Amounts are integer cents and instants are integers. A handler that raises
after a commit keeps what it committed; anything else it changed is rolled
back.

## Model

| member | source | states |
|---|---|---|
| Store.ParseEstado | backend/routes/ordenes.py:151-157 | Exactly the three names pendiente, en_proceso and entregado are accepted, and each maps back to its own name |
| Store.ParseMetodo | backend/routes/ordenes.py:177 | Exactly efectivo and tarjeta are accepted payment methods |
| Ordenes.OrderToOut | backend/routes/ordenes.py:44-68 | The response carries the order's id, fecha, estado, paid flag and its table's number, and one item per line with its product's name and price and the line's counts; each item's entregado is recomputed from the counts whatever the stored flag says; a dangling product or table fails |
| Ordenes.ValidOrderHasOut | backend/routes/ordenes.py:44-68 | In a consistent database every stored order has a response shape |
| Ordenes.NewestOpen | backend/routes/ordenes.py:84-94 | The order chosen for merging is an unpaid order of the table that no other unpaid order of the table postdates, and none is chosen exactly when the table has no unpaid order |
| Ordenes.EnsureMesa | backend/routes/ordenes.py:73-79 | The table with the requested number exists afterwards; it is appended under the next id only when missing, and nothing else changes |
| Ordenes.MissingProduct | backend/routes/ordenes.py:103-105 | Reports a requested product absent from the catalogue exactly when one exists, and it is the first such product in request order, the one the 400 detail names |
| Ordenes.CrearOrden | backend/routes/ordenes.py:71-137 | A line with cantidad <= 0 is refused with 422 before anything changes; otherwise the table exists after any validated request, even when the request is refused with 400 for an empty item list or an unknown product; catalogue and payments never change; no broadcast on failure |
| Ordenes.MergeInto | backend/routes/ordenes.py:96-122 | The open-order path rewrites only the chosen order and broadcasts update_order for it |
| Ordenes.MergeOne | backend/routes/ordenes.py:106-117 | A requested line adds its quantity to the first line of its product and clears that line's delivered flag, or, when the order has no line for it, becomes one new undelivered line at the end; lines of other products are untouched, sound counts stay sound, and the product set gains the product |
| Ordenes.Merged | backend/routes/ordenes.py:96-117 | Merging keeps the order's id, table and fecha, merges the request into its lines, and puts an entregado order back to pendiente while leaving any other estado as it was |
| Ordenes.MergeItems | backend/routes/ordenes.py:102-117 | Merging a request keeps counts sound and adds exactly the requested products to the order's product set |
| Ordenes.MergeItemsQty | backend/routes/ordenes.py:102-117 | Merging raises each product's ordered units by exactly the requested amount and leaves its delivered units as they were |
| Ordenes.NewLines | backend/routes/ordenes.py:128-132 | A new order has one sound line per requested line, naming exactly the requested products |
| Ordenes.NewLinesQty | backend/routes/ordenes.py:128-132 | A new order orders exactly the requested units and has delivered none |
| Ordenes.OpenOrder | backend/routes/ordenes.py:124-137 | The new-order path appends a pendiente order under the next id, dated at the creation instant, and broadcasts new_order |
| Ordenes.OpenOrderAsWritten | backend/models.py:34 | With the column default taken at import time, a new order is dated at the process start instant whatever the clock says, and otherwise matches the corrected path |
| Ordenes.StartupStampTiesOrders | backend/routes/ordenes.py:125 | As written, two orders opened one after the other at different instants carry the same fecha |
| Ordenes.OpenedOrdersKeepTheirInstants | backend/routes/ordenes.py:124-137 | With the instant taken at creation, orders opened one after the other carry their own, increasing, instants |
| Ordenes.CrearOrdenMerges | backend/routes/ordenes.py:84-122 | With an unpaid order at the table, an accepted request changes only the newest such order, adding exactly the requested units per product and keeping its deliveries |
| Ordenes.CrearOrdenOpens | backend/routes/ordenes.py:124-137 | Without an unpaid order at the table, an accepted request appends one pendiente order holding exactly the requested units, none delivered, and keeps the other orders |
| Ordenes.CrearOrdenValid | backend/routes/ordenes.py:71-137 | Placing an order keeps the database consistent, and a well-formed request on a consistent database always gets its response and broadcast |
| Ordenes.Visibles | backend/routes/ordenes.py:142-143 | The listed orders are sorted by fecha and are, copies counted, exactly the stored orders with no payment |
| Ordenes.ListarOrdenes | backend/routes/ordenes.py:140-144 | The listing is, position by position, the response shape of the unpaid orders sorted by fecha; it fails exactly when one of them has none; it is in date order and shows no paid order |
| Ordenes.ListarOrdenesComplete | backend/routes/ordenes.py:140-144 | Every unpaid order of the database appears in the listing |
| Ordenes.ListarOrdenesOk | backend/routes/ordenes.py:140-144 | On a consistent database the listing never fails |
| Ordenes.ActualizarEstado | backend/routes/ordenes.py:151-170 | An unknown estado is refused with 400 before the order is looked up, a missing order gives 404; otherwise the stored order's estado becomes the one given and nothing else in the database changes, the response is that order's shape, and update_status carries its id and new estado |
| Ordenes.ActualizarEstadoValid | backend/routes/ordenes.py:154-170 | The manual status change keeps the database consistent and, for a known estado and order, succeeds and broadcasts update_status with the new estado |
| Ordenes.CobrarOrden | backend/routes/ordenes.py:189-218 | Charging succeeds exactly for a valid method, an existing order in estado entregado, and no earlier payment; it is refused in that order with 400 "Método inválido", 404, 400 "La orden debe estar 'entregado' para cobrar" and 400 "Orden ya cobrada", each leaving the database as it was; the payment records the order's total and the tip, and order_paid is broadcast |
| Ordenes.MontoTotal | backend/routes/ordenes.py:202-205 | Lines with non-negative quantities of products with non-negative prices are never charged below zero |
| Ordenes.MergeOneMonto | backend/routes/ordenes.py:106-117 | Merging one requested line adds exactly that line's price times quantity to the order's charge, whether it bumps a line or appends one |
| Ordenes.MergeItemsMonto | backend/routes/ordenes.py:102-117 | An order that a request was merged into is charged exactly its former amount plus what the request would be charged as an order of its own |
| Ordenes.CobrarOrdenOnce | backend/routes/ordenes.py:198-200 | After a successful charge, charging the same order again is refused as already paid and records nothing |
| Ordenes.CobrarOrdenValid | backend/models.py:61 | Charging keeps the database consistent, so no order ever carries two payments |
| Ordenes.CobrarOrdenAsWritten | backend/models.py:65 | With the column default taken at import time, every payment is stamped with the process start instant, and the charge succeeds exactly when the corrected one does |
| Ordenes.EstadoFromCounts | backend/routes/ordenes.py:275-277 | entregado iff every line is fully delivered; otherwise en_proceso iff some line has a delivery; otherwise pendiente |
| Ordenes.EstadoFromFlags | backend/routes/ordenes.py:242-244 | The same rule over the boolean flags, so an order without lines reads entregado |
| Ordenes.MarcarItemEntregado | backend/routes/ordenes.py:225-251 | A missing order gives 404 "Orden no encontrada" and a missing line 404 "Item no encontrado en la orden", with nothing changed; otherwise the order's first line for the product takes the given flag, the order's estado is derived from the flags of its lines, nothing else in the database changes, and update_order carries the response |
| Ordenes.MarcarItemEntregadoValid | backend/routes/ordenes.py:225-251 | The flag update keeps the database consistent and fails only with 404 |
| Ordenes.MarcarItemEntregadoDisagrees | backend/routes/ordenes.py:239-244 | Marking a line of two undelivered units reports the order entregado while its only item reads undelivered |
| Ordenes.Clamp | backend/routes/ordenes.py:271 | The stored count lies in 0..cantidad, equals the request when that is in range, and is cantidad when the request exceeds it |
| Ordenes.WithDelivered | backend/routes/ordenes.py:271-277 | Only the chosen line changes: its count is clamped, its flag follows the count, and the order's estado follows all the counts |
| Ordenes.WithDeliveredOk | backend/routes/ordenes.py:271-273 | Setting a delivered count keeps an order's lines sound |
| Ordenes.ActualizarItemEntregados | backend/routes/ordenes.py:254-284 | A negative count is refused with 422, a missing order or line with 404, each with nothing changed; otherwise the order becomes the one with the first line for the product set to the clamped count (`Ordenes.WithDelivered`), nothing else in the database changes, and update_order carries the response |
| Ordenes.ActualizarItemEntregadosEffect | backend/routes/ordenes.py:271-277 | The update stores the clamped count on the first line of the product, leaves other lines alone, and reports entregado exactly when every item reads delivered |
| Ordenes.ActualizarItemEntregadosValid | backend/routes/ordenes.py:258-284 | The count update keeps the database consistent and fails only with 404 or 422 |
| Productos.CrearProducto | backend/routes/productos.py:39-45 | Creation stores exactly the given name, price and image under the next id and changes nothing else |
| Productos.Patched | backend/routes/productos.py:53-58 | Each field sent replaces the stored one and each absent field keeps its value |
| Productos.ActualizarProducto | backend/routes/productos.py:48-61 | An unknown id gives 404 and changes nothing; otherwise only that product changes, by the fields sent |
| Productos.ActualizarProductoIdempotent | backend/routes/productos.py:48-61 | Sending the same update twice has the effect of sending it once |
| Productos.EmptyUpdateKeepsProduct | backend/routes/productos.py:53-58 | An update that sends no field leaves the database as it was |
| Productos.EliminarProducto | backend/routes/productos.py:64-75 | An unknown id gives 404, a product named by any order line gives 400, each with nothing changed; deletion succeeds exactly otherwise and removes only that product |
| Productos.CrearThenEliminar | backend/routes/productos.py:39-75 | A product just created can be deleted while no order names it, and the catalogue is back where it was |
| Productos.EliminarProductoValid | backend/routes/productos.py:69-72 | Deletion never leaves an order line naming a missing product |
| OrderToken.Sign | backend/security.py:12-13 | A signature is ASCII and holds no '.', so the last '.' of a token precedes it |
| OrderToken.Message | backend/security.py:19 | The signed message holds no '.' and splits at ':' into exactly the printed table and expiry |
| OrderToken.ParseToken | backend/security.py:27-33 | A token parses only when it has a '.', the text before the last '.' splits at ':' into exactly two integers, and the token is that text, a '.' and the signature |
| OrderToken.ParseTokenAny | backend/security.py:27-33 | Conversely, every "{mesa}:{exp}.{signature}" with a '.'-free signature parses back to its table, expiry and signature, whatever characters the signature holds |
| OrderToken.GenerateOrderToken | backend/security.py:16-21 | A generated token parses back into its table, its expiry now + ttl, and the signature of "{mesa}:{exp}" |
| OrderToken.VerifyOrderToken | backend/security.py:24-47 | The checks in order: a missing or empty token gives 401 "Token requerido", an unparsable one 401 "Token inválido", a table mismatch 403 whatever the signature, then a non-ASCII signature 500 (compare_digest raises), a wrong signature 401 "Firma inválida", an expired token 401 "Token expirado"; success exactly when the table matches, the signature matches and now <= exp |
| OrderToken.GeneratedTokenVerifies | backend/security.py:16-47 | A token generated for a table verifies for it up to and including its expiry instant and is reported expired afterwards |
| OrderToken.OtherTableForbidden | backend/security.py:36-37 | Any well-formed token for one table, whatever its signature (forged, non-ASCII) or expiry, is refused with 403 for any other table |
| OrderToken.ForgedSignatureRefused | backend/security.py:39-42 | A token for the right table whose signature is not the digest of its message is refused as "Firma inválida" when ASCII and with a 500 otherwise, whatever its expiry |
| Finanzas.SignToken | backend/routes/finanzas.py:25-28 | Under lawful encoders a token decodes to "{user}:{ts}:" followed by the signature of "{user}:{ts}" |
| Finanzas.VerifyToken | backend/routes/finanzas.py:31-46 | A user it accepts never contains ':', and every failure yields None rather than an error |
| Finanzas.VerifyTokenSound | backend/routes/finanzas.py:31-46 | Whatever verify_token accepts decodes to the user, an unexpired issue time and the matching signature of that user and time |
| Finanzas.SignedPartsColon | backend/routes/finanzas.py:34-36 | The decoded token of a user with a ':' splits into more than three parts |
| Finanzas.SignVerifyRoundTrip | backend/routes/finanzas.py:25-46 | A signed token verifies for its user exactly while ts + TTL >= now and the user has no ':', and yields None otherwise |
| Finanzas.RequireAuth | backend/routes/finanzas.py:78-85 | A missing or empty cookie gives 401 "No autenticado", a token that does not verify gives 401 "Token inválido"; success returns the verified user |
| Finanzas.Login | backend/routes/finanzas.py:54-69 | Login succeeds exactly when both user and password equal the configured ones, and the cookie is the token signed at the login instant |
| Finanzas.LoginThenAuth | backend/routes/finanzas.py:54-85 | The cookie from a successful login authenticates its user for eight hours inclusive and is refused afterwards |
| Finanzas.DefaultCredentials | backend/routes/finanzas.py:18-19 | The default user name is non-empty and has no ':' |
| Finanzas.Summarize | backend/routes/finanzas.py:146-149 | The count, total and tip cover exactly the payments with desde <= fecha <= hasta, each side only when given |
| Finanzas.Bound | backend/routes/finanzas.py:134-143 | A bound is refused, with 400 and its detail, only when a non-empty text does not parse; an accepted bound is present exactly when a non-empty text was given, and is the instant that text denotes |
| Finanzas.ResumenFinanzas | backend/routes/finanzas.py:130-149 | The session is checked first (401), then 'desde' and then 'hasta' (400 each); a valid session with well-formed bounds always succeeds, and the summary covers the payments in the range |
| Finanzas.UnboundedCountsAll | backend/routes/finanzas.py:133-149 | Without bounds every payment is counted |
| Finanzas.CobroCountedInRange | backend/routes/finanzas.py:133-149 | A payment stamped with the request's clock is counted, with its amount and tip, by every summary whose range holds that instant |
| Finanzas.StartupStampMissesPayment | backend/models.py:65 | With the stamp taken at start-up, a payment made at instant 500 is missing from the summary from 500 on, while the corrected stamp counts it |
| HexColor.PyIntHex | backend/routes/admin.py:50-56 | int(x, 16) of a string of hexadecimal digits is their value |
| HexColor.ParseHexColorAsWritten | backend/routes/admin.py:44-61 | A body of neither three nor six characters gives the default colour |
| HexColor.SignedPairGoesNegative | backend/routes/admin.py:53-56 | "#12-a00" parses to (18, -10, 0): a sign inside a pair passes int(x, 16) and yields a negative component |
| HexColor.HexPair | backend/routes/admin.py:53-56 | A pair parses exactly when both characters are hexadecimal digits, to a value in 0..255 |
| HexColor.ShortForm | backend/routes/admin.py:49-52 | A three-digit body doubles each digit; any other three characters give the default |
| HexColor.LongForm | backend/routes/admin.py:53-56 | A six-digit body reads as three pairs; any other six characters give the default |
| HexColor.ParseHexColor | backend/routes/admin.py:44-61 | Every colour is read from hexadecimal digits only, else the default, so a default within 0..255 keeps all components within 0..255 |
| HexColor.AgreesOnHexBodies | backend/routes/admin.py:44-61 | On bodies of three or six hexadecimal digits the corrected parser returns what the original returns |
| HexColor.ShortFormDoubles | backend/routes/admin.py:49-52 | "abc" is (0xaa, 0xbb, 0xcc) |
| HexColor.ShortFormPadded | backend/routes/admin.py:46-52 | Surrounding whitespace, the '#' and upper case make no difference: "  #ABC\n" is (0xaa, 0xbb, 0xcc) |
| Qr.RecommendedBaseUrl | backend/routes/admin.py:23-26 | The prefix is "{scheme}://{host}/orden?mesa=", preferring x-forwarded-proto and the host header over the URL's own |
| Qr.PreviewData | backend/routes/admin.py:207-211 | A missing or empty base_url falls back to the recommended prefix, so the 400 branch never fires; the encoded text is the prefix and the table number |
| Qr.TableLink | backend/routes/admin.py:248 | The encoded text is the link prefix followed by the table number, which reads back as the table once the prefix is taken off |
| Qr.EntryName | backend/routes/admin.py:262 | Table n's entry is "mesa_", then n, then ".png" |
| Qr.EntryNameInjective | backend/routes/admin.py:262 | Different tables get different entry names |
| Qr.GenerarQrZip | backend/routes/admin.py:227-266 | A valid request (base_url non-empty, 1..10000 tables) yields entries mesa_1.png..mesa_N.png in order, each encoding base_url and its number, and the archive named as requested or qr_mesas.zip; anything else is 422 |
| Qr.ArchiveNamesDistinct | backend/routes/admin.py:247-262 | The archive never holds two files of the same name |
| Cart.Increment | frontend/src/context/CartContext.tsx:30-36 | An absent product is appended with one unit; a present one gains one unit on its line and nothing else changes |
| Cart.Decrement | frontend/src/context/CartContext.tsx:38-45 | An absent product changes nothing; a line of one unit disappears; otherwise the product loses one unit and nothing else changes |
| Cart.Clear | frontend/src/context/CartContext.tsx:47 | Clearing leaves an empty cart, which keeps the one-line-per-product invariant of the other actions |
| Cart.Total | frontend/src/context/CartContext.tsx:49 | A valid cart of products with non-negative prices never totals below zero |
| Cart.TotalConcat | frontend/src/context/CartContext.tsx:49 | The total of two carts side by side is the sum of their totals, so the reduce counts each line once |
| Cart.IncrementKeepsCartOk | frontend/src/context/CartContext.tsx:30-36 | Adding keeps one line per product with at least one unit each |
| Cart.DecrementKeepsCartOk | frontend/src/context/CartContext.tsx:38-45 | Removing keeps one line per product with at least one unit each |
| Cart.IncrementTotal | frontend/src/context/CartContext.tsx:30-49 | Adding a unit raises the total by the price the product's line carries |
| Cart.DecrementUndoesIncrement | frontend/src/context/CartContext.tsx:30-45 | Removing the unit just added restores the cart exactly |
| Cart.ClearTotal | frontend/src/context/CartContext.tsx:47-49 | The cleared cart's total is zero |
| Routing.Route | frontend/src/App.tsx:7-21 | "/admin" prefix shows the dashboard; "/finanzas/login" prefix the login; other "/finanzas" prefixes the finance page; everything else the menu |
| Routing.PrefixesExclusive | frontend/src/App.tsx:9-10 | No path lies under both "/admin" and "/finanzas" |
| Routing.LoginUnderFinanzas | frontend/src/App.tsx:10-11 | A path under "/finanzas/login" is also under "/finanzas" |
| Routing.PrefixRoutes | frontend/src/App.tsx:8-18 | Matching is by prefix only: "/administrator" shows the dashboard and "/finanzas/loginx" the login |
| Dashboard.Missing | frontend/src/pages/AdminPage.tsx:251 | A line's missing units are never negative, and zero exactly when it is served in full |
| Dashboard.Faltantes | frontend/src/pages/AdminPage.tsx:251 | An order's missing units are never negative and, while no line reports more units served than ordered, are its units ordered less its units served |
| Dashboard.FaltantesZero | frontend/src/pages/AdminPage.tsx:251 | An order's missing units are never negative, and zero exactly when no line has units left |
| Dashboard.SortOrders | frontend/src/pages/AdminPage.tsx:204 | The list is reordered by date, earliest first |
| Dashboard.Apply | frontend/src/pages/AdminPage.tsx:127-161 | Upsert messages re-sort the upserted list; new_order beeps only for an unlisted order, update_order also when the missing units grew, both only with sound on; update_status patches the estado of matching orders; order_paid drops exactly them, keeping every other order as often as before and in its relative order |
| Dashboard.DropPaid | frontend/src/pages/AdminPage.tsx:158-160 | The filter keeps every order with another id, with its multiplicity, at increasing positions of the old list |
| Dashboard.ApplyKeepsSorted | frontend/src/pages/AdminPage.tsx:127-161 | Every message keeps a date-sorted list sorted |
| Dashboard.UpsertContents | frontend/src/pages/AdminPage.tsx:135-138 | An upsert lists the order, keeps ids unique, and keeps every order with another id |
| Dashboard.Upsert | frontend/src/pages/AdminPage.tsx:135-138 | The first listed order with the same id is replaced in place, or the order is appended when its id is unlisted; the list grows only then, the order is listed afterwards, and every order with another id keeps its position |
| Dashboard.ApplyKeepsIdsUnique | frontend/src/pages/AdminPage.tsx:127-161 | No message makes two listed orders share an id |
| Dashboard.ApplyUpserts | frontend/src/pages/AdminPage.tsx:130-157 | After an upsert message the list holds the sent order and, apart from its id, exactly the orders it held before |
| Dashboard.PaidOrderGone | frontend/src/pages/AdminPage.tsx:158-160 | After order_paid no order with that id remains |
| Dashboard.Delay | frontend/src/pages/AdminPage.tsx:168 | The reconnect wait lies in 1..15 seconds, doubling from one second and capped from the fifth attempt on |
| Dashboard.DelayMonotone | frontend/src/pages/AdminPage.tsx:168 | More failed attempts never shorten the wait |
| Dashboard.OnDown | frontend/src/pages/AdminPage.tsx:166-169 | One call waits Delay(attempts), between 1 and 15 seconds, counts one more attempt, and the next call never waits less |
| Dashboard.DownTimes | frontend/src/pages/AdminPage.tsx:166-169 | After n calls to handleDown in a row the count is n and the wait is capped from the fifth on |
| Dashboard.DownTimesNeverShorter | frontend/src/pages/AdminPage.tsx:166-169 | Over a run of handleDown calls a later call never waits less than an earlier one |
| Dashboard.ByMesa | frontend/src/pages/AdminPage.tsx:209-216 | The per-table map holds only unpaid orders, one per table, each the latest of its table, and every table with an unpaid order |
| Dashboard.Tickets | frontend/src/pages/AdminPage.tsx:208-218 | The tickets are the per-table orders sorted by table number |
| Dashboard.TicketsShape | frontend/src/pages/AdminPage.tsx:208-218 | Tickets are sorted by table, one per table, each the latest unpaid order of its table, with a ticket for every table that has an unpaid order |
| Dashboard.KitchenOrders | frontend/src/pages/AdminPage.tsx:220-224 | The kitchen queue is sorted by date and is, copies counted, exactly the unpaid orders with a line not served in full |
| Dashboard.KitchenIffMissing | frontend/src/pages/AdminPage.tsx:220-224 | A listed order is in the kitchen queue exactly when it is unpaid and has missing units |
| Dashboard.KitchenByMissing | frontend/src/pages/AdminPage.tsx:225-232 | The "faltantes" ordering is a rearrangement of the kitchen queue with missing units non-increasing |
| Dashboard.GetCategoria | frontend/src/pages/AdminPage.tsx:253-259 | The lower-cased name decides: "taco" first, then "quesad", then a drink word, else otros |
| Dashboard.CategoriaIgnoresCase | frontend/src/pages/AdminPage.tsx:254 | Capitalisation of the name never changes its category |
| Dashboard.TacoWins | frontend/src/pages/AdminPage.tsx:255-256 | "Quesadilla TACO" is counted as tacos |
| Dashboard.AddLines | frontend/src/pages/AdminPage.tsx:263-268 | Running the inner loop over one order's lines raises each category count by exactly the units left over that order's lines of that category, and the four counts together by the order's missing units |
| Dashboard.AddOrders | frontend/src/pages/AdminPage.tsx:262-269 | Running the outer loop over the orders raises each category count by exactly the units left over all the orders' lines of that category, and the four together by the total missing units over the same orders |
| Dashboard.CategoriaCounts | frontend/src/pages/AdminPage.tsx:260-274 | Each category count is the sum over the orders of their units left in that category; the counts are non-negative and add up to the total missing units over the same orders |
| Dashboard.TotalFaltantes | frontend/src/pages/AdminPage.tsx:272-274 | The kitchen's missing-unit total is never negative, and zero exactly when no order has a line with units left; `Dashboard.CategoriaCounts` splits it by category |

## Left out

- Websocket plumbing, keep-alive, the polling fallback, toasts, the beep sound and every `fetch` of the dashboard are I/O and timers. The model keeps the message reducer, the beep decision and the backoff formula.
- The broadcast manager and start-up code in backend/main.py (migrations, CORS, static files) are async I/O and framework wiring. A broadcast is the `sent` event of a transition.
- Persistence: the SQLAlchemy session and database.py are not part of this model. The store is one immutable `Db` value. Rows are kept in insertion order, and ties in `ORDER BY fecha` are taken in that order. Ids come from a counter that is never reused; whether the real table reuses the highest deleted id depends on the database engine, which is not part of this model.
- HMAC-SHA256, hexdigest and base64 are parameters (`OrderToken.Mac`, `Finanzas.Codec`). The finance token's round trip assumes the laws in `Finanzas.Lawful`.
- PNG rendering, the logo fetch, zip writing and qr_generator/generate_qr.py are image and file I/O. The archive is modelled as its entry names and encoded texts.
- Money is float in the source and integer cents here. Rounding of `float(precio) * cantidad` is not modelled.
- Dates: `datetime.fromisoformat` is a parameter (`Finanzas.DateParser`). `Date.now`, `toDateUtc` and ISO text are not modelled; instants are integers.
- The server clock is a parameter `now` of `Ordenes.CrearOrden`, `Ordenes.CobrarOrden`, token generation and verification.
- Python `int()` leniency: `Strings.ParseInt` accepts an optional '+' or '-' and ASCII digits only. It refuses surrounding whitespace, underscores and non-ASCII digits, which Python accepts. `HexColor.PyIntHex` also models surrounding whitespace, since the colour finding rests on it.
- HexColor.PyIntHex: underscores between digits and non-ASCII decimal digits (Python's `int('٣٤', 16)` is 52) are refused here, while Python accepts them. Python also accepts a "0x"/"0X" prefix (`int('0x1f', 16)` is 31), which is refused here too; the colour code only reads two-character pairs, and "0x" alone has no digit, so no pair can reach that path. The model works on ASCII text only, so `HexColor.ParseHexColorAsWritten` gives the default colour for a body such as "#١٢٣" that the code would read as (17, 34, 51).
- Ordenes.CrearOrden: the pydantic validation of `mesa_numero` and item types (other than cantidad > 0) is not modelled, since the model's types already rule it out.
- Ordenes.OrderToOut: a missing product or table is a 500 in the model. In the source it is an AttributeError on None.
- Ordenes.CobrarOrden: a payment whose order names a deleted product fails with 500 after the checks. The delete guard makes this unreachable in a consistent database (`Productos.EliminarProductoValid`).
- Ordenes.OpenOrder: the order's fecha is the `now` parameter. As written, the column default fixes it at the process start instant (`Ordenes.OpenOrderAsWritten`, second finding).
- Finanzas.VerifyToken: its contract states soundness and that it never fails with an error. Exact acceptance is stated by `Finanzas.SignVerifyRoundTrip` for tokens from `Finanzas.SignToken`.
- HexColor.PyIntHex: its contract states only the value of a plain digit string. The sign and whitespace paths are exhibited by `HexColor.NegativePairValue` and `HexColor.SignedPairGoesNegative`.
- HexColor.ParseHexColorAsWritten: its contract states only the length rule. `HexColor.AgreesOnHexBodies` fixes its value on well-formed bodies and `HexColor.SignedPairGoesNegative` shows the signed case.
- Finanzas.DefaultCredentials: the environment variables that override the defaults are not modelled.
- HTTP header names are matched in lower case only; Starlette's case-insensitive lookup is not modelled.
- `listar_productos`, `logout`, `me`, `listar_pagos` and `get_qr_config` are left out. They are plain reads or cookie deletion, with no logic beyond what is modelled.
- The dashboard's `criticalCount` depends on wall-clock age. It is left out with the clock.
- The dashboard's optimistic patches after its own `fetch` calls (`updateEstado`, `cobrarOrden`) are left out. The server's broadcasts drive the modelled reducer.
- Dashboard.DownTimes: counts calls to handleDown, not sockets. One failed socket fires both onerror and onclose (frontend/src/pages/AdminPage.tsx:176-177), so it raises the count twice; the browser's event order is not modelled.
- Dashboard.SortOrders: its contract states sortedness and that no order is gained or lost. Equal dates keep their relative order, as under `Array.prototype.sort` (stable since ES2019), by the way `Sequences.Insert` places each order, but that stability is not stated as a contract.
- Dashboard.KitchenByMissing: the same holds for the "faltantes" ordering (frontend/src/pages/AdminPage.tsx:229). Its contract states non-increasing missing units and a rearrangement of the queue. Orders with equal missing units keep the queue's date order through `Sequences.SortBy`, but that is not stated as a contract.
- The category counts are stated over any list of orders. The dashboard applies them to `KitchenOrders`.
- UI-only pages (MenuPage, FinancePage, FinanceLogin, ProductCard) are a fetch plus form state. They are not modelled.

## Findings

| source | as written | input that shows it | evidently intended | confidence | as-written member | corrected member |
|---|---|---|---|---|---|---|
| backend/models.py:65 | `default=datetime.datetime.now(...)` is evaluated once when the module is imported, so every payment is stamped with the process start instant | server started at instant 0, order charged at instant 500, summary with desde = 500: the payment is not counted | stamp each payment with the instant it is recorded (a callable default) | not executed | Ordenes.CobrarOrdenAsWritten, Finanzas.StartupStampMissesPayment | Ordenes.CobrarOrden, Finanzas.CobroCountedInRange |
| backend/models.py:34 | the same import-time default for `Orden.fecha`, and `crear_orden` builds the order without a fecha, so every order is stamped with the process start instant | server started at instant 0, one order opened at instant 100 and another at instant 200: both carry fecha 0 | stamp each order with the instant it is opened | not executed | Ordenes.OpenOrderAsWritten, Ordenes.StartupStampTiesOrders | Ordenes.OpenOrder, Ordenes.OpenedOrdersKeepTheirInstants |
| backend/routes/admin.py:53-56 | `int(pair, 16)` accepts a sign or whitespace, so a six-character body such as "12-a00" passes | "#12-a00" parses to (18, -10, 0), a negative colour component | accept hexadecimal digits only and fall back to the default otherwise | not executed | HexColor.ParseHexColorAsWritten, HexColor.SignedPairGoesNegative | HexColor.ParseHexColor, HexColor.AgreesOnHexBodies |

=== FILE: api.dfy ===
/** The JSON shapes the order endpoints send and the admin dashboard receives
    (OrderItemOut and OrderOut on both sides of the wire). */
module Api {
  import opened Store

  /** One order line as sent to clients; entregado is recomputed from the counts. */
  datatype ItemOut = ItemOut(
    productoId: int,
    nombre: string,
    precio: int,
    cantidad: int,
    entregado: bool,
    entregados: int)

  datatype OrderOut = OrderOut(
    id: int,
    mesaNumero: int,
    fecha: int,
    estado: Estado,
    items: seq<ItemOut>,
    pagado: bool)

  /** The messages the order endpoints broadcast to connected dashboards. */
  datatype Event =
    | NewOrder(order: OrderOut)
    | UpdateOrder(order: OrderOut)
    | UpdateStatus(id: int, estado: Estado)
    | OrderPaid(ordenId: int)
}

=== FILE: base.dfy ===
/** Shared result types: an optional value, and the outcome of an HTTP handler,
    which either returns a value or raises an HTTPException with a status code
    and a detail message. */
module Base {

  datatype Option<+T> = None | Some(value: T)

  /** The payload of a raised HTTPException (or of a request-validation
      failure, status 422, raised before the handler runs). */
  datatype HttpError = HttpError(status: int, detail: string)

  datatype Result<+T> = Ok(value: T) | Err(error: HttpError) {

    predicate IsFailure() {
      Err?
    }

    function PropagateFailure<U>(): Result<U>
      requires Err?
    {
      Err(error)
    }

    function Extract(): T
      requires Ok?
    {
      value
    }
  }

  /** Builds a failed result from a status code and a detail message. */
  function Fail<T>(status: int, detail: string): Result<T>
  {
    Err(HttpError(status, detail))
  }
}

=== FILE: cart.dfy ===
/** The customer's cart on the menu page: one line per product with its
    quantity, and the reducer actions that add one unit, remove one unit,
    empty the cart, and the running total. Prices are integer cents. */
module Cart {
  import opened Base
  import opened Sequences

  /** A product as the menu shows it. */
  datatype MenuProduct = MenuProduct(id: int, nombre: string, precio: int)

  datatype CartItem = CartItem(productoId: int, nombre: string, precio: int, cantidad: int)

  /** What the reducers keep: one line per product, each holding at least one unit. */
  predicate CartOk(items: seq<CartItem>) {
    && (forall i :: 0 <= i < |items| ==> items[i].cantidad >= 1)
    && DistinctBy(items, Id)
  }

  function Id(it: CartItem): int {
    it.productoId
  }

  /** The first cart line for the product, if there is one. */
  function LineFor(items: seq<CartItem>, id: int): Option<nat> {
    FindFirst(items, (it: CartItem) => it.productoId == id)
  }

  /** increment: a product not in the cart is appended with one unit; otherwise
      every line of the product gains one unit and nothing else changes. */
  function Increment(items: seq<CartItem>, p: MenuProduct): (r: seq<CartItem>)
    ensures LineFor(items, p.id).None? ==> r == items + [CartItem(p.id, p.nombre, p.precio, 1)]
    ensures LineFor(items, p.id).Some? ==>
              && |r| == |items|
              && forall i :: 0 <= i < |items| ==>
                   r[i] == if items[i].productoId == p.id then items[i].(cantidad := items[i].cantidad + 1) else items[i]
  {
    match LineFor(items, p.id)
    case None => items + [CartItem(p.id, p.nombre, p.precio, 1)]
    case Some(_) =>
      seq(|items|, i requires 0 <= i < |items| =>
        if items[i].productoId == p.id then items[i].(cantidad := items[i].cantidad + 1) else items[i])
  }

  function Other(id: int): CartItem -> bool {
    (it: CartItem) => it.productoId != id
  }

  /** decrement: an absent product leaves the cart as it is; a line with at
      most one unit disappears; otherwise the product loses one unit. */
  function Decrement(items: seq<CartItem>, id: int): (r: seq<CartItem>)
    ensures LineFor(items, id).None? ==> r == items
    ensures LineFor(items, id).Some? && items[LineFor(items, id).value].cantidad <= 1 ==>
              && (forall i :: 0 <= i < |r| ==> r[i].productoId != id)
              && r == Filter(items, Other(id))
    ensures LineFor(items, id).Some? && items[LineFor(items, id).value].cantidad > 1 ==>
              && |r| == |items|
              && forall i :: 0 <= i < |items| ==>
                   r[i] == if items[i].productoId == id then items[i].(cantidad := items[i].cantidad - 1) else items[i]
  {
    match LineFor(items, id)
    case None => items
    case Some(k) =>
      if items[k].cantidad <= 1 then Filter(items, Other(id))
      else
        seq(|items|, i requires 0 <= i < |items| =>
          if items[i].productoId == id then items[i].(cantidad := items[i].cantidad - 1) else items[i])
  }

  /** clear: the empty cart, which the reducers' invariant admits. */
  function Clear(): (r: seq<CartItem>)
    ensures |r| == 0 && CartOk(r)
  {
    []
  }

  function LineTotal(it: CartItem): int {
    it.precio * it.cantidad
  }

  /** total: the sum of price times quantity over the lines. A valid cart of
      products with non-negative prices never totals below zero. */
  function Total(items: seq<CartItem>): (r: int)
    ensures CartOk(items) && (forall i :: 0 <= i < |items| ==> items[i].precio >= 0) ==> r >= 0
  {
    LinesNonNegative(items);
    Sum(items, LineTotal)
  }

  lemma LinesNonNegative(items: seq<CartItem>)
    ensures CartOk(items) && (forall i :: 0 <= i < |items| ==> items[i].precio >= 0) ==> Sum(items, LineTotal) >= 0
  {
    if CartOk(items) && (forall i :: 0 <= i < |items| ==> items[i].precio >= 0) {
      forall i | 0 <= i < |items|
        ensures LineTotal(items[i]) >= 0
      {
        NonNegativeProduct(items[i].precio, items[i].cantidad);
      }
      SumNonNegative(items, LineTotal);
    }
  }

  /** The total of two carts side by side is the sum of their totals: the
      reduce adds each line once, whatever the others hold. */
  lemma {:induction false} TotalConcat(a: seq<CartItem>, b: seq<CartItem>)
    ensures Total(a + b) == Total(a) + Total(b)
  {
    SumConcat(a, b, LineTotal);
  }

  // ---------------------------------------------------------------------------
  // Properties
  // ---------------------------------------------------------------------------

  lemma IncrementKeepsCartOk(items: seq<CartItem>, p: MenuProduct)
    requires CartOk(items)
    ensures CartOk(Increment(items, p))
  {
  }

  lemma DecrementKeepsCartOk(items: seq<CartItem>, id: int)
    requires CartOk(items)
    ensures CartOk(Decrement(items, id))
  {
    var r := Decrement(items, id);
    if LineFor(items, id).Some? && items[LineFor(items, id).value].cantidad <= 1 {
      FilterKeepsDistinct(items, Other(id), Id);
    }
  }

  /** Adding a unit raises the total by the price the cart line carries. */
  lemma IncrementTotal(items: seq<CartItem>, p: MenuProduct)
    requires CartOk(items)
    ensures LineFor(items, p.id).None? ==> Total(Increment(items, p)) == Total(items) + p.precio
    ensures LineFor(items, p.id).Some? ==>
              Total(Increment(items, p)) == Total(items) + items[LineFor(items, p.id).value].precio
  {
    var r := Increment(items, p);
    match LineFor(items, p.id)
    case None =>
      SumConcat(items, [CartItem(p.id, p.nombre, p.precio, 1)], LineTotal);
    case Some(k) =>
      assert r == items[k := items[k].(cantidad := items[k].cantidad + 1)];
      SumUpdate(items, k, items[k].(cantidad := items[k].cantidad + 1), LineTotal);
  }

  /** Removing the unit just added gives back the cart as it was. */
  lemma DecrementUndoesIncrement(items: seq<CartItem>, p: MenuProduct)
    requires CartOk(items)
    ensures Decrement(Increment(items, p), p.id) == items
  {
    if LineFor(items, p.id).None? {
      UndoNewLine(items, p);
    } else {
      UndoBump(items, p, LineFor(items, p.id).value);
    }
  }

  lemma UndoNewLine(items: seq<CartItem>, p: MenuProduct)
    requires LineFor(items, p.id).None?
    ensures Decrement(Increment(items, p), p.id) == items
  {
    var inc := Increment(items, p);
    var x := CartItem(p.id, p.nombre, p.precio, 1);
    assert forall i :: 0 <= i < |items| ==> inc[i] == items[i] && inc[i].productoId != p.id;
    assert inc[|items|] == x;
    assert LineFor(inc, p.id) == Some(|items|);
    FilterConcat(items, [x], Other(p.id));
    FilterAll(items, Other(p.id));
  }

  lemma UndoBump(items: seq<CartItem>, p: MenuProduct, k: nat)
    requires CartOk(items)
    requires LineFor(items, p.id) == Some(k)
    ensures Decrement(Increment(items, p), p.id) == items
  {
    var inc := Increment(items, p);
    assert LineFor(inc, p.id) == Some(k);
    assert inc[k].cantidad > 1;
    var dec := Decrement(inc, p.id);
    assert forall i :: 0 <= i < |items| ==> dec[i] == items[i];
  }

  /** The empty cart costs nothing. */
  lemma ClearTotal()
    ensures Total(Clear()) == 0
  {
  }
}

=== FILE: dashboard.dfy ===
/** The admin dashboard's view of the orders: the reducer that folds the
    broadcast messages into its list, the reconnect backoff, and the views it
    derives from the list (one ticket per table, the kitchen queue, the
    missing-unit counts and their split by category). Order dates are the
    integer instants the list is sorted by. */
module Dashboard {
  import opened Base
  import opened Strings
  import opened Sequences
  import opened Store
  import opened Api

  function Id(o: OrderOut): int {
    o.id
  }

  function Fecha(o: OrderOut): int {
    o.fecha
  }

  function MesaKey(o: OrderOut): int {
    o.mesaNumero
  }

  // ---------------------------------------------------------------------------
  // Missing units
  // ---------------------------------------------------------------------------

  /** The units of a line still to serve: what was ordered minus what was
      served, and none once it is served in full. */
  function Missing(it: ItemOut): (n: int)
    ensures n >= 0
    ensures n == 0 <==> it.entregados >= it.cantidad
    ensures n > 0 ==> n == it.cantidad - it.entregados
  {
    Max(0, it.cantidad - it.entregados)
  }

  /** faltantesOrden: the units of an order still to serve. It is never
      negative, and while no line reports more units served than ordered it
      is the units ordered less the units served. */
  function Faltantes(o: OrderOut): (n: int)
    ensures n >= 0
    ensures (forall i :: 0 <= i < |o.items| ==> o.items[i].entregados <= o.items[i].cantidad) ==>
              n == Sum(o.items, Ordered) - Sum(o.items, Served)
  {
    MissingUnits(o.items);
    Sum(o.items, Missing)
  }

  function Ordered(it: ItemOut): int {
    it.cantidad
  }

  function Served(it: ItemOut): int {
    it.entregados
  }

  lemma MissingUnits(items: seq<ItemOut>)
    ensures Sum(items, Missing) >= 0
    ensures (forall i :: 0 <= i < |items| ==> items[i].entregados <= items[i].cantidad) ==>
              Sum(items, Missing) == Sum(items, Ordered) - Sum(items, Served)
  {
    SumNonNegative(items, Missing);
    if forall i :: 0 <= i < |items| ==> items[i].entregados <= items[i].cantidad {
      SumDifference(items, Ordered, Served, Missing);
    }
  }

  /** Some line of the order has fewer units served than ordered. */
  predicate HasMissing(o: OrderOut) {
    exists i :: 0 <= i < |o.items| && o.items[i].entregados < o.items[i].cantidad
  }

  /** An order's missing count is never negative, and it is zero exactly when
      every line is served in full. */
  lemma FaltantesZero(o: OrderOut)
    ensures Faltantes(o) >= 0
    ensures Faltantes(o) == 0 <==> !HasMissing(o)
  {
    SumNonNegative(o.items, Missing);
    if HasMissing(o) {
      var i :| 0 <= i < |o.items| && o.items[i].entregados < o.items[i].cantidad;
      assert Missing(o.items[i]) != 0;
    }
  }

  // ---------------------------------------------------------------------------
  // The message reducer
  // ---------------------------------------------------------------------------

  /** The list after an incoming message, and whether the alert sounds. */
  datatype Reaction = Reaction(orders: seq<OrderOut>, beep: bool)

  function IndexOfId(orders: seq<OrderOut>, id: int): Option<nat> {
    FindFirst(orders, (o: OrderOut) => o.id == id)
  }

  /** findIndex by id, then replace in place or append. The list grows only
      for an id not yet listed, the order is listed afterwards, and every
      order with another id stays where it was. */
  function Upsert(orders: seq<OrderOut>, o: OrderOut): (r: seq<OrderOut>)
    ensures IndexOfId(orders, o.id).Some? ==> r == orders[IndexOfId(orders, o.id).value := o]
    ensures IndexOfId(orders, o.id).None? ==> r == orders + [o]
    ensures |r| == |orders| + (if IndexOfId(orders, o.id).None? then 1 else 0)
    ensures o in r
    ensures forall i :: 0 <= i < |orders| && orders[i].id != o.id ==> r[i] == orders[i]
  {
    match IndexOfId(orders, o.id)
    case Some(k) =>
      assert orders[k].id == o.id;
      assert orders[k := o][k] == o;
      orders[k := o]
    case None => orders + [o]
  }

  /** sortOrders: by date, earliest first. */
  function SortOrders(orders: seq<OrderOut>): (r: seq<OrderOut>)
    ensures SortedBy(r, Fecha) && multiset(r) == multiset(orders)
  {
    SortBy(orders, Fecha)
  }

  /** ws.onmessage. new_order and update_order upsert the order and re-sort;
      new_order sounds the alert only for an order not yet listed, update_order
      also when the missing count of the listed order grew. update_status
      patches the state of the matching orders, order_paid drops them. The
      alert also needs the sound switch on. */
  function Apply(orders: seq<OrderOut>, ev: Event, sound: bool): (r: Reaction)
    ensures ev.NewOrder? || ev.UpdateOrder? ==>
              && SortedBy(r.orders, Fecha)
              && multiset(r.orders) == multiset(Upsert(orders, ev.order))
    ensures ev.NewOrder? ==> (r.beep <==> sound && IndexOfId(orders, ev.order.id).None?)
    ensures ev.UpdateOrder? ==>
              (r.beep <==> sound && (IndexOfId(orders, ev.order.id).None? ||
                                     Faltantes(ev.order) > Faltantes(orders[IndexOfId(orders, ev.order.id).value])))
    ensures ev.UpdateStatus? ==>
              && !r.beep && |r.orders| == |orders|
              && forall i :: 0 <= i < |orders| ==>
                   r.orders[i] == if orders[i].id == ev.id then orders[i].(estado := ev.estado) else orders[i]
    ensures ev.OrderPaid? ==>
              && !r.beep
              && (forall i :: 0 <= i < |r.orders| ==> r.orders[i].id != ev.ordenId && r.orders[i] in orders)
              && (forall i :: 0 <= i < |orders| && orders[i].id != ev.ordenId ==> orders[i] in r.orders)
    ensures ev.OrderPaid? ==>
              forall x :: multiset(r.orders)[x] == if x.id != ev.ordenId then multiset(orders)[x] else 0
    ensures ev.OrderPaid? ==>
              var kept := KeptPositions(orders, Survives(ev.ordenId));
              && |kept| == |r.orders|
              && (forall k :: 0 <= k < |r.orders| ==> kept[k] < |orders| && r.orders[k] == orders[kept[k]])
              && (forall k, l :: 0 <= k < l < |r.orders| ==> kept[k] < kept[l])
  {
    match ev
    case NewOrder(o) =>
      Reaction(SortOrders(Upsert(orders, o)), sound && IndexOfId(orders, o.id).None?)
    case UpdateOrder(o) =>
      var grew := match IndexOfId(orders, o.id)
                  case None => true
                  case Some(k) => Faltantes(o) > Faltantes(orders[k]);
      Reaction(SortOrders(Upsert(orders, o)), sound && grew)
    case UpdateStatus(id, estado) =>
      Reaction(seq(|orders|, i requires 0 <= i < |orders| =>
                 if orders[i].id == id then orders[i].(estado := estado) else orders[i]), false)
    case OrderPaid(id) =>
      Reaction(DropPaid(orders, id), false)
  }

  /** order_paid's filter: every order with another id, each as often as
      before and in the same relative order. */
  function DropPaid(orders: seq<OrderOut>, id: int): (r: seq<OrderOut>)
    ensures forall i :: 0 <= i < |r| ==> r[i].id != id && r[i] in orders
    ensures forall i :: 0 <= i < |orders| && orders[i].id != id ==> orders[i] in r
    ensures forall x :: multiset(r)[x] == if x.id != id then multiset(orders)[x] else 0
    ensures var kept := KeptPositions(orders, Survives(id));
            && |kept| == |r|
            && (forall k :: 0 <= k < |r| ==> kept[k] < |orders| && r[k] == orders[kept[k]])
            && (forall k, l :: 0 <= k < l < |r| ==> kept[k] < kept[l])
  {
    FilterMultiset(orders, Survives(id));
    KeptPositionsShape(orders, Survives(id));
    FilterKeepsOrder(orders, Survives(id));
    Filter(orders, Survives(id))
  }

  /** The orders a payment message for id leaves listed. */
  function Survives(id: int): OrderOut -> bool {
    (o: OrderOut) => o.id != id
  }

  /** An upsert leaves the given order listed once, and every other order as it was. */
  lemma UpsertContents(orders: seq<OrderOut>, o: OrderOut)
    requires DistinctBy(orders, Id)
    ensures DistinctBy(Upsert(orders, o), Id)
    ensures o in Upsert(orders, o)
    ensures forall x :: x in Upsert(orders, o) && x.id != o.id ==> x in orders
    ensures forall x :: x in orders && x.id != o.id ==> x in Upsert(orders, o)
  {
    var r := Upsert(orders, o);
    match IndexOfId(orders, o.id)
    case Some(k) =>
      assert r == orders[k := o] && r[k] == o;
      forall i, j | 0 <= i < j < |r|
        ensures Id(r[i]) != Id(r[j])
      {
        assert Id(r[i]) == Id(orders[i]) && Id(r[j]) == Id(orders[j]);
      }
      forall x | x in orders && x.id != o.id
        ensures x in r
      {
        var j :| 0 <= j < |orders| && orders[j] == x;
        assert r[j] == x;
      }
      forall x | x in r && x.id != o.id
        ensures x in orders
      {
        var j :| 0 <= j < |r| && r[j] == x;
        assert j != k;
      }
    case None =>
      assert r[|orders|] == o;
  }

  /** No message makes two listed orders share an id. */
  lemma ApplyKeepsIdsUnique(orders: seq<OrderOut>, ev: Event, sound: bool)
    requires DistinctBy(orders, Id)
    ensures DistinctBy(Apply(orders, ev, sound).orders, Id)
  {
    match ev
    case NewOrder(o) =>
      UpsertContents(orders, o);
      PermutationKeepsDistinct(Upsert(orders, o), SortOrders(Upsert(orders, o)), Id);
    case UpdateOrder(o) =>
      UpsertContents(orders, o);
      PermutationKeepsDistinct(Upsert(orders, o), SortOrders(Upsert(orders, o)), Id);
    case UpdateStatus(id, estado) =>
    case OrderPaid(id) =>
      FilterKeepsDistinct(orders, Survives(id), Id);
  }

  /** After an upsert message the list holds the sent order, and apart from
      the orders with its id, exactly the orders it held before. */
  lemma ApplyUpserts(orders: seq<OrderOut>, ev: Event, sound: bool)
    requires ev.NewOrder? || ev.UpdateOrder?
    requires DistinctBy(orders, Id)
    ensures ev.order in Apply(orders, ev, sound).orders
    ensures forall x :: x in Apply(orders, ev, sound).orders && x.id != ev.order.id ==> x in orders
    ensures forall x :: x in orders && x.id != ev.order.id ==> x in Apply(orders, ev, sound).orders
  {
    var u := Upsert(orders, ev.order);
    var r := Apply(orders, ev, sound).orders;
    UpsertContents(orders, ev.order);
    assert forall x :: x in r <==> x in multiset(r);
    assert forall x :: x in u <==> x in multiset(u);
  }

  /** Every message keeps a date-sorted list sorted: the upserts re-sort,
      update_status leaves every date in place and order_paid only drops
      orders. */
  lemma ApplyKeepsSorted(orders: seq<OrderOut>, ev: Event, sound: bool)
    requires SortedBy(orders, Fecha)
    ensures SortedBy(Apply(orders, ev, sound).orders, Fecha)
  {
    var r := Apply(orders, ev, sound).orders;
    match ev
    case NewOrder(o) =>
    case UpdateOrder(o) =>
    case UpdateStatus(id, estado) =>
      assert forall i :: 0 <= i < |r| ==> Fecha(r[i]) == Fecha(orders[i]);
    case OrderPaid(id) =>
      FilterKeepsSorted(orders, Survives(id), Fecha);
  }

  /** A payment message leaves no order with that id behind. */
  lemma PaidOrderGone(orders: seq<OrderOut>, id: int, sound: bool)
    ensures IndexOfId(Apply(orders, OrderPaid(id), sound).orders, id).None?
  {
  }

  // ---------------------------------------------------------------------------
  // Reconnect backoff
  // ---------------------------------------------------------------------------

  const MAX_DELAY := 15000

  function Pow2(n: nat): (p: nat)
    ensures p >= 1
  {
    if n == 0 then 1 else 2 * Pow2(n - 1)
  }

  /** handleDown: min(15000, 1000 * 2^attempts) milliseconds. */
  function Delay(attempts: nat): (d: int)
    ensures 1000 <= d <= MAX_DELAY
    ensures attempts < 4 ==> d == 1000 * Pow2(attempts)
    ensures attempts >= 4 ==> d == MAX_DELAY
  {
    Pow2AtLeast16(attempts);
    Min(MAX_DELAY, 1000 * Pow2(attempts))
  }

  function Min(a: int, b: int): int {
    if a < b then a else b
  }

  lemma {:induction false} Pow2AtLeast16(n: nat)
    ensures n >= 4 ==> Pow2(n) >= 16
  {
    if n > 4 {
      Pow2AtLeast16(n - 1);
    }
  }

  lemma {:induction false} Pow2Monotone(a: nat, b: nat)
    requires a <= b
    ensures Pow2(a) <= Pow2(b)
    decreases b
  {
    if a < b {
      Pow2Monotone(a, b - 1);
    }
  }

  /** Waiting longer after more failures, never shorter. */
  lemma DelayMonotone(a: nat, b: nat)
    requires a <= b
    ensures Delay(a) <= Delay(b)
  {
    Pow2Monotone(a, b);
  }

  /** A disconnect waits Delay(attempts) and counts one more attempt; a successful open resets the count. */
  datatype Backoff = Backoff(delay: int, attempts: nat)

  /** handleDown: waits between 1 and 15 seconds, counts one more attempt,
      and the wait of the next call is never shorter than this one. */
  function OnDown(attempts: nat): (r: Backoff)
    ensures r.attempts == attempts + 1 && r.delay == Delay(attempts)
    ensures 1000 <= r.delay <= MAX_DELAY
    ensures r.delay <= Delay(r.attempts)
  {
    DelayMonotone(attempts, attempts + 1);
    Backoff(Delay(attempts), attempts + 1)
  }

  /** After n calls to handleDown in a row the count is n and the last wait
      is capped at 15 seconds from the fifth on. A failed socket fires both
      onerror and onclose, so it makes two calls. */
  function DownTimes(n: nat): (r: Backoff)
    ensures r.attempts == n
    ensures n >= 1 ==> r.delay == Delay(n - 1)
    ensures n >= 5 ==> r.delay == MAX_DELAY
  {
    if n == 0 then Backoff(0, 0) else OnDown(DownTimes(n - 1).attempts)
  }

  /** Over a run of handleDown calls the waits never shrink: a later call
      waits at least as long as an earlier one. */
  lemma DownTimesNeverShorter(a: nat, b: nat)
    requires 1 <= a <= b
    ensures DownTimes(a).delay <= DownTimes(b).delay
  {
    DelayMonotone(a - 1, b - 1);
  }

  // ---------------------------------------------------------------------------
  // Tickets: one per table
  // ---------------------------------------------------------------------------

  function IndexOfMesa(byMesa: seq<OrderOut>, mesa: int): Option<nat> {
    FindFirst(byMesa, (o: OrderOut) => o.mesaNumero == mesa)
  }

  /** One pass of the tickets loop over the Map keyed by table: a paid order
      is skipped; a table seen first is added at the end; a later-dated order
      of a table already present takes its place. */
  function TicketStep(byMesa: seq<OrderOut>, o: OrderOut): seq<OrderOut> {
    if o.pagado then byMesa
    else match IndexOfMesa(byMesa, o.mesaNumero)
      case None => byMesa + [o]
      case Some(k) => if o.fecha > byMesa[k].fecha then byMesa[k := o] else byMesa
  }

  /** Every listed order is an unpaid order of seen. */
  predicate FromUnpaid(r: seq<OrderOut>, seen: seq<OrderOut>) {
    forall x :: x in r ==> x in seen && !x.pagado
  }

  /** No unpaid order of seen is dated after the listed order of its table. */
  predicate LatestOf(r: seq<OrderOut>, seen: seq<OrderOut>) {
    forall x, j :: x in r && 0 <= j < |seen| && !seen[j].pagado && seen[j].mesaNumero == x.mesaNumero
                   ==> seen[j].fecha <= x.fecha
  }

  predicate Listed(r: seq<OrderOut>, mesa: int) {
    exists x :: x in r && x.mesaNumero == mesa
  }

  /** Every table with an unpaid order in seen is listed. */
  predicate Covers(r: seq<OrderOut>, seen: seq<OrderOut>) {
    forall j :: 0 <= j < |seen| && !seen[j].pagado ==> Listed(r, seen[j].mesaNumero)
  }

  /** The Map after the loop has visited every order, in insertion order:
      unpaid orders only, one per table, each the latest of its table, and
      every table with an unpaid order present. */
  function ByMesa(orders: seq<OrderOut>): (r: seq<OrderOut>)
    ensures FromUnpaid(r, orders) && DistinctBy(r, MesaKey)
    ensures LatestOf(r, orders) && Covers(r, orders)
    decreases |orders|
  {
    if |orders| == 0 then []
    else
      var seen := orders[..|orders| - 1];
      var prev := ByMesa(seen);
      var o := orders[|orders| - 1];
      assert orders == seen + [o];
      StepFromUnpaid(seen, prev, o);
      StepDistinct(prev, o);
      StepLatest(seen, prev, o);
      StepCovers(seen, prev, o);
      assert Covers(prev, seen);
      TicketStep(prev, o)
  }

  lemma StepFromUnpaid(seen: seq<OrderOut>, prev: seq<OrderOut>, o: OrderOut)
    requires FromUnpaid(prev, seen)
    ensures FromUnpaid(TicketStep(prev, o), seen + [o])
  {
    var r := TicketStep(prev, o);
    forall x | x in r
      ensures x in seen + [o] && !x.pagado
    {
      if x != o {
        var i :| 0 <= i < |r| && r[i] == x;
        assert x in prev;
      }
    }
  }

  lemma StepDistinct(prev: seq<OrderOut>, o: OrderOut)
    requires DistinctBy(prev, MesaKey)
    ensures DistinctBy(TicketStep(prev, o), MesaKey)
  {
    var r := TicketStep(prev, o);
    if !o.pagado {
      match IndexOfMesa(prev, o.mesaNumero)
      case None =>
      case Some(k) =>
        forall i, j | 0 <= i < j < |r|
          ensures MesaKey(r[i]) != MesaKey(r[j])
        {
          assert MesaKey(r[i]) == MesaKey(prev[i]) && MesaKey(r[j]) == MesaKey(prev[j]);
        }
    }
  }

  lemma StepLatest(seen: seq<OrderOut>, prev: seq<OrderOut>, o: OrderOut)
    requires FromUnpaid(prev, seen) && DistinctBy(prev, MesaKey) && LatestOf(prev, seen) && Covers(prev, seen)
    ensures LatestOf(TicketStep(prev, o), seen + [o])
  {
    var r := TicketStep(prev, o);
    var all := seen + [o];
    if IndexOfMesa(prev, o.mesaNumero).None? {
      forall j | 0 <= j < |seen| && !seen[j].pagado
        ensures seen[j].mesaNumero != o.mesaNumero
      {
        var y :| y in prev && y.mesaNumero == seen[j].mesaNumero;
        var q :| 0 <= q < |prev| && prev[q] == y;
      }
    }
    forall x, j | x in r && 0 <= j < |all| && !all[j].pagado && all[j].mesaNumero == x.mesaNumero
      ensures all[j].fecha <= x.fecha
    {
      var i :| 0 <= i < |r| && r[i] == x;
      if o.pagado {
        assert j < |seen| && all[j] == seen[j];
      } else {
        match IndexOfMesa(prev, o.mesaNumero)
        case None =>
          if i < |prev| {
            assert x in prev && prev[i].mesaNumero != o.mesaNumero;
            assert j < |seen| && all[j] == seen[j];
          }
        case Some(k) =>
          if o.fecha > prev[k].fecha {
            assert r == prev[k := o];
            if i == k {
              assert x == o;
              if j < |seen| {
                assert all[j] == seen[j] && prev[k] in prev;
                assert seen[j].fecha <= prev[k].fecha;
              }
            } else {
              assert x == prev[i] && MesaKey(prev[i]) != MesaKey(prev[k]);
              assert j < |seen| && all[j] == seen[j];
            }
          } else {
            assert r == prev;
            assert x == prev[i];
            if j == |seen| {
              assert MesaKey(prev[i]) == MesaKey(prev[k]);
              assert i == k;
            } else {
              assert all[j] == seen[j];
            }
          }
      }
    }
  }

  lemma StepCovers(seen: seq<OrderOut>, prev: seq<OrderOut>, o: OrderOut)
    requires Covers(prev, seen)
    ensures Covers(TicketStep(prev, o), seen + [o])
  {
    var r := TicketStep(prev, o);
    var all := seen + [o];
    forall m | Listed(prev, m)
      ensures Listed(r, m)
    {
      var x :| x in prev && x.mesaNumero == m;
      var i :| 0 <= i < |prev| && prev[i] == x;
      assert r[i].mesaNumero == m;
    }
    if !o.pagado {
      match IndexOfMesa(prev, o.mesaNumero)
      case None =>
        assert r[|prev|] == o;
      case Some(k) =>
        assert r[k].mesaNumero == o.mesaNumero;
    }
    forall j | 0 <= j < |all| && !all[j].pagado
      ensures Listed(r, all[j].mesaNumero)
    {
      if j < |seen| {
        assert all[j] == seen[j];
      }
    }
  }

  /** tickets: the per-table orders sorted by table number. */
  function Tickets(orders: seq<OrderOut>): (r: seq<OrderOut>)
    ensures SortedBy(r, MesaKey)
    ensures multiset(r) == multiset(ByMesa(orders))
  {
    SortBy(ByMesa(orders), MesaKey)
  }

  /** What the ticket view shows: unpaid orders of the list, sorted by table,
      at most one per table, which is the latest of that table, and a ticket
      for every table with an unpaid order. */
  lemma TicketsShape(orders: seq<OrderOut>)
    ensures SortedBy(Tickets(orders), MesaKey) && DistinctBy(Tickets(orders), MesaKey)
    ensures FromUnpaid(Tickets(orders), orders)
    ensures LatestOf(Tickets(orders), orders)
    ensures Covers(Tickets(orders), orders)
  {
    var b := ByMesa(orders);
    var t := Tickets(orders);
    PermutationKeepsDistinct(b, t, MesaKey);
    SameElements(b, t);
  }

  /** Sequences with the same multiset hold the same elements. */
  lemma SameElements<T>(a: seq<T>, b: seq<T>)
    requires multiset(a) == multiset(b)
    ensures forall x :: x in a <==> x in b
  {
    forall x
      ensures x in a <==> x in b
    {
      assert x in a <==> x in multiset(a);
      assert x in b <==> x in multiset(b);
    }
  }

  // ---------------------------------------------------------------------------
  // Kitchen queue
  // ---------------------------------------------------------------------------

  predicate InKitchen(o: OrderOut) {
    !o.pagado && HasMissing(o)
  }

  /** kitchenOrders: the unpaid orders with a line not served in full, earliest
      first; a rearrangement of the filtered list, copies included. */
  function KitchenOrders(orders: seq<OrderOut>): (r: seq<OrderOut>)
    ensures SortedBy(r, Fecha)
    ensures multiset(r) == multiset(Filter(orders, InKitchen))
    ensures forall x :: x in r <==> x in orders && InKitchen(x)
  {
    var f := Filter(orders, InKitchen);
    var r := SortOrders(f);
    SameElements(f, r);
    r
  }

  function LessMissing(o: OrderOut): int {
    -Faltantes(o)
  }

  /** cocinaOrdersSorted under the "faltantes" choice: the kitchen queue with
      the most units still to serve first. */
  function KitchenByMissing(orders: seq<OrderOut>): (r: seq<OrderOut>)
    ensures forall i, j :: 0 <= i < j < |r| ==> Faltantes(r[i]) >= Faltantes(r[j])
    ensures multiset(r) == multiset(KitchenOrders(orders))
  {
    var r := SortBy(KitchenOrders(orders), LessMissing);
    assert forall i, j :: 0 <= i < j < |r| ==> LessMissing(r[i]) <= LessMissing(r[j]);
    r
  }

  /** An order is in the kitchen queue exactly when it is unpaid and has units left to serve. */
  lemma KitchenIffMissing(orders: seq<OrderOut>, o: OrderOut)
    requires o in orders
    ensures o in KitchenOrders(orders) <==> !o.pagado && Faltantes(o) > 0
  {
    FaltantesZero(o);
  }

  // ---------------------------------------------------------------------------
  // Categories
  // ---------------------------------------------------------------------------

  datatype Categoria = Tacos | Quesadillas | Bebidas | Otros

  predicate IsDrink(n: string) {
    Contains(n, "refresc") || Contains(n, "bebida") || Contains(n, "agua") || Contains(n, "soda")
  }

  /** getCategoria: the first keyword found in the lower-cased name decides,
      tacos before quesadillas before drinks; anything else is "otros". */
  function GetCategoria(nombre: string): (c: Categoria)
    ensures c == Tacos <==> Contains(Lower(nombre), "taco")
    ensures c == Quesadillas <==> !Contains(Lower(nombre), "taco") && Contains(Lower(nombre), "quesad")
    ensures c == Bebidas <==> !Contains(Lower(nombre), "taco") && !Contains(Lower(nombre), "quesad") && IsDrink(Lower(nombre))
    ensures c == Otros <==> !Contains(Lower(nombre), "taco") && !Contains(Lower(nombre), "quesad") && !IsDrink(Lower(nombre))
  {
    var n := Lower(nombre);
    if Contains(n, "taco") then Tacos
    else if Contains(n, "quesad") then Quesadillas
    else if IsDrink(n) then Bebidas
    else Otros
  }

  /** The category does not depend on how the name is capitalised. */
  lemma CategoriaIgnoresCase(nombre: string)
    ensures GetCategoria(Upper(nombre)) == GetCategoria(nombre)
  {
    LowerOfUpper(nombre);
  }

  /** A name with "taco" anywhere is a taco, even when it also names a quesadilla. */
  lemma TacoWins()
    ensures GetCategoria("Quesadilla TACO") == Tacos
  {
    var n := Lower("Quesadilla TACO");
    assert n[11..15] == "taco";
    ContainsAt(n, "taco", 11);
  }

  /** A text that occurs at position k is contained. */
  lemma {:induction false} ContainsAt(s: string, sub: string, k: nat)
    requires k + |sub| <= |s| && s[k..k + |sub|] == sub
    ensures Contains(s, sub)
    decreases k
  {
    if k > 0 {
      assert s[1..][k - 1..k - 1 + |sub|] == s[k..k + |sub|];
      ContainsAt(s[1..], sub, k - 1);
    }
  }

  // ---------------------------------------------------------------------------
  // Category counts
  // ---------------------------------------------------------------------------

  datatype Counts = Counts(tacos: int, quesadillas: int, bebidas: int, otros: int)

  function CountsTotal(c: Counts): int {
    c.tacos + c.quesadillas + c.bebidas + c.otros
  }

  /** Adds n units to one category's count. */
  function AddTo(c: Counts, cat: Categoria, n: int): (r: Counts)
    ensures r.tacos == c.tacos + (if cat == Tacos then n else 0)
    ensures r.quesadillas == c.quesadillas + (if cat == Quesadillas then n else 0)
    ensures r.bebidas == c.bebidas + (if cat == Bebidas then n else 0)
    ensures r.otros == c.otros + (if cat == Otros then n else 0)
  {
    match cat
    case Tacos => c.(tacos := c.tacos + n)
    case Quesadillas => c.(quesadillas := c.quesadillas + n)
    case Bebidas => c.(bebidas := c.bebidas + n)
    case Otros => c.(otros := c.otros + n)
  }

  predicate NonNegative(c: Counts) {
    c.tacos >= 0 && c.quesadillas >= 0 && c.bebidas >= 0 && c.otros >= 0
  }

  /** The units left over the lines of category c. */
  function MissingIn(items: seq<ItemOut>, c: Categoria): (n: int)
    ensures n >= 0
    decreases |items|
  {
    if |items| == 0 then 0
    else (if GetCategoria(items[0].nombre) == c then Missing(items[0]) else 0) + MissingIn(items[1..], c)
  }

  /** The units left over the orders' lines of category c. */
  function FaltantesIn(orders: seq<OrderOut>, c: Categoria): (n: int)
    ensures n >= 0
    decreases |orders|
  {
    if |orders| == 0 then 0 else MissingIn(orders[0].items, c) + FaltantesIn(orders[1..], c)
  }

  /** The inner loop of categoriaCounts over one order's lines: a line with
      units left adds them to its category, so each count grows by the units
      left over the lines of that category, and all of them together by the
      order's missing units. */
  function AddLines(acc: Counts, items: seq<ItemOut>): (r: Counts)
    ensures r.tacos == acc.tacos + MissingIn(items, Tacos)
    ensures r.quesadillas == acc.quesadillas + MissingIn(items, Quesadillas)
    ensures r.bebidas == acc.bebidas + MissingIn(items, Bebidas)
    ensures r.otros == acc.otros + MissingIn(items, Otros)
    ensures CountsTotal(r) == CountsTotal(acc) + Sum(items, Missing)
    decreases |items|
  {
    if |items| == 0 then acc
    else
      var falt := Missing(items[0]);
      var next := if falt <= 0 then acc else AddTo(acc, GetCategoria(items[0].nombre), falt);
      AddLines(next, items[1..])
  }

  /** The outer loop of categoriaCounts: every order's lines added in turn. */
  function AddOrders(acc: Counts, orders: seq<OrderOut>): (r: Counts)
    ensures r.tacos == acc.tacos + FaltantesIn(orders, Tacos)
    ensures r.quesadillas == acc.quesadillas + FaltantesIn(orders, Quesadillas)
    ensures r.bebidas == acc.bebidas + FaltantesIn(orders, Bebidas)
    ensures r.otros == acc.otros + FaltantesIn(orders, Otros)
    ensures CountsTotal(r) == CountsTotal(acc) + TotalFaltantes(orders)
    decreases |orders|
  {
    if |orders| == 0 then acc
    else AddOrders(AddLines(acc, orders[0].items), orders[1..])
  }

  /** categoriaCounts over a list of orders: each count is the units left
      over the orders' lines of that category, the counts are non-negative,
      and together they are totalFaltantesCocina, the units left over all
      orders. */
  function CategoriaCounts(orders: seq<OrderOut>): (r: Counts)
    ensures r.tacos == FaltantesIn(orders, Tacos)
    ensures r.quesadillas == FaltantesIn(orders, Quesadillas)
    ensures r.bebidas == FaltantesIn(orders, Bebidas)
    ensures r.otros == FaltantesIn(orders, Otros)
    ensures NonNegative(r)
    ensures CountsTotal(r) == TotalFaltantes(orders)
  {
    CountedFromZero(orders, Counts(0, 0, 0, 0));
    AddOrders(Counts(0, 0, 0, 0), orders)
  }

  /** Counting from all-zero counts leaves each count at the units left in
      its category, all of them non-negative, and their total at the units
      left over all the orders. */
  lemma CountedFromZero(orders: seq<OrderOut>, acc: Counts)
    requires acc == Counts(0, 0, 0, 0)
    ensures AddOrders(acc, orders).tacos == FaltantesIn(orders, Tacos)
    ensures AddOrders(acc, orders).quesadillas == FaltantesIn(orders, Quesadillas)
    ensures AddOrders(acc, orders).bebidas == FaltantesIn(orders, Bebidas)
    ensures AddOrders(acc, orders).otros == FaltantesIn(orders, Otros)
    ensures NonNegative(AddOrders(acc, orders))
    ensures CountsTotal(AddOrders(acc, orders)) == TotalFaltantes(orders)
  {
  }

  /** totalFaltantesCocina: the units left over the orders. It is never
      negative, and zero exactly when no order has a line with units left. */
  function TotalFaltantes(orders: seq<OrderOut>): (n: int)
    ensures n >= 0
    ensures n == 0 <==> forall i :: 0 <= i < |orders| ==> !HasMissing(orders[i])
  {
    NoneMissing(orders);
    Sum(orders, Faltantes)
  }

  lemma NoneMissing(orders: seq<OrderOut>)
    ensures Sum(orders, Faltantes) >= 0
    ensures Sum(orders, Faltantes) == 0 <==> forall i :: 0 <= i < |orders| ==> !HasMissing(orders[i])
  {
    SumNonNegative(orders, Faltantes);
    forall i | 0 <= i < |orders|
      ensures Faltantes(orders[i]) == 0 <==> !HasMissing(orders[i])
    {
      FaltantesZero(orders[i]);
    }
  }
}

=== FILE: finanzas.dfy ===
/** The finance area: the session token b64("{user}:{ts}:{b64(sig)}") kept
    in the finanzas_token cookie, its verifier, the login check, the
    authentication guard and the payment summary with its optional date
    bounds. HMAC-SHA256 with its base64 text and the outer base64 layer are
    parameters, bound only by the laws the token format relies on. */
module Finanzas {
  import opened Base
  import opened Strings
  import opened Sequences
  import opened Store
  import Ordenes

  /** Seconds a session lasts: eight hours. */
  const TOKEN_TTL := 60 * 60 * 8

  /** The signing and encoding functions the token is built from. */
  datatype Codec = Codec(
    macB64: string -> string,         // urlsafe base64 of HMAC-SHA256(SECRET, message)
    encode: string -> string,         // urlsafe_b64encode of the UTF-8 bytes
    decode: string -> Option<string>) // urlsafe_b64decode then UTF-8 decode; None where either raises

  /** What the format relies on: the base64 alphabet has no ':', decoding
      undoes encoding, and only the empty text encodes to the empty text. */
  ghost predicate Lawful(c: Codec) {
    && (forall m :: ':' !in c.macB64(m))
    && (forall s :: c.decode(c.encode(s)) == Some(s))
    && (forall s :: s != "" ==> c.encode(s) != "")
  }

  /** The configured credentials (FINANZAS_USER, FINANZAS_PASS). */
  datatype Credentials = Credentials(user: string, password: string)

  function DefaultCredentials(): (c: Credentials)
    ensures c.user != "" && ':' !in c.user
  {
    Credentials("admin", "admin123")
  }

  function Signed(user: string, ts: int): string {
    user + ":" + IntToString(ts)
  }

  /** sign_token: the user, the issue time and the base64 signature of
      "{user}:{ts}", joined by ':' and base64-encoded. */
  function SignToken(c: Codec, user: string, ts: int): (t: string)
    ensures Lawful(c) ==> c.decode(t) == Some(Signed(user, ts) + ":" + c.macB64(Signed(user, ts)))
  {
    c.encode(Signed(user, ts) + ":" + c.macB64(Signed(user, ts)))
  }

  /** verify_token: the user of a well-formed, unexpired token whose
      signature matches; None on every failure, since it never raises. The
      signature is checked against the timestamp as int() read it, printed
      back with str(). */
  function VerifyToken(c: Codec, token: string, now: int): (r: Option<string>)
    ensures r.Some? ==> ':' !in r.value
  {
    match c.decode(token)
    case None => None
    case Some(raw) =>
      var parts := Split(raw, ':');
      if |parts| != 3 then None
      else match ParseInt(parts[1])
        case None => None
        case Some(ts) =>
          if ts + TOKEN_TTL < now then None
          else if c.macB64(Signed(parts[0], ts)) != parts[2] then None
          else Some(parts[0])
  }

  /** Whatever verify_token accepts decodes to the user, an unexpired issue
      time and the signature of that user and time. */
  lemma VerifyTokenSound(c: Codec, token: string, now: int)
    requires VerifyToken(c, token, now).Some?
    ensures var user := VerifyToken(c, token, now).value;
            exists ts: int, tsText: string ::
              && ParseInt(tsText) == Some(ts) && now <= ts + TOKEN_TTL
              && c.decode(token) == Some(user + [':'] + tsText + [':'] + c.macB64(Signed(user, ts)))
  {
    var raw := c.decode(token).value;
    var parts := Split(raw, ':');
    SplitThree(raw, ':');
    var ts := ParseInt(parts[1]).value;
    assert ParseInt(parts[1]) == Some(ts) && now <= ts + TOKEN_TTL;
  }

  /** The decoded text of a token for a user without ':' splits into user, time and signature. */
  lemma SignedParts(c: Codec, user: string, ts: int)
    requires ':' !in user && ':' !in c.macB64(Signed(user, ts))
    ensures Split(Signed(user, ts) + ":" + c.macB64(Signed(user, ts)), ':') ==
              [user, IntToString(ts), c.macB64(Signed(user, ts))]
  {
    var sig := c.macB64(Signed(user, ts));
    var tail := IntToString(ts) + [':'] + sig;
    TailParts(ts, sig);
    assert Signed(user, ts) + ":" + sig == user + [':'] + tail;
    SplitAt(user, tail, ':');
  }

  lemma TailParts(ts: int, sig: string)
    requires ':' !in sig
    ensures Split(IntToString(ts) + [':'] + sig, ':') == [IntToString(ts), sig]
  {
    SeparatorNotInInt(ts, ':');
    SplitAt(IntToString(ts), sig, ':');
    SplitWithout(sig, ':');
  }

  /** The decoded text of a token for a user with a ':' has more than three pieces. */
  lemma SignedPartsColon(c: Codec, user: string, ts: int)
    requires ':' in user
    ensures |Split(Signed(user, ts) + ":" + c.macB64(Signed(user, ts)), ':')| > 3
  {
    var sig := c.macB64(Signed(user, ts));
    var raw := user + [':'] + IntToString(ts) + [':'] + sig;
    assert Signed(user, ts) + ":" + sig == raw;
    assert multiset(raw) == multiset(user) + multiset{':'} + multiset(IntToString(ts)) + multiset{':'} + multiset(sig);
  }

  /** A signed token verifies, for the user it was issued to, exactly while it
      is unexpired and the user name has no ':'; otherwise it is refused. */
  lemma SignVerifyRoundTrip(c: Codec, user: string, ts: int, now: int)
    requires Lawful(c)
    ensures VerifyToken(c, SignToken(c, user, ts), now) ==
              if ':' !in user && now <= ts + TOKEN_TTL then Some(user) else None
  {
    if ':' !in user {
      assert ':' !in c.macB64(Signed(user, ts));
      SignedParts(c, user, ts);
      IntRoundTrip(ts);
    } else {
      SignedPartsColon(c, user, ts);
    }
  }

  /** require_auth: the user of the session cookie. */
  function RequireAuth(c: Codec, cookie: Option<string>, now: int): (r: Result<string>)
    ensures cookie.None? || cookie == Some("") ==> r == Fail(401, "No autenticado")
    ensures r.Err? ==> r.error.status == 401
    ensures cookie.Some? && cookie.value != "" && r.Err? ==> r == Fail(401, "Token inválido")
    ensures r.Ok? <==> && cookie.Some? && cookie.value != ""
                       && VerifyToken(c, cookie.value, now).Some? && VerifyToken(c, cookie.value, now).value != ""
    ensures r.Ok? ==> r.value != "" && VerifyToken(c, cookie.value, now) == Some(r.value)
  {
    if cookie.None? || cookie.value == "" then Fail(401, "No autenticado")
    else match VerifyToken(c, cookie.value, now)
      case None => Fail(401, "Token inválido")
      case Some(user) => if user == "" then Fail(401, "Token inválido") else Ok(user)
  }

  /** login: only the configured user with the configured password gets a
      session cookie, signed at the login instant. */
  function Login(c: Codec, creds: Credentials, user: string, password: string, now: int): (r: Result<string>)
    ensures r.Ok? <==> user == creds.user && password == creds.password
    ensures r.Err? ==> r == Fail(401, "Credenciales inválidas")
    ensures r.Ok? ==> r.value == SignToken(c, user, now)
  {
    if user != creds.user || password != creds.password then Fail(401, "Credenciales inválidas")
    else Ok(SignToken(c, user, now))
  }

  /** A session opened by a successful login authenticates its user for the
      next eight hours, inclusive, and is refused as invalid afterwards. */
  lemma LoginThenAuth(c: Codec, creds: Credentials, password: string, issued: int, now: int)
    requires Lawful(c) && creds.user != "" && ':' !in creds.user
    ensures var cookie := Login(c, creds, creds.user, creds.password, issued).value;
            RequireAuth(c, Some(cookie), now) ==
              if now <= issued + TOKEN_TTL then Ok(creds.user) else Fail(401, "Token inválido")
  {
    var cookie := SignToken(c, creds.user, issued);
    SignVerifyRoundTrip(c, creds.user, issued, now);
    assert cookie != "" by {
      assert c.decode(cookie).Some?;
      assert Signed(creds.user, issued) + ":" + c.macB64(Signed(creds.user, issued)) != "";
    }
  }

  // ---------------------------------------------------------------------------
  // GET /api/finanzas/resumen
  // ---------------------------------------------------------------------------

  /** The totals the summary reports. */
  datatype Resumen = Resumen(total: int, propina: int, cantidad: int)

  /** datetime.fromisoformat, as an abstract reading of a date text into an instant. */
  type DateParser = string -> Option<int>

  /** A query bound: absent or empty means no bound; otherwise it must parse.
      It is refused only for a given text that does not parse, and then with
      400 and the given detail; an accepted bound is present exactly when a
      text was given, and is the instant that text denotes. */
  function Bound(text: Option<string>, parse: DateParser, detail: string): (r: Result<Option<int>>)
    ensures r.Err? <==> text.Some? && text.value != "" && parse(text.value).None?
    ensures r.Err? ==> r == Fail(400, detail)
    ensures r.Ok? ==> (r.value.Some? <==> text.Some? && text.value != "")
    ensures r.Ok? && r.value.Some? ==> parse(text.value) == Some(r.value.value)
  {
    if text.None? || text.value == "" then Ok(None)
    else match parse(text.value)
      case None => Fail(400, detail)
      case Some(v) => Ok(Some(v))
  }

  /** desde <= fecha <= hasta, each side only when given. */
  predicate InRange(p: Pago, desde: Option<int>, hasta: Option<int>) {
    (desde.None? || desde.value <= p.fecha) && (hasta.None? || p.fecha <= hasta.value)
  }

  function InRangeOf(desde: Option<int>, hasta: Option<int>): Pago -> bool {
    (p: Pago) => InRange(p, desde, hasta)
  }

  function MontoOf(p: Pago): int {
    p.montoTotal
  }

  function PropinaOf(p: Pago): int {
    p.propina
  }

  /** The summary over the payments whose fecha lies within the bounds. */
  function Summarize(pagos: seq<Pago>, desde: Option<int>, hasta: Option<int>): (r: Resumen)
    ensures r.cantidad == Sum(pagos, Indicator(InRangeOf(desde, hasta)))
    ensures r.total == Sum(pagos, Masked(InRangeOf(desde, hasta), MontoOf))
    ensures r.propina == Sum(pagos, Masked(InRangeOf(desde, hasta), PropinaOf))
    ensures 0 <= r.cantidad <= |pagos|
  {
    var sel := Filter(pagos, InRangeOf(desde, hasta));
    FilterLength(pagos, InRangeOf(desde, hasta));
    FilterSum(pagos, InRangeOf(desde, hasta), MontoOf);
    FilterSum(pagos, InRangeOf(desde, hasta), PropinaOf);
    Resumen(Sum(sel, MontoOf), Sum(sel, PropinaOf), |sel|)
  }

  /** resumen_finanzas: the session is checked first, then 'desde', then
      'hasta'; a bound that does not parse is a 400. */
  function ResumenFinanzas(c: Codec, cookie: Option<string>, now: int, pagos: seq<Pago>,
                           desde: Option<string>, hasta: Option<string>, parse: DateParser): (r: Result<Resumen>)
    ensures RequireAuth(c, cookie, now).Err? ==> r == Fail(401, RequireAuth(c, cookie, now).error.detail)
    ensures RequireAuth(c, cookie, now).Ok? && Bound(desde, parse, "").Err? ==>
              r == Fail(400, "Formato 'desde' inválido (ISO)")
    ensures RequireAuth(c, cookie, now).Ok? && Bound(desde, parse, "").Ok? && Bound(hasta, parse, "").Err? ==>
              r == Fail(400, "Formato 'hasta' inválido (ISO)")
    ensures RequireAuth(c, cookie, now).Ok? && Bound(desde, parse, "").Ok? && Bound(hasta, parse, "").Ok? ==> r.Ok?
    ensures r.Ok? ==> r.value == Summarize(pagos, Bound(desde, parse, "").value, Bound(hasta, parse, "").value)
  {
    var _ :- RequireAuth(c, cookie, now);
    var lo :- Bound(desde, parse, "Formato 'desde' inválido (ISO)");
    var hi :- Bound(hasta, parse, "Formato 'hasta' inválido (ISO)");
    Ok(Summarize(pagos, lo, hi))
  }

  /** Without bounds every payment is counted. */
  lemma UnboundedCountsAll(pagos: seq<Pago>)
    ensures Summarize(pagos, None, None).cantidad == |pagos|
  {
    FilterAll(pagos, InRangeOf(None, None));
  }

  /** A payment recorded with the request's clock falls into every range that
      holds that instant: the summary gains one payment, its amount and its tip. */
  lemma CobroCountedInRange(db: Db, ordenId: int, metodo: string, propina: int, now: int,
                            desde: Option<int>, hasta: Option<int>)
    requires Ordenes.CobrarOrden(db, ordenId, metodo, propina, now).result.Ok?
    requires (desde.None? || desde.value <= now) && (hasta.None? || now <= hasta.value)
    ensures var r := Ordenes.CobrarOrden(db, ordenId, metodo, propina, now);
            var before := Summarize(db.pagos, desde, hasta);
            var after := Summarize(r.db.pagos, desde, hasta);
            && after.cantidad == before.cantidad + 1
            && after.total == before.total + r.result.value.montoTotal
            && after.propina == before.propina + propina
  {
    var r := Ordenes.CobrarOrden(db, ordenId, metodo, propina, now);
    var pago := r.result.value;
    assert r.db.pagos == db.pagos + [pago];
    SumConcat(db.pagos, [pago], Indicator(InRangeOf(desde, hasta)));
    SumConcat(db.pagos, [pago], Masked(InRangeOf(desde, hasta), MontoOf));
    SumConcat(db.pagos, [pago], Masked(InRangeOf(desde, hasta), PropinaOf));
  }

  /** With the stamp taken once at start-up, a payment made at instant 500 on
      a server started at instant 0 is missing from the summary from 500 on,
      while the payment stamped with the request's clock is counted. */
  lemma StartupStampMissesPayment()
    ensures var db := Db([Mesa(1, 7)], map[5 := Producto("Taco", 2500, None)],
                         [Orden(1, 1, 0, Entregado, [Detalle(5, 2, true, 2)])], [], NextIds(2, 6, 2, 1));
            var asWritten := Ordenes.CobrarOrdenAsWritten(db, 1, "efectivo", 0, 0, 500);
            var corrected := Ordenes.CobrarOrden(db, 1, "efectivo", 0, 500);
            && asWritten.result.Ok? && corrected.result.Ok?
            && Summarize(asWritten.db.pagos, Some(500), None).cantidad == 0
            && Summarize(corrected.db.pagos, Some(500), None).cantidad == 1
  {
    var db := Db([Mesa(1, 7)], map[5 := Producto("Taco", 2500, None)],
                 [Orden(1, 1, 0, Entregado, [Detalle(5, 2, true, 2)])], [], NextIds(2, 6, 2, 1));
    assert Ordenes.OrdenById(db.ordenes, 1) == Some(0);
    assert ProductIds(db.ordenes[0].detalles) == {5} by {
      ProductIdsSingle(Detalle(5, 2, true, 2));
    }
    var asWritten := Ordenes.CobrarOrdenAsWritten(db, 1, "efectivo", 0, 0, 500);
    var corrected := Ordenes.CobrarOrden(db, 1, "efectivo", 0, 500);
    assert Summarize(asWritten.db.pagos, Some(500), None).cantidad == Sum(asWritten.db.pagos, Indicator(InRangeOf(Some(500), None)));
  }
}

=== FILE: hex_color.dfy ===
/** The colour argument of the QR renderer: "#rgb" or "#rrggbb", surrounding
    whitespace and the '#' optional, falling back to a default colour when the
    text is not a colour. */
module HexColor {
  import opened Base
  import opened Strings

  datatype Rgb = Rgb(r: int, g: int, b: int)

  predicate InByteRange(c: Rgb) {
    0 <= c.r < 256 && 0 <= c.g < 256 && 0 <= c.b < 256
  }

  predicate AllHex(s: string) {
    forall i :: 0 <= i < |s| ==> IsHexDigit(s[i])
  }

  /** The value of a string of hexadecimal digits. */
  function HexDigitsValue(s: string): (v: nat)
    requires AllHex(s)
    ensures v < Pow16(|s|)
    decreases |s|
  {
    if |s| == 0 then 0 else HexDigitsValue(s[..|s| - 1]) * 16 + HexValue(s[|s| - 1])
  }

  function Pow16(n: nat): (p: nat)
    ensures p >= 1
  {
    if n == 0 then 1 else 16 * Pow16(n - 1)
  }

  /** int(s, 16) on ASCII text: surrounding whitespace, then an optional sign,
      then at least one hexadecimal digit; None for anything else. Python also
      accepts underscores between digits, non-ASCII decimal digits and a
      "0x" prefix, which this model refuses; a two-character pair cannot
      reach the prefix path, since "0x" alone holds no digit. */
  function PyIntHex(s: string): (r: Option<int>)
    ensures AllHex(s) && |s| > 0 ==> r == Some(HexDigitsValue(s))
  {
    var t := Strip(s);
    assert AllHex(s) ==> t == s by {
      if AllHex(s) {
        StripHex(s);
      }
    }
    if |t| >= 2 && (t[0] == '+' || t[0] == '-') && AllHex(t[1..]) then
      var m: int := HexDigitsValue(t[1..]);
      Some(if t[0] == '-' then -m else m)
    else if |t| >= 1 && AllHex(t) then Some(HexDigitsValue(t))
    else None
  }

  /** Hexadecimal digits are not whitespace, so stripping leaves them alone. */
  lemma StripHex(s: string)
    requires AllHex(s)
    ensures Strip(s) == s
  {
    if |s| > 0 {
      assert !IsSpace(s[0]);
      assert !IsSpace(s[|s| - 1]);
      assert TrailingSpaces(s) == 0;
    }
  }

  /** The body after strip() and one leading '#'. */
  function Body(s: string): (v: string)
    ensures HasPrefix(Strip(s), "#") ==> v == Strip(s)[1..]
    ensures !HasPrefix(Strip(s), "#") ==> v == Strip(s)
  {
    var v := Strip(s);
    if HasPrefix(v, "#") then v[1..] else v
  }

  /** _parse_hex_color as written: every component goes through int(x, 16),
      which also takes a sign or whitespace inside a six-digit body. */
  function ParseHexColorAsWritten(s: string, default: Rgb): (c: Rgb)
    ensures |Body(s)| != 3 && |Body(s)| != 6 ==> c == default
  {
    var v := Body(s);
    if |v| == 3 then
      Components(PyIntHex([v[0], v[0]]), PyIntHex([v[1], v[1]]), PyIntHex([v[2], v[2]]), default)
    else if |v| == 6 then
      Components(PyIntHex(v[0..2]), PyIntHex(v[2..4]), PyIntHex(v[4..6]), default)
    else default
  }

  /** The colour of three parsed components, or the default when any failed to parse. */
  function Components(r: Option<int>, g: Option<int>, b: Option<int>, default: Rgb): (c: Rgb)
    ensures r.Some? && g.Some? && b.Some? ==> c == Rgb(r.value, g.value, b.value)
    ensures r.None? || g.None? || b.None? ==> c == default
  {
    if r.Some? && g.Some? && b.Some? then Rgb(r.value, g.value, b.value) else default
  }

  /** A body of six characters with a sign in its middle pair yields a negative component. */
  lemma SignedPairGoesNegative()
    ensures ParseHexColorAsWritten("#12-a00", Rgb(0, 0, 0)) == Rgb(18, -10, 0)
  {
    var v := "12-a00";
    BodyOfSignedExample();
    assert v[0..2] == "12" && v[2..4] == "-a" && v[4..6] == "00";
    HexPairValues();
    NegativePairValue();
  }

  lemma BodyOfSignedExample()
    ensures Body("#12-a00") == "12-a00"
  {
    NoOuterSpace("#12-a00");
    assert HasPrefix("#12-a00", "#");
    assert "#12-a00"[1..] == "12-a00";
  }

  lemma NegativePairValue()
    ensures PyIntHex("-a") == Some(-10)
  {
    NoOuterSpace("-a");
    assert "-a"[1..] == "a";
    assert AllHex("a");
    assert "a"[..0] == "";
  }

  lemma HexPairValues()
    ensures PyIntHex("12") == Some(18) && PyIntHex("00") == Some(0)
  {
    PairValue12();
    PairValue00();
  }

  lemma PairValue12()
    ensures PyIntHex("12") == Some(18)
  {
    assert AllHex("12");
    assert "12"[..1] == "1" && "1"[..0] == "";
    assert HexDigitsValue("12") == 18;
  }

  lemma PairValue00()
    ensures PyIntHex("00") == Some(0)
  {
    assert AllHex("00");
    assert "00"[..1] == "0" && "0"[..0] == "";
    assert HexDigitsValue("00") == 0;
  }

  /** A text that neither starts nor ends with whitespace is its own strip(). */
  lemma NoOuterSpace(s: string)
    requires |s| > 0 && !IsSpace(s[0]) && !IsSpace(s[|s| - 1])
    ensures Strip(s) == s
  {
    assert LeadingSpaces(s) == 0;
    assert TrailingSpaces(s) == 0;
  }

  /** Two hexadecimal digits, exactly. */
  function HexPair(p: string): (r: Option<int>)
    requires |p| == 2
    ensures r.Some? <==> AllHex(p)
    ensures r.Some? ==> 0 <= r.value < 256 && r.value == 16 * HexValue(p[0]) + HexValue(p[1])
  {
    if AllHex(p) then
      assert p[..1][..0] == [] && p[..1][0] == p[0];
      assert HexDigitsValue(p[..1]) == HexValue(p[0]);
      assert Pow16(2) == 256;
      Some(HexDigitsValue(p))
    else None
  }

  lemma ThreeHex(v: string)
    requires |v| == 3
    ensures AllHex(v) <==> AllHex([v[0], v[0]]) && AllHex([v[1], v[1]]) && AllHex([v[2], v[2]])
  {
    assert AllHex(v) <==> IsHexDigit(v[0]) && IsHexDigit(v[1]) && IsHexDigit(v[2]);
    assert forall c: char :: AllHex([c, c]) <==> IsHexDigit(c) by {
      forall c: char
        ensures AllHex([c, c]) <==> IsHexDigit(c)
      {
        assert [c, c][0] == c;
      }
    }
  }

  lemma SixHex(v: string)
    requires |v| == 6
    ensures AllHex(v) <==> AllHex(v[0..2]) && AllHex(v[2..4]) && AllHex(v[4..6])
  {
    var a, b, c := v[0..2], v[2..4], v[4..6];
    assert AllHex(a) <==> IsHexDigit(v[0]) && IsHexDigit(v[1]) by {
      assert a[0] == v[0] && a[1] == v[1];
    }
    assert AllHex(b) <==> IsHexDigit(v[2]) && IsHexDigit(v[3]) by {
      assert b[0] == v[2] && b[1] == v[3];
    }
    assert AllHex(c) <==> IsHexDigit(v[4]) && IsHexDigit(v[5]) by {
      assert c[0] == v[4] && c[1] == v[5];
    }
    assert AllHex(v) <==> forall i :: 0 <= i < 6 ==> IsHexDigit(v[i]);
  }

  /** _parse_hex_color with the components read as exactly two hexadecimal
      digits each: a colour whose body is not all hexadecimal digits falls
      back to the default, so every component lies in 0..255. */
  function ParseHexColor(s: string, default: Rgb): (c: Rgb)
    ensures |Body(s)| != 3 && |Body(s)| != 6 ==> c == default
    ensures (|Body(s)| == 3 || |Body(s)| == 6) && !AllHex(Body(s)) ==> c == default
    ensures |Body(s)| == 6 && AllHex(Body(s)) ==>
              c == Rgb(16 * HexValue(Body(s)[0]) + HexValue(Body(s)[1]),
                       16 * HexValue(Body(s)[2]) + HexValue(Body(s)[3]),
                       16 * HexValue(Body(s)[4]) + HexValue(Body(s)[5]))
    ensures |Body(s)| == 3 && AllHex(Body(s)) ==>
              c == Rgb(17 * HexValue(Body(s)[0]), 17 * HexValue(Body(s)[1]), 17 * HexValue(Body(s)[2]))
    ensures InByteRange(default) ==> InByteRange(c)
  {
    var v := Body(s);
    if |v| == 3 then ShortForm(v, default)
    else if |v| == 6 then LongForm(v, default)
    else default
  }

  /** "rgb": each digit doubled. */
  function ShortForm(v: string, default: Rgb): (c: Rgb)
    requires |v| == 3
    ensures !AllHex(v) ==> c == default
    ensures AllHex(v) ==> c == Rgb(17 * HexValue(v[0]), 17 * HexValue(v[1]), 17 * HexValue(v[2]))
    ensures InByteRange(default) ==> InByteRange(c)
  {
    ThreeHex(v);
    Components(HexPair([v[0], v[0]]), HexPair([v[1], v[1]]), HexPair([v[2], v[2]]), default)
  }

  /** "rrggbb": three pairs. */
  function LongForm(v: string, default: Rgb): (c: Rgb)
    requires |v| == 6
    ensures !AllHex(v) ==> c == default
    ensures AllHex(v) ==> c == Rgb(16 * HexValue(v[0]) + HexValue(v[1]),
                                   16 * HexValue(v[2]) + HexValue(v[3]),
                                   16 * HexValue(v[4]) + HexValue(v[5]))
    ensures InByteRange(default) ==> InByteRange(c)
  {
    SixHex(v);
    assert v[0..2][0] == v[0] && v[0..2][1] == v[1];
    assert v[2..4][0] == v[2] && v[2..4][1] == v[3];
    assert v[4..6][0] == v[4] && v[4..6][1] == v[5];
    Components(HexPair(v[0..2]), HexPair(v[2..4]), HexPair(v[4..6]), default)
  }

  /** On a well-formed colour the two readings agree: the correction only
      changes what happens to bodies that are not all hexadecimal digits. */
  lemma AgreesOnHexBodies(s: string, default: Rgb)
    requires (|Body(s)| == 3 || |Body(s)| == 6) && AllHex(Body(s))
    ensures ParseHexColorAsWritten(s, default) == ParseHexColor(s, default)
  {
    var v := Body(s);
    if |v| == 3 {
      ThreeHex(v);
      HexPairAgrees([v[0], v[0]]);
      HexPairAgrees([v[1], v[1]]);
      HexPairAgrees([v[2], v[2]]);
    } else {
      SixHex(v);
      HexPairAgrees(v[0..2]);
      HexPairAgrees(v[2..4]);
      HexPairAgrees(v[4..6]);
    }
  }

  lemma HexPairAgrees(p: string)
    requires |p| == 2 && AllHex(p)
    ensures PyIntHex(p) == HexPair(p)
  {
  }

  /** Three digits stand for each digit doubled: "abc" is (0xaa, 0xbb, 0xcc). */
  lemma ShortFormDoubles()
    ensures ParseHexColor("abc", Rgb(0, 0, 0)) == Rgb(0xaa, 0xbb, 0xcc)
  {
    StripHex("abc");
    assert Body("abc") == "abc";
    assert AllHex("abc");
  }

  /** Surrounding whitespace, the '#' and upper case make no difference. */
  lemma ShortFormPadded()
    ensures ParseHexColor("  #ABC\n", Rgb(0, 0, 0)) == Rgb(0xaa, 0xbb, 0xcc)
  {
    PaddedBody();
    assert AllHex("ABC");
  }

  lemma PaddedBody()
    ensures Body("  #ABC\n") == "ABC"
  {
    PaddedStrip();
    assert HasPrefix("#ABC", "#") && "#ABC"[1..] == "ABC";
  }

  lemma PaddedStrip()
    ensures Strip("  #ABC\n") == "#ABC"
  {
    var s := "  #ABC\n";
    assert LeadingSpaces(s) == 2 by {
      assert IsSpace(s[0]) && s[1..] == " #ABC\n";
      assert IsSpace(s[1]) && s[1..][1..] == "#ABC\n";
      assert !IsSpace(s[2]);
    }
    assert TrailingSpaces(s) == 1 by {
      assert IsSpace(s[6]) && s[..6] == "  #ABC";
      assert !IsSpace(s[5]);
    }
    assert s[2..6] == "#ABC";
  }
}

=== FILE: ordenes.dfy ===
/** The order endpoints: placing an order (merged into the table's open order
    or opened afresh), listing unpaid orders, the manual status change,
    charging, and the two per-line delivery updates, each as a pure transition
    of the database that also yields the response and the broadcast event.

    A handler that raises after a commit keeps what was committed; everything
    else it changed is rolled back when the request's session closes (the
    session factory, database.py, is not part of this model). */
module Ordenes {
  import opened Base
  import opened Strings
  import opened Sequences
  import opened Store
  import opened Api

  /** One requested line of POST /api/orden. */
  datatype OrderItem = OrderItem(productoId: int, cantidad: int)

  /** What a request leaves behind: the committed database, the response and
      the event broadcast to the dashboards (none when the request failed). */
  datatype Step<T> = Step(db: Db, result: Result<T>, sent: Option<Event>)

  // ---------------------------------------------------------------------------
  // Lookups
  // ---------------------------------------------------------------------------

  /** Mesa.numero == numero, first match. */
  function MesaByNumero(mesas: seq<Mesa>, numero: int): Option<nat> {
    FindFirst(mesas, (m: Mesa) => m.numero == numero)
  }

  /** db.get(Mesa, id). */
  function MesaById(mesas: seq<Mesa>, id: int): Option<nat> {
    FindFirst(mesas, (m: Mesa) => m.id == id)
  }

  /** db.get(Orden, id). */
  function OrdenById(ordenes: seq<Orden>, id: int): Option<nat> {
    FindFirst(ordenes, (o: Orden) => o.id == id)
  }

  /** The first line of an order for a product, as the .first() queries find it. */
  function LineOf(ds: seq<Detalle>, productoId: int): Option<nat> {
    FindFirst(ds, (d: Detalle) => d.productoId == productoId)
  }

  predicate IsOpenFor(db: Db, mesaId: int, o: Orden) {
    o.mesaId == mesaId && !IsPaid(db.pagos, o.id)
  }

  /** The first unpaid order of a table when its orders are read newest first:
      among the first n orders, an unpaid one of the table whose fecha no other
      unpaid one of the table exceeds (on equal fechas, the earliest stored). */
  function NewestOpen(db: Db, mesaId: int, n: nat): (r: Option<nat>)
    requires n <= |db.ordenes|
    ensures r.None? <==> forall k :: 0 <= k < n ==> !IsOpenFor(db, mesaId, db.ordenes[k])
    ensures r.Some? ==> r.value < n && IsOpenFor(db, mesaId, db.ordenes[r.value])
    ensures r.Some? ==> forall k :: 0 <= k < n && IsOpenFor(db, mesaId, db.ordenes[k]) ==>
                          db.ordenes[k].fecha <= db.ordenes[r.value].fecha
    decreases n
  {
    if n == 0 then None
    else
      var best := NewestOpen(db, mesaId, n - 1);
      var o := db.ordenes[n - 1];
      if IsOpenFor(db, mesaId, o) && (best.None? || o.fecha > db.ordenes[best.value].fecha) then Some(n - 1)
      else best
  }

  // ---------------------------------------------------------------------------
  // The estado an order derives from its lines
  // ---------------------------------------------------------------------------

  predicate Full(d: Detalle) {
    d.entregados >= d.cantidad
  }

  /** Every line has been delivered in full. */
  function AllFull(ds: seq<Detalle>): (b: bool)
    ensures b <==> forall j :: 0 <= j < |ds| ==> Full(ds[j])
    decreases |ds|
  {
    |ds| == 0 || (Full(ds[0]) && AllFull(ds[1..]))
  }

  /** Some line has at least one unit delivered. */
  function AnyStarted(ds: seq<Detalle>): (b: bool)
    ensures b <==> exists j :: 0 <= j < |ds| && ds[j].entregados > 0
    decreases |ds|
  {
    |ds| > 0 && (ds[0].entregados > 0 || AnyStarted(ds[1..]))
  }

  /** Every line is flagged delivered. */
  function AllFlagged(ds: seq<Detalle>): (b: bool)
    ensures b <==> forall j :: 0 <= j < |ds| ==> ds[j].entregado
    decreases |ds|
  {
    |ds| == 0 || (ds[0].entregado && AllFlagged(ds[1..]))
  }

  /** Some line is flagged delivered. */
  function AnyFlagged(ds: seq<Detalle>): (b: bool)
    ensures b <==> exists j :: 0 <= j < |ds| && ds[j].entregado
    decreases |ds|
  {
    |ds| > 0 && (ds[0].entregado || AnyFlagged(ds[1..]))
  }

  /** The estado derived from delivered counts: entregado when every line is
      fully delivered, otherwise en_proceso when some line has a delivery,
      otherwise pendiente. */
  function EstadoFromCounts(ds: seq<Detalle>): (e: Estado)
    ensures e == Entregado <==> forall j :: 0 <= j < |ds| ==> Full(ds[j])
    ensures e == EnProceso <==> ((exists j :: 0 <= j < |ds| && !Full(ds[j]))
                                 && (exists j :: 0 <= j < |ds| && ds[j].entregados > 0))
    ensures e == Pendiente <==> ((exists j :: 0 <= j < |ds| && !Full(ds[j]))
                                 && (forall j :: 0 <= j < |ds| ==> ds[j].entregados <= 0))
  {
    if AllFull(ds) then Entregado else if AnyStarted(ds) then EnProceso else Pendiente
  }

  /** The estado derived from the boolean delivered flags, by the same rule. */
  function EstadoFromFlags(ds: seq<Detalle>): (e: Estado)
    ensures e == Entregado <==> forall j :: 0 <= j < |ds| ==> ds[j].entregado
    ensures e == EnProceso <==> ((exists j :: 0 <= j < |ds| && !ds[j].entregado)
                                 && (exists j :: 0 <= j < |ds| && ds[j].entregado))
    ensures e == Pendiente <==> (0 < |ds| && forall j :: 0 <= j < |ds| ==> !ds[j].entregado)
  {
    if AllFlagged(ds) then Entregado else if AnyFlagged(ds) then EnProceso else Pendiente
  }

  // ---------------------------------------------------------------------------
  // order_to_out
  // ---------------------------------------------------------------------------

  function ItemOutOf(d: Detalle, p: Producto): ItemOut {
    ItemOut(d.productoId, p.nombre, p.precio, d.cantidad, d.entregados >= d.cantidad, d.entregados)
  }

  /** The response shape of an order. Each line's entregado is recomputed from
      its counts, whatever the stored flag says; a line naming a missing
      product or an order naming a missing table fails with 500, as the
      attribute access on None would. */
  function OrderToOut(db: Db, o: Orden): (r: Result<OrderOut>)
    ensures r.Ok? <==> LinesReferTo(o.detalles, db.productos) && MesaById(db.mesas, o.mesaId).Some?
    ensures r.Ok? ==> && r.value.id == o.id && r.value.fecha == o.fecha && r.value.estado == o.estado
                      && r.value.pagado == IsPaid(db.pagos, o.id)
                      && |r.value.items| == |o.detalles|
    ensures r.Ok? ==> forall j :: 0 <= j < |o.detalles| ==>
                        && r.value.items[j].productoId == o.detalles[j].productoId
                        && r.value.items[j].cantidad == o.detalles[j].cantidad
                        && r.value.items[j].entregados == o.detalles[j].entregados
                        && (r.value.items[j].entregado <==> Full(o.detalles[j]))
    ensures r.Ok? ==> r.value.mesaNumero == db.mesas[MesaById(db.mesas, o.mesaId).value].numero
    ensures r.Ok? ==> forall j :: 0 <= j < |o.detalles| ==>
                        && o.detalles[j].productoId in db.productos
                        && r.value.items[j].nombre == db.productos[o.detalles[j].productoId].nombre
                        && r.value.items[j].precio == db.productos[o.detalles[j].productoId].precio
  {
    if !LinesReferTo(o.detalles, db.productos) then Fail(500, "Internal Server Error")
    else match MesaById(db.mesas, o.mesaId)
      case None => Fail(500, "Internal Server Error")
      case Some(m) =>
        var items := seq(|o.detalles|, j requires 0 <= j < |o.detalles| =>
                       ItemOutOf(o.detalles[j], db.productos[o.detalles[j].productoId]));
        Ok(OrderOut(o.id, db.mesas[m].numero, o.fecha, o.estado, items, IsPaid(db.pagos, o.id)))
  }

  // ---------------------------------------------------------------------------
  // Quantities per product
  // ---------------------------------------------------------------------------

  function QtyTerm(p: int): Detalle -> int {
    (d: Detalle) => if d.productoId == p then d.cantidad else 0
  }

  function DeliveredTerm(p: int): Detalle -> int {
    (d: Detalle) => if d.productoId == p then d.entregados else 0
  }

  function RequestedTerm(p: int): OrderItem -> int {
    (it: OrderItem) => if it.productoId == p then it.cantidad else 0
  }

  /** How many units of product p the lines order in total. */
  function Qty(ds: seq<Detalle>, p: int): int {
    Sum(ds, QtyTerm(p))
  }

  /** How many units of product p the lines have delivered in total. */
  function Delivered(ds: seq<Detalle>, p: int): int {
    Sum(ds, DeliveredTerm(p))
  }

  /** How many units of product p a request asks for in total. */
  function Requested(items: seq<OrderItem>, p: int): int {
    Sum(items, RequestedTerm(p))
  }

  /** The products a request names. */
  function ItemProducts(items: seq<OrderItem>): set<int> {
    set i | 0 <= i < |items| :: items[i].productoId
  }

  predicate AllPositive(items: seq<OrderItem>) {
    forall i :: 0 <= i < |items| ==> items[i].cantidad > 0
  }

  /** The requested products are the first one's and the rest's. */
  lemma ItemsCons(items: seq<OrderItem>)
    requires |items| > 0
    ensures ItemProducts(items) == {items[0].productoId} + ItemProducts(items[1..])
    ensures AllPositive(items) ==> items[0].cantidad > 0 && AllPositive(items[1..])
  {
    assert forall i :: 1 <= i < |items| ==> items[1..][i - 1] == items[i];
  }

  // ---------------------------------------------------------------------------
  // POST /api/orden
  // ---------------------------------------------------------------------------

  /** Finds the table by number, creating and committing it when missing.
      Yields the database afterwards and the table's position in it. */
  function EnsureMesa(db: Db, numero: int): (r: (Db, nat))
    ensures r.1 < |r.0.mesas| && r.0.mesas[r.1].numero == numero
    ensures r.0.productos == db.productos && r.0.ordenes == db.ordenes && r.0.pagos == db.pagos
    ensures MesaByNumero(db.mesas, numero).Some? ==> r.0 == db
    ensures MesaByNumero(db.mesas, numero).None? ==>
              && r.0.mesas == db.mesas + [Mesa(db.next.mesa, numero)]
              && r.0.next == db.next.(mesa := db.next.mesa + 1)
  {
    match MesaByNumero(db.mesas, numero)
    case Some(m) => (db, m)
    case None =>
      var db' := db.(mesas := db.mesas + [Mesa(db.next.mesa, numero)],
                     next := db.next.(mesa := db.next.mesa + 1));
      (db', |db.mesas|)
  }

  /** The first requested product missing from the catalogue. */
  function MissingProduct(items: seq<OrderItem>, productos: map<int, Producto>): (r: Option<int>)
    ensures r.None? <==> ItemProducts(items) <= productos.Keys
    ensures r.Some? ==> r.value in ItemProducts(items) && r.value !in productos
    ensures r.Some? ==> exists i :: 0 <= i < |items| && items[i].productoId == r.value
                          && forall j :: 0 <= j < i ==> items[j].productoId in productos
  {
    match FindFirst(items, (it: OrderItem) => it.productoId !in productos)
    case None => None
    case Some(i) => Some(items[i].productoId)
  }

  /** Adds one requested line to an order's lines: onto the first line of the
      same product (which is then no longer flagged delivered), or as a new
      undelivered line at the end. */
  function MergeOne(ds: seq<Detalle>, it: OrderItem): (r: seq<Detalle>)
    ensures LineOf(ds, it.productoId).Some? ==>
              var j := LineOf(ds, it.productoId).value;
              r == ds[j := ds[j].(cantidad := ds[j].cantidad + it.cantidad, entregado := false)]
    ensures LineOf(ds, it.productoId).None? ==> r == ds + [Detalle(it.productoId, it.cantidad, false, 0)]
    ensures |ds| <= |r| <= |ds| + 1
    ensures forall j :: 0 <= j < |ds| && ds[j].productoId != it.productoId ==> r[j] == ds[j]
    ensures LinesOk(ds) && it.cantidad > 0 ==> LinesOk(r)
    ensures ProductIds(r) == ProductIds(ds) + {it.productoId}
  {
    match LineOf(ds, it.productoId)
    case Some(j) =>
      var v := ds[j].(cantidad := ds[j].cantidad + it.cantidad, entregado := false);
      ProductIdsUpdate(ds, j, v);
      ds[j := v]
    case None =>
      var v := Detalle(it.productoId, it.cantidad, false, 0);
      ProductIdsConcat(ds, [v]);
      ProductIdsSingle(v);
      ds + [v]
  }

  /** The merge loop of the open-order path, one requested line after another. */
  function MergeItems(ds: seq<Detalle>, items: seq<OrderItem>): (r: seq<Detalle>)
    ensures |ds| <= |r|
    ensures LinesOk(ds) && AllPositive(items) ==> LinesOk(r)
    ensures ProductIds(r) == ProductIds(ds) + ItemProducts(items)
    decreases |items|
  {
    if |items| == 0 then ds
    else
      ItemsCons(items);
      MergeItems(MergeOne(ds, items[0]), items[1..])
  }

  /** The lines of a newly opened order: one undelivered line per requested line. */
  function NewLines(items: seq<OrderItem>): (ds: seq<Detalle>)
    ensures |ds| == |items|
    ensures AllPositive(items) ==> LinesOk(ds)
    ensures ProductIds(ds) == ItemProducts(items)
    decreases |items|
  {
    if |items| == 0 then []
    else
      var d := Detalle(items[0].productoId, items[0].cantidad, false, 0);
      ProductIdsConcat([d], NewLines(items[1..]));
      ProductIdsSingle(d);
      ItemsCons(items);
      [d] + NewLines(items[1..])
  }

  /** The order after the open-order path has merged a request into it: same
      id, table and fecha, the request merged into its lines, and an order
      that was entregado is pending again. */
  function Merged(o: Orden, items: seq<OrderItem>): (r: Orden)
    ensures r.id == o.id && r.mesaId == o.mesaId && r.fecha == o.fecha
    ensures r.detalles == MergeItems(o.detalles, items)
    ensures r.estado != Entregado
    ensures o.estado != Entregado ==> r.estado == o.estado
    ensures o.estado == Entregado ==> r.estado == Pendiente
  {
    o.(estado := if o.estado == Entregado then Pendiente else o.estado,
       detalles := MergeItems(o.detalles, items))
  }

  /** The response and broadcast of a handler that committed an order change. */
  function Publish(db: Db, o: Orden, wrap: OrderOut -> Event): Step<OrderOut> {
    var out := OrderToOut(db, o);
    Step(db, out, if out.Ok? then Some(wrap(out.value)) else None)
  }

  /** crear_orden. A line with cantidad <= 0 fails validation (422) before
      anything runs. Otherwise the table is found or created and committed
      first, so it survives the 400 for an empty item list and for an unknown
      product. With an unpaid order at the table the request is merged into the
      newest one (estado entregado falls back to pendiente) and update_order is
      broadcast; without one a new pendiente order is opened and new_order is
      broadcast. */
  function CrearOrden(db: Db, numero: int, items: seq<OrderItem>, now: int): (r: Step<OrderOut>)
    ensures !AllPositive(items) ==> r.db == db && r.result.Err? && r.result.error.status == 422
    ensures AllPositive(items) ==> MesaByNumero(r.db.mesas, numero).Some?
    ensures AllPositive(items) && |items| == 0 ==>
              && r.result == Fail(400, "La orden debe tener al menos un item")
              && r.db == EnsureMesa(db, numero).0
    ensures AllPositive(items) && MissingProduct(items, db.productos).Some? ==>
              && r.result == Fail(400, "Producto " + IntToString(MissingProduct(items, db.productos).value) + " no existe")
              && r.db == EnsureMesa(db, numero).0
    ensures r.db.productos == db.productos && r.db.pagos == db.pagos
    ensures r.result.Err? ==> r.sent.None?
  {
    if !AllPositive(items) then Step(db, Fail(422, "cantidad debe ser mayor que 0"), None)
    else
      var (db1, m) := EnsureMesa(db, numero);
      if |items| == 0 then Step(db1, Fail(400, "La orden debe tener al menos un item"), None)
      else match MissingProduct(items, db1.productos)
        case Some(pid) => Step(db1, Fail(400, "Producto " + IntToString(pid) + " no existe"), None)
        case None =>
          match NewestOpen(db1, db1.mesas[m].id, |db1.ordenes|)
          case Some(k) => MergeInto(db1, k, items)
          case None => OpenOrder(db1, db1.mesas[m].id, items, now)
  }

  /** The open-order path: the request is merged into stored order k and update_order is broadcast. */
  function MergeInto(db: Db, k: nat, items: seq<OrderItem>): (r: Step<OrderOut>)
    requires k < |db.ordenes|
    ensures r.db == db.(ordenes := db.ordenes[k := Merged(db.ordenes[k], items)])
    ensures r.result.Ok? ==> r.sent == Some(UpdateOrder(r.result.value)) && r.result.value.id == db.ordenes[k].id
    ensures r.result.Err? ==> r.sent.None?
  {
    var o := Merged(db.ordenes[k], items);
    Publish(db.(ordenes := db.ordenes[k := o]), o, (out: OrderOut) => UpdateOrder(out))
  }

  /** The new-order path: a pendiente order under the next id, with one line
      per requested line, is stored and new_order is broadcast. */
  function OpenOrder(db: Db, mesaId: int, items: seq<OrderItem>, now: int): (r: Step<OrderOut>)
    ensures r.db == db.(ordenes := db.ordenes + [Orden(db.next.orden, mesaId, now, Pendiente, NewLines(items))],
                        next := db.next.(orden := db.next.orden + 1))
    ensures r.result.Ok? ==> && r.sent == Some(NewOrder(r.result.value))
                             && r.result.value.id == db.next.orden
                             && r.result.value.estado == Pendiente
                             && r.result.value.fecha == now
    ensures r.result.Err? ==> r.sent.None?
  {
    var o := Orden(db.next.orden, mesaId, now, Pendiente, NewLines(items));
    var db2 := db.(ordenes := db.ordenes + [o], next := db.next.(orden := db.next.orden + 1));
    Publish(db2, o, (out: OrderOut) => NewOrder(out))
  }

  /** The new-order path as the schema makes it behave: the order is built
      without a fecha, and Orden.fecha's default is the value datetime.now()
      had when models.py was imported, so the order carries the process start
      instant whatever the clock says. */
  function OpenOrderAsWritten(db: Db, mesaId: int, items: seq<OrderItem>, startup: int, now: int): (r: Step<OrderOut>)
    ensures |r.db.ordenes| == |db.ordenes| + 1 && r.db.ordenes[|db.ordenes|].fecha == startup
    ensures r.result.Ok? ==> r.result.value.fecha == startup
    ensures r.db == OpenOrder(db, mesaId, items, now).db.(ordenes := r.db.ordenes)
  {
    OpenOrder(db, mesaId, items, startup)
  }

  /** As written, two orders opened one after the other at different
      instants get the same fecha, so nothing orders them by time. */
  lemma StartupStampTiesOrders(db: Db, m1: int, items1: seq<OrderItem>, m2: int, items2: seq<OrderItem>,
                               startup: int, now1: int, now2: int)
    requires now1 < now2
    ensures var db1 := OpenOrderAsWritten(db, m1, items1, startup, now1).db;
            var db2 := OpenOrderAsWritten(db1, m2, items2, startup, now2).db;
            && |db2.ordenes| == |db.ordenes| + 2
            && db2.ordenes[|db.ordenes|].fecha == db2.ordenes[|db.ordenes| + 1].fecha
  {
    var db1 := OpenOrderAsWritten(db, m1, items1, startup, now1).db;
    assert db1.ordenes[|db.ordenes|].fecha == startup;
  }

  /** With the instant taken when the order is opened, orders opened one
      after the other at increasing instants have increasing fechas. */
  lemma OpenedOrdersKeepTheirInstants(db: Db, m1: int, items1: seq<OrderItem>, m2: int, items2: seq<OrderItem>,
                                      now1: int, now2: int)
    requires now1 < now2
    ensures var db1 := OpenOrder(db, m1, items1, now1).db;
            var db2 := OpenOrder(db1, m2, items2, now2).db;
            && |db2.ordenes| == |db.ordenes| + 2
            && db2.ordenes[|db.ordenes|].fecha == now1
            && db2.ordenes[|db.ordenes| + 1].fecha == now2
  {
    var db1 := OpenOrder(db, m1, items1, now1).db;
    assert db1.ordenes[|db.ordenes|].fecha == now1;
  }

  // ---------------------------------------------------------------------------
  // What placing an order does to the quantities
  // ---------------------------------------------------------------------------

  /** One merged line adds its quantity to its product and delivers nothing. */
  lemma MergeOneQty(ds: seq<Detalle>, it: OrderItem, p: int)
    ensures Qty(MergeOne(ds, it), p) == Qty(ds, p) + RequestedTerm(p)(it)
    ensures Delivered(MergeOne(ds, it), p) == Delivered(ds, p)
  {
    match LineOf(ds, it.productoId)
    case Some(j) =>
      var v := ds[j].(cantidad := ds[j].cantidad + it.cantidad, entregado := false);
      SumUpdate(ds, j, v, QtyTerm(p));
      SumUpdate(ds, j, v, DeliveredTerm(p));
    case None =>
      var v := Detalle(it.productoId, it.cantidad, false, 0);
      SumConcat(ds, [v], QtyTerm(p));
      SumConcat(ds, [v], DeliveredTerm(p));
  }

  /** Merging a request raises every product's ordered quantity by exactly the
      requested amount and leaves the delivered counts as they were. */
  lemma {:induction false} MergeItemsQty(ds: seq<Detalle>, items: seq<OrderItem>, p: int)
    ensures Qty(MergeItems(ds, items), p) == Qty(ds, p) + Requested(items, p)
    ensures Delivered(MergeItems(ds, items), p) == Delivered(ds, p)
    decreases |items|
  {
    if |items| > 0 {
      MergeOneQty(ds, items[0], p);
      MergeItemsQty(MergeOne(ds, items[0]), items[1..], p);
    }
  }

  /** A new order orders exactly what was requested and has delivered nothing. */
  lemma {:induction false} NewLinesQty(items: seq<OrderItem>, p: int)
    ensures Qty(NewLines(items), p) == Requested(items, p)
    ensures Delivered(NewLines(items), p) == 0
    decreases |items|
  {
    if |items| > 0 {
      NewLinesQty(items[1..], p);
    }
  }

  /** An accepted request for a table that has an unpaid order lands in the
      newest such order (NewestOpen): each product's ordered quantity grows by
      exactly the requested amount, deliveries so far are kept, and no other
      order changes. */
  lemma CrearOrdenMerges(db: Db, numero: int, items: seq<OrderItem>, now: int, m: nat, p: int)
    requires Valid(db)
    requires AllPositive(items) && |items| > 0 && ItemProducts(items) <= db.productos.Keys
    requires m < |db.mesas| && db.mesas[m].numero == numero
    requires NewestOpen(db, db.mesas[m].id, |db.ordenes|).Some?
    ensures var r := CrearOrden(db, numero, items, now);
            var k := NewestOpen(db, db.mesas[m].id, |db.ordenes|).value;
            && r.db.ordenes == db.ordenes[k := Merged(db.ordenes[k], items)]
            && Qty(r.db.ordenes[k].detalles, p) == Qty(db.ordenes[k].detalles, p) + Requested(items, p)
            && Delivered(r.db.ordenes[k].detalles, p) == Delivered(db.ordenes[k].detalles, p)
  {
    var mm := MesaByNumero(db.mesas, numero).value;
    assert db.mesas[mm].numero == db.mesas[m].numero;
    var k := NewestOpen(db, db.mesas[m].id, |db.ordenes|).value;
    assert EnsureMesa(db, numero) == (db, m);
    assert CrearOrden(db, numero, items, now) == MergeInto(db, k, items);
    MergeItemsQty(db.ordenes[k].detalles, items, p);
  }

  /** An accepted request for a table with no unpaid order opens a new
      pendiente order under the next id holding exactly the requested
      quantities, none of them delivered. */
  lemma CrearOrdenOpens(db: Db, numero: int, items: seq<OrderItem>, now: int, p: int)
    requires Valid(db)
    requires AllPositive(items) && |items| > 0 && ItemProducts(items) <= db.productos.Keys
    requires forall m :: 0 <= m < |db.mesas| && db.mesas[m].numero == numero ==>
               forall k :: 0 <= k < |db.ordenes| ==> !IsOpenFor(db, db.mesas[m].id, db.ordenes[k])
    ensures var r := CrearOrden(db, numero, items, now);
            && |r.db.ordenes| == |db.ordenes| + 1
            && r.db.ordenes[..|db.ordenes|] == db.ordenes
            && r.db.ordenes[|db.ordenes|].id == db.next.orden
            && r.db.ordenes[|db.ordenes|].estado == Pendiente
            && r.db.ordenes[|db.ordenes|].fecha == now
            && Qty(r.db.ordenes[|db.ordenes|].detalles, p) == Requested(items, p)
            && Delivered(r.db.ordenes[|db.ordenes|].detalles, p) == 0
  {
    var (db1, m) := EnsureMesa(db, numero);
    if MesaByNumero(db.mesas, numero).None? {
      forall k | 0 <= k < |db1.ordenes|
        ensures db1.ordenes[k].mesaId != db1.mesas[m].id
      {
        assert OrdenOk(db, db.ordenes[k]);
      }
    }
    assert NewestOpen(db1, db1.mesas[m].id, |db1.ordenes|).None?;
    NewLinesQty(items, p);
  }

  // ---------------------------------------------------------------------------
  // GET /api/ordenes
  // ---------------------------------------------------------------------------

  function OrdersOut(db: Db, os: seq<Orden>): (r: Result<seq<OrderOut>>)
    ensures r.Ok? <==> forall k :: 0 <= k < |os| ==> OrderToOut(db, os[k]).Ok?
    ensures r.Ok? ==> |r.value| == |os| && forall k :: 0 <= k < |os| ==> r.value[k] == OrderToOut(db, os[k]).value
    decreases |os|
  {
    if |os| == 0 then Ok([])
    else
      var head :- OrderToOut(db, os[0]);
      var tail :- OrdersOut(db, os[1..]);
      Ok([head] + tail)
  }

  function Fecha(o: Orden): int {
    o.fecha
  }

  function OutFecha(o: OrderOut): int {
    o.fecha
  }

  /** The orders with no payment recorded. */
  function Unpaid(db: Db): Orden -> bool {
    (o: Orden) => !IsPaid(db.pagos, o.id)
  }

  /** The orders listar_ordenes shows: all of them by fecha ascending, minus
      the paid ones; as a collection, exactly the unpaid stored orders. */
  function Visibles(db: Db): (vs: seq<Orden>)
    ensures SortedBy(vs, Fecha)
    ensures multiset(vs) == multiset(Filter(db.ordenes, Unpaid(db)))
    ensures forall i :: 0 <= i < |vs| ==> vs[i] in db.ordenes && !IsPaid(db.pagos, vs[i].id)
    ensures forall k :: 0 <= k < |db.ordenes| && !IsPaid(db.pagos, db.ordenes[k].id) ==> db.ordenes[k] in vs
  {
    var sorted := SortBy(db.ordenes, Fecha);
    FilterKeepsSorted(sorted, Unpaid(db), Fecha);
    FilterPermutation(sorted, db.ordenes, Unpaid(db));
    var vs := Filter(sorted, Unpaid(db));
    forall k | 0 <= k < |db.ordenes| && !IsPaid(db.pagos, db.ordenes[k].id)
      ensures db.ordenes[k] in vs
    {
      assert db.ordenes[k] in multiset(sorted);
      var j :| 0 <= j < |sorted| && sorted[j] == db.ordenes[k];
    }
    assert forall o :: o in sorted ==> o in multiset(db.ordenes);
    vs
  }

  /** listar_ordenes: the response shape of every unpaid order, oldest first.
      It fails exactly when one of the listed orders has no response shape. */
  function ListarOrdenes(db: Db): (r: Result<seq<OrderOut>>)
    ensures r.Ok? <==> forall i :: 0 <= i < |Visibles(db)| ==> OrderToOut(db, Visibles(db)[i]).Ok?
    ensures r.Ok? ==> && |r.value| == |Visibles(db)|
                      && forall i :: 0 <= i < |r.value| ==> r.value[i] == OrderToOut(db, Visibles(db)[i]).value
    ensures r.Ok? ==> SortedBy(r.value, OutFecha)
    ensures r.Ok? ==> forall i :: 0 <= i < |r.value| ==> !r.value[i].pagado
  {
    var vs := Visibles(db);
    var r := OrdersOut(db, vs);
    if r.Ok? then
      assert forall i :: 0 <= i < |vs| ==> OutFecha(r.value[i]) == Fecha(vs[i]);
      r
    else r
  }

  /** Every unpaid order of the database appears in the listing. */
  lemma ListarOrdenesComplete(db: Db)
    requires ListarOrdenes(db).Ok?
    ensures forall k :: 0 <= k < |db.ordenes| && !IsPaid(db.pagos, db.ordenes[k].id) ==>
              exists i :: 0 <= i < |ListarOrdenes(db).value| && ListarOrdenes(db).value[i].id == db.ordenes[k].id
  {
    var vs := Visibles(db);
    var out := ListarOrdenes(db).value;
    assert out == OrdersOut(db, vs).value;
    forall k | 0 <= k < |db.ordenes| && !IsPaid(db.pagos, db.ordenes[k].id)
      ensures exists i :: 0 <= i < |out| && out[i].id == db.ordenes[k].id
    {
      var i :| 0 <= i < |vs| && vs[i] == db.ordenes[k];
      assert out[i].id == vs[i].id;
    }
  }

  /** In a consistent database the listing never fails. */
  lemma ListarOrdenesOk(db: Db)
    requires Valid(db)
    ensures ListarOrdenes(db).Ok?
  {
    var vs := Visibles(db);
    forall i | 0 <= i < |vs|
      ensures OrderToOut(db, vs[i]).Ok?
    {
      var k :| 0 <= k < |db.ordenes| && db.ordenes[k] == vs[i];
      assert OrdenOk(db, db.ordenes[k]);
      ValidOrderHasOut(db, k);
    }
  }


  /** Every stored order of a consistent database has a response shape. */
  lemma ValidOrderHasOut(db: Db, k: nat)
    requires Valid(db) && k < |db.ordenes|
    ensures OrderToOut(db, db.ordenes[k]).Ok?
  {
    assert OrdenOk(db, db.ordenes[k]);
    var m :| 0 <= m < |db.mesas| && db.mesas[m].id == db.ordenes[k].mesaId;
    assert MesaById(db.mesas, db.ordenes[k].mesaId).Some?;
  }

  // ---------------------------------------------------------------------------
  // PATCH /api/orden/{id}/estado
  // ---------------------------------------------------------------------------

  /** actualizar_estado: an unknown estado name is refused with 400 before the
      order is looked up, a missing order gives 404; otherwise the estado is
      set as given and update_status is broadcast. */
  function ActualizarEstado(db: Db, ordenId: int, estado: string): (r: Step<OrderOut>)
    ensures ParseEstado(estado).None? ==> r == Step(db, Fail(400, "Estado inválido"), None)
    ensures ParseEstado(estado).Some? && !HasOrden(db.ordenes, ordenId) ==>
              r == Step(db, Fail(404, "Orden no encontrada"), None)
    ensures ParseEstado(estado).Some? && OrdenById(db.ordenes, ordenId).Some? ==>
              var k := OrdenById(db.ordenes, ordenId).value;
              && r.db == db.(ordenes := db.ordenes[k := db.ordenes[k].(estado := ParseEstado(estado).value)])
              && r.result == OrderToOut(r.db, r.db.ordenes[k])
    ensures r.result.Ok? ==> r.result.value.estado == ParseEstado(estado).value && r.result.value.id == ordenId
    ensures r.result.Ok? ==> r.sent == Some(UpdateStatus(ordenId, ParseEstado(estado).value))
    ensures r.result.Err? ==> r.sent.None?
    ensures r.db.mesas == db.mesas && r.db.productos == db.productos && r.db.pagos == db.pagos && r.db.next == db.next
    ensures |r.db.ordenes| == |db.ordenes|
    ensures forall k :: 0 <= k < |db.ordenes| ==>
              r.db.ordenes[k] == db.ordenes[k] || (db.ordenes[k].id == ordenId && r.db.ordenes[k] == db.ordenes[k].(estado := r.db.ordenes[k].estado))
  {
    match ParseEstado(estado)
    case None => Step(db, Fail(400, "Estado inválido"), None)
    case Some(e) =>
      match OrdenById(db.ordenes, ordenId)
      case None => Step(db, Fail(404, "Orden no encontrada"), None)
      case Some(k) =>
        var o := db.ordenes[k].(estado := e);
        var db' := db.(ordenes := db.ordenes[k := o]);
        var out := OrderToOut(db', o);
        Step(db', out, if out.Ok? then Some(UpdateStatus(out.value.id, out.value.estado)) else None)
  }

  // ---------------------------------------------------------------------------
  // POST /api/orden/{id}/cobro
  // ---------------------------------------------------------------------------

  function LineAmount(productos: map<int, Producto>): Detalle -> int {
    (d: Detalle) => if d.productoId in productos then productos[d.productoId].precio * d.cantidad else 0
  }

  /** The amount an order is charged: the sum of price times quantity over
      its lines. Lines with non-negative quantities of products with
      non-negative prices never charge below zero. */
  function MontoTotal(ds: seq<Detalle>, productos: map<int, Producto>): (r: int)
    ensures (forall i :: 0 <= i < |ds| ==>
               ds[i].cantidad >= 0 && (ds[i].productoId in productos ==> productos[ds[i].productoId].precio >= 0)) ==> r >= 0
  {
    AmountsNonNegative(ds, productos);
    Sum(ds, LineAmount(productos))
  }

  lemma AmountsNonNegative(ds: seq<Detalle>, productos: map<int, Producto>)
    ensures (forall i :: 0 <= i < |ds| ==>
               ds[i].cantidad >= 0 && (ds[i].productoId in productos ==> productos[ds[i].productoId].precio >= 0)) ==>
            Sum(ds, LineAmount(productos)) >= 0
  {
    if forall i :: 0 <= i < |ds| ==>
         ds[i].cantidad >= 0 && (ds[i].productoId in productos ==> productos[ds[i].productoId].precio >= 0) {
      forall i | 0 <= i < |ds|
        ensures LineAmount(productos)(ds[i]) >= 0
      {
        if ds[i].productoId in productos {
          NonNegativeProduct(productos[ds[i].productoId].precio, ds[i].cantidad);
        }
      }
      SumNonNegative(ds, LineAmount(productos));
    }
  }

  /** Merging one requested line charges what the order charged before plus
      what that line alone would charge. */
  lemma MergeOneMonto(ds: seq<Detalle>, it: OrderItem, productos: map<int, Producto>)
    ensures MontoTotal(MergeOne(ds, it), productos) ==
            MontoTotal(ds, productos) + LineAmount(productos)(Detalle(it.productoId, it.cantidad, false, 0))
  {
    var d := Detalle(it.productoId, it.cantidad, false, 0);
    match LineOf(ds, it.productoId)
    case Some(j) =>
      var v := ds[j].(cantidad := ds[j].cantidad + it.cantidad, entregado := false);
      SumUpdate(ds, j, v, LineAmount(productos));
      if it.productoId in productos {
        var precio := productos[it.productoId].precio;
        assert precio * v.cantidad == precio * ds[j].cantidad + precio * it.cantidad;
      }
    case None =>
      SumConcat(ds, [d], LineAmount(productos));
  }

  /** An order that a request was merged into is charged exactly what it was
      charged before plus what the request would be charged as an order of
      its own: merging neither loses nor double-counts a unit. */
  lemma {:induction false} MergeItemsMonto(ds: seq<Detalle>, items: seq<OrderItem>, productos: map<int, Producto>)
    ensures MontoTotal(MergeItems(ds, items), productos) ==
            MontoTotal(ds, productos) + MontoTotal(NewLines(items), productos)
    decreases |items|
  {
    if |items| > 0 {
      var d := Detalle(items[0].productoId, items[0].cantidad, false, 0);
      var rest := NewLines(items[1..]);
      assert NewLines(items) == [d] + rest;
      assert ([d] + rest)[0] == d && ([d] + rest)[1..] == rest;
      MergeOneMonto(ds, items[0], productos);
      MergeItemsMonto(MergeOne(ds, items[0]), items[1..], productos);
    }
  }

  /** cobrar_orden: refuses an unknown method (400), a missing order (404),
      an order whose estado is not entregado (400) and an order already paid
      (400), in that order; otherwise records one payment of the order's total
      plus the given tip and broadcasts order_paid. */
  function CobrarOrden(db: Db, ordenId: int, metodo: string, propina: int, now: int): (r: Step<Pago>)
    ensures ParseMetodo(metodo).None? ==> r == Step(db, Fail(400, "Método inválido"), None)
    ensures ParseMetodo(metodo).Some? && !HasOrden(db.ordenes, ordenId) ==>
              r == Step(db, Fail(404, "Orden no encontrada"), None)
    ensures ParseMetodo(metodo).Some? && OrdenById(db.ordenes, ordenId).Some? ==>
              var o := db.ordenes[OrdenById(db.ordenes, ordenId).value];
              && (o.estado != Entregado ==> r == Step(db, Fail(400, "La orden debe estar 'entregado' para cobrar"), None))
              && (o.estado == Entregado && IsPaid(db.pagos, ordenId) ==> r == Step(db, Fail(400, "Orden ya cobrada"), None))
              && (o.estado == Entregado && !IsPaid(db.pagos, ordenId) && !LinesReferTo(o.detalles, db.productos) ==>
                    r == Step(db, Fail(500, "Internal Server Error"), None))
    ensures r.result.Ok? <==>
              && ParseMetodo(metodo).Some?
              && OrdenById(db.ordenes, ordenId).Some?
              && db.ordenes[OrdenById(db.ordenes, ordenId).value].estado == Entregado
              && !IsPaid(db.pagos, ordenId)
              && LinesReferTo(db.ordenes[OrdenById(db.ordenes, ordenId).value].detalles, db.productos)
    ensures r.result.Err? ==> r.db == db && r.sent.None?
    ensures r.result.Ok? ==>
              && r.result.value.ordenId == ordenId
              && r.result.value.metodo == ParseMetodo(metodo).value
              && r.result.value.montoTotal == MontoTotal(db.ordenes[OrdenById(db.ordenes, ordenId).value].detalles, db.productos)
              && r.result.value.propina == propina
              && r.result.value.fecha == now
              && r.db == db.(pagos := db.pagos + [r.result.value], next := db.next.(pago := db.next.pago + 1))
              && r.sent == Some(OrderPaid(ordenId))
  {
    match ParseMetodo(metodo)
    case None => Step(db, Fail(400, "Método inválido"), None)
    case Some(m) =>
      match OrdenById(db.ordenes, ordenId)
      case None => Step(db, Fail(404, "Orden no encontrada"), None)
      case Some(k) =>
        var o := db.ordenes[k];
        if o.estado != Entregado then Step(db, Fail(400, "La orden debe estar 'entregado' para cobrar"), None)
        else if IsPaid(db.pagos, ordenId) then Step(db, Fail(400, "Orden ya cobrada"), None)
        else if !LinesReferTo(o.detalles, db.productos) then Step(db, Fail(500, "Internal Server Error"), None)
        else
          var pago := Pago(db.next.pago, ordenId, m, MontoTotal(o.detalles, db.productos), propina, now);
          Step(db.(pagos := db.pagos + [pago], next := db.next.(pago := db.next.pago + 1)), Ok(pago), Some(OrderPaid(ordenId)))
  }

  /** cobrar_orden as the schema makes it behave: Pago.fecha's default is the
      value datetime.now() had when models.py was imported, so every payment
      is stamped with the process start time whatever the clock says. */
  function CobrarOrdenAsWritten(db: Db, ordenId: int, metodo: string, propina: int, startup: int, now: int): (r: Step<Pago>)
    ensures r.result.Ok? ==> r.result.value.fecha == startup
    ensures r.result.Ok? <==> CobrarOrden(db, ordenId, metodo, propina, now).result.Ok?
  {
    CobrarOrden(db, ordenId, metodo, propina, startup)
  }

  // ---------------------------------------------------------------------------
  // PATCH /api/orden/{id}/item/{producto}/entregado and .../entregados
  // ---------------------------------------------------------------------------

  /** marcar_item_entregado: sets the boolean flag of the order's first line
      for the product and derives the order's estado from the flags alone. */
  function MarcarItemEntregado(db: Db, ordenId: int, productoId: int, entregado: bool): (r: Step<OrderOut>)
    ensures !HasOrden(db.ordenes, ordenId) ==> r == Step(db, Fail(404, "Orden no encontrada"), None)
    ensures r.result.Err? && r.result.error.status == 404 ==> r.db == db
    ensures r.db.mesas == db.mesas && r.db.productos == db.productos && r.db.pagos == db.pagos && r.db.next == db.next
    ensures |r.db.ordenes| == |db.ordenes|
    ensures forall k :: 0 <= k < |db.ordenes| && db.ordenes[k].id != ordenId ==> r.db.ordenes[k] == db.ordenes[k]
    ensures r.result.Ok? ==> r.result.value.estado == EstadoFromFlags(r.db.ordenes[OrdenById(db.ordenes, ordenId).value].detalles)
    ensures OrdenById(db.ordenes, ordenId).Some? ==>
              var k := OrdenById(db.ordenes, ordenId).value;
              var o := db.ordenes[k];
              && (LineOf(o.detalles, productoId).None? ==> r == Step(db, Fail(404, "Item no encontrado en la orden"), None))
              && (LineOf(o.detalles, productoId).Some? ==>
                    var j := LineOf(o.detalles, productoId).value;
                    var ds := o.detalles[j := o.detalles[j].(entregado := entregado)];
                    && r.db == db.(ordenes := db.ordenes[k := o.(detalles := ds, estado := EstadoFromFlags(ds))])
                    && r.result == OrderToOut(r.db, r.db.ordenes[k])
                    && r.sent == (if r.result.Ok? then Some(UpdateOrder(r.result.value)) else None))
  {
    match OrdenById(db.ordenes, ordenId)
    case None => Step(db, Fail(404, "Orden no encontrada"), None)
    case Some(k) =>
      var o := db.ordenes[k];
      match LineOf(o.detalles, productoId)
      case None => Step(db, Fail(404, "Item no encontrado en la orden"), None)
      case Some(j) =>
        var ds := o.detalles[j := o.detalles[j].(entregado := entregado)];
        var o' := o.(detalles := ds, estado := EstadoFromFlags(ds));
        Publish(db.(ordenes := db.ordenes[k := o']), o', (out: OrderOut) => UpdateOrder(out))
  }

  /** max(0, min(n, cantidad)): the count pulled into 0..cantidad. */
  function Clamp(n: int, cantidad: int): (r: int)
    ensures 0 <= r
    ensures 0 <= cantidad ==> r <= cantidad
    ensures 0 <= n <= cantidad ==> r == n
    ensures n > cantidad >= 0 ==> r == cantidad
  {
    if n < 0 then 0 else if n > cantidad then (if cantidad < 0 then 0 else cantidad) else n
  }

  /** actualizar_item_entregados: a negative count fails validation (422);
      otherwise the order's first line for the product stores the requested
      count clamped into 0..cantidad, its flag is set from the count, and the
      order's estado is derived from the counts of all its lines. */
  function ActualizarItemEntregados(db: Db, ordenId: int, productoId: int, entregados: int): (r: Step<OrderOut>)
    ensures entregados < 0 ==> r.db == db && r.result.Err? && r.result.error.status == 422
    ensures entregados >= 0 && !HasOrden(db.ordenes, ordenId) ==> r == Step(db, Fail(404, "Orden no encontrada"), None)
    ensures r.result.Err? && r.result.error.status != 500 ==> r.db == db
    ensures r.db.mesas == db.mesas && r.db.productos == db.productos && r.db.pagos == db.pagos && r.db.next == db.next
    ensures |r.db.ordenes| == |db.ordenes|
    ensures forall k :: 0 <= k < |db.ordenes| && db.ordenes[k].id != ordenId ==> r.db.ordenes[k] == db.ordenes[k]
    ensures entregados >= 0 && OrdenById(db.ordenes, ordenId).Some? ==>
              var k := OrdenById(db.ordenes, ordenId).value;
              var o := db.ordenes[k];
              && (LineOf(o.detalles, productoId).None? ==> r == Step(db, Fail(404, "Item no encontrado en la orden"), None))
              && (LineOf(o.detalles, productoId).Some? ==>
                    && r.db == db.(ordenes := db.ordenes[k := WithDelivered(o, LineOf(o.detalles, productoId).value, entregados)])
                    && r.result == OrderToOut(r.db, r.db.ordenes[k])
                    && r.sent == (if r.result.Ok? then Some(UpdateOrder(r.result.value)) else None))
  {
    if entregados < 0 then Step(db, Fail(422, "entregados debe ser mayor o igual que 0"), None)
    else match OrdenById(db.ordenes, ordenId)
      case None => Step(db, Fail(404, "Orden no encontrada"), None)
      case Some(k) =>
        var o := db.ordenes[k];
        match LineOf(o.detalles, productoId)
        case None => Step(db, Fail(404, "Item no encontrado en la orden"), None)
        case Some(j) =>
          var o' := WithDelivered(o, j, entregados);
          Publish(db.(ordenes := db.ordenes[k := o']), o', (out: OrderOut) => UpdateOrder(out))
  }

  /** The order after line j's delivered count is set to n, clamped to the
      ordered amount: the line's flag follows the count, the order's state
      follows all the counts, and nothing else changes. */
  function WithDelivered(o: Orden, j: nat, n: int): (o': Orden)
    requires j < |o.detalles|
    ensures o'.id == o.id && o'.mesaId == o.mesaId && o'.fecha == o.fecha
    ensures |o'.detalles| == |o.detalles|
    ensures o'.detalles[j] == o.detalles[j].(entregados := Clamp(n, o.detalles[j].cantidad),
                                             entregado := Clamp(n, o.detalles[j].cantidad) >= o.detalles[j].cantidad)
    ensures forall i :: 0 <= i < |o.detalles| && i != j ==> o'.detalles[i] == o.detalles[i]
    ensures o'.estado == EstadoFromCounts(o'.detalles)
  {
    var d := o.detalles[j];
    var nuevo := Clamp(n, d.cantidad);
    var ds := o.detalles[j := d.(entregados := nuevo, entregado := nuevo >= d.cantidad)];
    o.(detalles := ds, estado := EstadoFromCounts(ds))
  }

  /** Setting a delivered count keeps a sound order sound. */
  lemma WithDeliveredOk(db: Db, o: Orden, j: nat, n: int)
    requires OrdenOk(db, o) && j < |o.detalles| && n >= 0
    ensures OrdenOk(db, WithDelivered(o, j, n))
  {
    var o' := WithDelivered(o, j, n);
    assert o'.detalles == o.detalles[j := o'.detalles[j]];
    ProductIdsUpdate(o.detalles, j, o'.detalles[j]);
    assert LineOk(o.detalles[j]);
  }

  // ---------------------------------------------------------------------------
  // Consistency of the database across the handlers
  // ---------------------------------------------------------------------------

  /** Rewriting a stored order under its own id with sound contents keeps the database consistent. */
  lemma ReplaceOrderValid(db: Db, k: nat, o: Orden)
    requires Valid(db) && k < |db.ordenes|
    requires o.id == db.ordenes[k].id && OrdenOk(db, o)
    ensures Valid(db.(ordenes := db.ordenes[k := o]))
  {
    var db' := db.(ordenes := db.ordenes[k := o]);
    forall p | 0 <= p < |db'.pagos|
      ensures HasOrden(db'.ordenes, db'.pagos[p].ordenId)
    {
      var l :| 0 <= l < |db.ordenes| && db.ordenes[l].id == db.pagos[p].ordenId;
      assert db'.ordenes[l].id == db.ordenes[l].id;
    }
  }

  /** Appending an order under the next id, at an existing table, with sound lines, keeps the database consistent. */
  lemma AppendOrderValid(db: Db, o: Orden)
    requires Valid(db)
    requires o.id == db.next.orden && HasMesa(db.mesas, o.mesaId)
    requires LinesOk(o.detalles) && LinesReferTo(o.detalles, db.productos)
    ensures Valid(db.(ordenes := db.ordenes + [o], next := db.next.(orden := db.next.orden + 1)))
  {
    var db' := db.(ordenes := db.ordenes + [o], next := db.next.(orden := db.next.orden + 1));
    forall p | 0 <= p < |db'.pagos|
      ensures HasOrden(db'.ordenes, db'.pagos[p].ordenId)
    {
      var l :| 0 <= l < |db.ordenes| && db.ordenes[l].id == db.pagos[p].ordenId;
      assert db'.ordenes[l] == db.ordenes[l];
    }
    assert forall k :: 0 <= k < |db.ordenes| ==> db'.ordenes[k] == db.ordenes[k];
  }

  /** Creating a missing table keeps the database consistent. */
  lemma EnsureMesaValid(db: Db, numero: int)
    requires Valid(db)
    ensures Valid(EnsureMesa(db, numero).0)
  {
    var db' := EnsureMesa(db, numero).0;
    if MesaByNumero(db.mesas, numero).None? {
      forall k | 0 <= k < |db'.ordenes|
        ensures HasMesa(db'.mesas, db'.ordenes[k].mesaId)
      {
        assert OrdenOk(db, db.ordenes[k]);
        var m :| 0 <= m < |db.mesas| && db.mesas[m].id == db.ordenes[k].mesaId;
        assert db'.mesas[m] == db.mesas[m];
      }
    }
  }

  lemma MergeIntoValid(db: Db, k: nat, items: seq<OrderItem>)
    requires Valid(db) && k < |db.ordenes|
    requires AllPositive(items) && ItemProducts(items) <= db.productos.Keys
    ensures Valid(MergeInto(db, k, items).db) && MergeInto(db, k, items).result.Ok?
  {
    var o := Merged(db.ordenes[k], items);
    assert OrdenOk(db, db.ordenes[k]);
    ReplaceOrderValid(db, k, o);
    ValidOrderHasOut(db.(ordenes := db.ordenes[k := o]), k);
  }

  lemma OpenOrderValid(db: Db, mesaId: int, items: seq<OrderItem>, now: int)
    requires Valid(db) && HasMesa(db.mesas, mesaId)
    requires AllPositive(items) && ItemProducts(items) <= db.productos.Keys
    ensures Valid(OpenOrder(db, mesaId, items, now).db) && OpenOrder(db, mesaId, items, now).result.Ok?
  {
    var o := Orden(db.next.orden, mesaId, now, Pendiente, NewLines(items));
    AppendOrderValid(db, o);
    ValidOrderHasOut(OpenOrder(db, mesaId, items, now).db, |db.ordenes|);
  }

  /** POST /api/orden keeps the database consistent, and on a consistent
      database every accepted request gets its response and broadcast. */
  lemma CrearOrdenValid(db: Db, numero: int, items: seq<OrderItem>, now: int)
    requires Valid(db)
    ensures Valid(CrearOrden(db, numero, items, now).db)
    ensures AllPositive(items) && |items| > 0 && ItemProducts(items) <= db.productos.Keys ==>
              CrearOrden(db, numero, items, now).result.Ok? && CrearOrden(db, numero, items, now).sent.Some?
  {
    if AllPositive(items) {
      EnsureMesaValid(db, numero);
      var (db1, m) := EnsureMesa(db, numero);
      if |items| > 0 && MissingProduct(items, db1.productos).None? {
        match NewestOpen(db1, db1.mesas[m].id, |db1.ordenes|)
        case Some(k) =>
          MergeIntoValid(db1, k, items);
        case None =>
          assert HasMesa(db1.mesas, db1.mesas[m].id);
          OpenOrderValid(db1, db1.mesas[m].id, items, now);
      }
    }
  }

  lemma ActualizarEstadoValid(db: Db, ordenId: int, estado: string)
    requires Valid(db)
    ensures Valid(ActualizarEstado(db, ordenId, estado).db)
    ensures ParseEstado(estado).Some? && HasOrden(db.ordenes, ordenId) ==>
              && ActualizarEstado(db, ordenId, estado).result.Ok?
              && ActualizarEstado(db, ordenId, estado).sent == Some(UpdateStatus(ordenId, ParseEstado(estado).value))
  {
    if ParseEstado(estado).Some? && OrdenById(db.ordenes, ordenId).Some? {
      var k := OrdenById(db.ordenes, ordenId).value;
      var o := db.ordenes[k].(estado := ParseEstado(estado).value);
      assert OrdenOk(db, db.ordenes[k]);
      ReplaceOrderValid(db, k, o);
      ValidOrderHasOut(db.(ordenes := db.ordenes[k := o]), k);
    }
  }

  lemma CobrarOrdenValid(db: Db, ordenId: int, metodo: string, propina: int, now: int)
    requires Valid(db)
    ensures Valid(CobrarOrden(db, ordenId, metodo, propina, now).db)
  {
    var r := CobrarOrden(db, ordenId, metodo, propina, now);
    if r.result.Ok? {
      var pago := r.result.value;
      var k := OrdenById(db.ordenes, ordenId).value;
      assert HasOrden(db.ordenes, pago.ordenId) by {
        assert db.ordenes[k].id == ordenId;
      }
      AppendPagoValid(db, pago);
    }
  }

  /** Recording a payment under the next payment id, for an existing order
      that has none yet, keeps the database consistent. */
  lemma AppendPagoValid(db: Db, pago: Pago)
    requires Valid(db)
    requires pago.id == db.next.pago && HasOrden(db.ordenes, pago.ordenId) && !IsPaid(db.pagos, pago.ordenId)
    ensures Valid(db.(pagos := db.pagos + [pago], next := db.next.(pago := db.next.pago + 1)))
  {
    var db' := db.(pagos := db.pagos + [pago], next := db.next.(pago := db.next.pago + 1));
    var ps := db'.pagos;
    assert forall q :: 0 <= q < |db.pagos| ==> ps[q] == db.pagos[q];
    assert ps[|db.pagos|] == pago;
    forall k | 0 <= k < |db'.ordenes|
      ensures OrdenOk(db', db'.ordenes[k])
    {
      assert OrdenOk(db, db.ordenes[k]);
    }
    forall p, q | 0 <= p < q < |ps|
      ensures ps[p].id != ps[q].id && ps[p].ordenId != ps[q].ordenId
    {
      if q == |db.pagos| {
        assert ps[p].id < db.next.pago;
      }
    }
  }

  /** An order is charged at most once: after a successful charge, charging it
      again with any valid method is refused as already paid, and nothing
      further is recorded. */
  lemma CobrarOrdenOnce(db: Db, ordenId: int, metodo: string, propina: int, now: int,
                        metodo2: string, propina2: int, now2: int)
    requires CobrarOrden(db, ordenId, metodo, propina, now).result.Ok?
    requires ParseMetodo(metodo2).Some?
    ensures var db' := CobrarOrden(db, ordenId, metodo, propina, now).db;
            CobrarOrden(db', ordenId, metodo2, propina2, now2) == Step(db', Fail(400, "Orden ya cobrada"), None)
  {
    var r := CobrarOrden(db, ordenId, metodo, propina, now);
    assert r.db.pagos[|db.pagos|].ordenId == ordenId;
    assert IsPaid(r.db.pagos, ordenId);
  }

  lemma MarcarItemEntregadoValid(db: Db, ordenId: int, productoId: int, entregado: bool)
    requires Valid(db)
    ensures Valid(MarcarItemEntregado(db, ordenId, productoId, entregado).db)
    ensures MarcarItemEntregado(db, ordenId, productoId, entregado).result.Err? ==>
              MarcarItemEntregado(db, ordenId, productoId, entregado).result.error.status == 404
  {
    match OrdenById(db.ordenes, ordenId)
    case None =>
    case Some(k) =>
      var o := db.ordenes[k];
      match LineOf(o.detalles, productoId)
      case None =>
      case Some(j) =>
        var v := o.detalles[j].(entregado := entregado);
        var ds := o.detalles[j := v];
        var o' := o.(detalles := ds, estado := EstadoFromFlags(ds));
        assert OrdenOk(db, o);
        ProductIdsUpdate(o.detalles, j, v);
        ReplaceOrderValid(db, k, o');
        ValidOrderHasOut(db.(ordenes := db.ordenes[k := o']), k);
  }

  lemma ActualizarItemEntregadosValid(db: Db, ordenId: int, productoId: int, entregados: int)
    requires Valid(db)
    ensures Valid(ActualizarItemEntregados(db, ordenId, productoId, entregados).db)
    ensures ActualizarItemEntregados(db, ordenId, productoId, entregados).result.Err? ==>
              ActualizarItemEntregados(db, ordenId, productoId, entregados).result.error.status in {404, 422}
  {
    if entregados >= 0 {
      match OrdenById(db.ordenes, ordenId)
      case None =>
      case Some(k) =>
        var o := db.ordenes[k];
        match LineOf(o.detalles, productoId)
        case None =>
        case Some(j) =>
          var o' := WithDelivered(o, j, entregados);
          assert OrdenOk(db, o);
          WithDeliveredOk(db, o, j, entregados);
          ReplaceOrderValid(db, k, o');
          ValidOrderHasOut(db.(ordenes := db.ordenes[k := o']), k);
    }
  }

  /** The count-based update stores the clamped count on the order's first
      line for the product, and the estado it derives agrees with the
      per-item entregado the response recomputes: entregado exactly when
      every item reads delivered. */
  lemma ActualizarItemEntregadosEffect(db: Db, ordenId: int, productoId: int, entregados: int, k: nat, j: nat)
    requires Valid(db) && entregados >= 0
    requires OrdenById(db.ordenes, ordenId) == Some(k)
    requires LineOf(db.ordenes[k].detalles, productoId) == Some(j)
    ensures var r := ActualizarItemEntregados(db, ordenId, productoId, entregados);
            && r.result.Ok?
            && r.db.ordenes[k].detalles[j].entregados == Clamp(entregados, db.ordenes[k].detalles[j].cantidad)
            && (entregados <= db.ordenes[k].detalles[j].cantidad ==> r.db.ordenes[k].detalles[j].entregados == entregados)
            && (forall l :: 0 <= l < |db.ordenes[k].detalles| && l != j ==> r.db.ordenes[k].detalles[l] == db.ordenes[k].detalles[l])
            && (r.result.value.estado == Entregado <==> forall i :: 0 <= i < |r.result.value.items| ==> r.result.value.items[i].entregado)
  {
    ActualizarItemEntregadosValid(db, ordenId, productoId, entregados);
    assert OrdenOk(db, db.ordenes[k]);
  }

  /** The flag-based update can report an order entregado while the same
      response shows its only item undelivered: marking a line of 2 units
      with none delivered sets the flag, the estado follows the flag, and the
      item's entregado is recomputed from the counts. */
  lemma MarcarItemEntregadoDisagrees()
    ensures var db := Db([Mesa(1, 7)], map[5 := Producto("Taco", 2500, None)],
                         [Orden(1, 1, 0, Pendiente, [Detalle(5, 2, false, 0)])], [], NextIds(2, 6, 2, 1));
            var r := MarcarItemEntregado(db, 1, 5, true);
            && r.result.Ok?
            && r.result.value.estado == Entregado
            && !r.result.value.items[0].entregado
  {
    var db := Db([Mesa(1, 7)], map[5 := Producto("Taco", 2500, None)],
                 [Orden(1, 1, 0, Pendiente, [Detalle(5, 2, false, 0)])], [], NextIds(2, 6, 2, 1));
    assert OrdenById(db.ordenes, 1) == Some(0);
    assert LineOf(db.ordenes[0].detalles, 5) == Some(0);
    assert ProductIds([Detalle(5, 2, true, 0)]) == {5} by {
      ProductIdsSingle(Detalle(5, 2, true, 0));
    }
    assert MesaById(db.mesas, 1) == Some(0);
  }
}

=== FILE: order_token.dfy ===
/** The table-order token of the customer menu: "{mesa}:{exp}.{signature}",
    where the signature is the lowercase hexadecimal HMAC of "{mesa}:{exp}"
    under the server's secret, and its verifier. The HMAC itself is a
    parameter: any function from the message to a byte string. */
module OrderToken {
  import opened Base
  import opened Strings

  /** Seconds a token stays valid unless ORDER_TOKEN_TTL says otherwise. */
  const DEFAULT_TTL := 900

  /** The keyed digest of a message (HMAC-SHA256 under ORDER_SECRET). */
  type Mac = string -> seq<byte>

  predicate IsAscii(s: string) {
    forall i :: 0 <= i < |s| ==> s[i] as int < 128
  }

  /** _sign: the digest as lowercase hexadecimal, so it is ASCII and holds no '.'. */
  function Sign(mac: Mac, msg: string): (sig: string)
    ensures '.' !in sig && IsAscii(sig)
  {
    HexEncode(mac(msg))
  }

  /** The signed part of a token. It holds no '.', so the last '.' of a token
      ends it, and it splits on ':' into the two printed numbers. */
  function Message(mesa: int, exp: int): (m: string)
    ensures '.' !in m
    ensures Split(m, ':') == [IntToString(mesa), IntToString(exp)]
  {
    SeparatorNotInInt(mesa, '.');
    SeparatorNotInInt(exp, '.');
    SeparatorNotInInt(mesa, ':');
    SeparatorNotInInt(exp, ':');
    SplitAt(IntToString(mesa), IntToString(exp), ':');
    SplitWithout(IntToString(exp), ':');
    IntToString(mesa) + ":" + IntToString(exp)
  }

  /** A token split into its signed message, its signature and the two numbers of the message. */
  datatype Parsed = Parsed(msg: string, signature: string, mesa: int, exp: int)

  /** The parsing half of verify_order_token: rsplit('.', 1), then split(':')
      into exactly two fields, then int() of each; None where Python raises. */
  function ParseToken(token: string): (r: Option<Parsed>)
    ensures '.' !in token ==> r.None?
    ensures r.Some? ==> token == r.value.msg + "." + r.value.signature && '.' !in r.value.signature
    ensures r.Some? ==> && |Split(r.value.msg, ':')| == 2
                        && ParseInt(Split(r.value.msg, ':')[0]) == Some(r.value.mesa)
                        && ParseInt(Split(r.value.msg, ':')[1]) == Some(r.value.exp)
  {
    match LastIndexOf(token, '.')
    case None => None
    case Some(i) =>
      assert token == token[..i] + "." + token[i + 1..];
      var msg := token[..i];
      var parts := Split(msg, ':');
      if |parts| != 2 then None
      else match (ParseInt(parts[0]), ParseInt(parts[1]))
        case (Some(mesa), Some(exp)) => Some(Parsed(msg, token[i + 1..], mesa, exp))
        case _ => None
  }

  /** Every "{mesa}:{exp}.{signature}" whose signature holds no '.' parses
      back to its message, its signature and its two numbers, whatever the
      signature's characters. */
  lemma ParseTokenAny(mesa: int, exp: int, sig: string)
    requires '.' !in sig
    ensures ParseToken(Message(mesa, exp) + "." + sig) == Some(Parsed(Message(mesa, exp), sig, mesa, exp))
  {
    var msg := Message(mesa, exp);
    var t := msg + "." + sig;
    LastSeparator(msg, sig, '.');
    assert LastIndexOf(t, '.') == Some(|msg|) && t[..|msg|] == msg && t[|msg| + 1..] == sig;
    MessageFields(mesa, exp);
  }

  /** ParseTokenAny for a token already assembled. */
  lemma ParsesAs(t: string, mesa: int, exp: int, sig: string)
    requires '.' !in sig && t == Message(mesa, exp) + "." + sig
    ensures ParseToken(t) == Some(Parsed(Message(mesa, exp), sig, mesa, exp))
  {
    ParseTokenAny(mesa, exp, sig);
  }

  /** The signed message splits at ':' into the two numbers, and each parses back. */
  lemma MessageFields(mesa: int, exp: int)
    ensures Split(Message(mesa, exp), ':') == [IntToString(mesa), IntToString(exp)]
    ensures ParseInt(IntToString(mesa)) == Some(mesa) && ParseInt(IntToString(exp)) == Some(exp)
  {
    IntRoundTrip(mesa);
    IntRoundTrip(exp);
  }

  /** generate_order_token: the token for a table, valid until now + ttl. */
  function GenerateOrderToken(mac: Mac, mesa: int, now: int, ttl: int): (t: string)
    ensures ParseToken(t) == Some(Parsed(Message(mesa, now + ttl), Sign(mac, Message(mesa, now + ttl)), mesa, now + ttl))
  {
    var t := Message(mesa, now + ttl) + "." + Sign(mac, Message(mesa, now + ttl));
    ParsesAs(t, mesa, now + ttl, Sign(mac, Message(mesa, now + ttl)));
    t
  }

  /** The last separator of a + [c] + b is the one after a when b holds none. */
  lemma {:induction false} LastSeparator(a: string, b: string, c: char)
    requires c !in b
    ensures LastIndexOf(a + [c] + b, c) == Some(|a|)
    ensures (a + [c] + b)[..|a|] == a && (a + [c] + b)[|a| + 1..] == b
    decreases |b|
  {
    var s := a + [c] + b;
    if |b| > 0 {
      var b' := b[..|b| - 1];
      assert s[|s| - 1] == b[|b| - 1];
      assert s[..|s| - 1] == a + [c] + b';
      LastSeparator(a, b', c);
    }
  }

  /** verify_order_token. The checks run in this order: a missing or empty
      token (401), a token that does not parse (401), a table other than the
      expected one (403), a signature with a non-ASCII character, on which
      hmac.compare_digest raises (500), a wrong signature (401), and expiry,
      where exp == now is still accepted (401). */
  function VerifyOrderToken(mac: Mac, token: Option<string>, expected: int, now: int): (r: Result<()>)
    ensures token.None? || token == Some("") ==> r == Fail(401, "Token requerido")
    ensures token.Some? && token != Some("") && ParseToken(token.value).None? ==> r == Fail(401, "Token inválido")
    ensures token.Some? && ParseToken(token.value).Some? && ParseToken(token.value).value.mesa != expected ==>
              r == Fail(403, "Token no corresponde a la mesa")
    ensures token.Some? && ParseToken(token.value).Some? && ParseToken(token.value).value.mesa == expected
            && !IsAscii(ParseToken(token.value).value.signature) ==>
              r == Fail(500, "Internal Server Error")
    ensures token.Some? && ParseToken(token.value).Some? && ParseToken(token.value).value.mesa == expected
            && IsAscii(ParseToken(token.value).value.signature)
            && ParseToken(token.value).value.signature != Sign(mac, ParseToken(token.value).value.msg) ==>
              r == Fail(401, "Firma inválida")
    ensures token.Some? && ParseToken(token.value).Some? && ParseToken(token.value).value.mesa == expected
            && ParseToken(token.value).value.signature == Sign(mac, ParseToken(token.value).value.msg)
            && ParseToken(token.value).value.exp < now ==>
              r == Fail(401, "Token expirado")
    ensures r.Ok? <==> && token.Some? && ParseToken(token.value).Some?
                       && ParseToken(token.value).value.mesa == expected
                       && ParseToken(token.value).value.signature == Sign(mac, ParseToken(token.value).value.msg)
                       && now <= ParseToken(token.value).value.exp
  {
    if token.None? || token.value == "" then Fail(401, "Token requerido")
    else match ParseToken(token.value)
      case None => Fail(401, "Token inválido")
      case Some(p) =>
        if p.mesa != expected then Fail(403, "Token no corresponde a la mesa")
        else if !IsAscii(p.signature) then Fail(500, "Internal Server Error")
        else if p.signature != Sign(mac, p.msg) then Fail(401, "Firma inválida")
        else if p.exp < now then Fail(401, "Token expirado")
        else Ok(())
  }

  /** A token generated for a table verifies for that table exactly until its
      expiry instant, and is reported expired afterwards. */
  lemma GeneratedTokenVerifies(mac: Mac, mesa: int, issued: int, ttl: int, now: int)
    ensures var t := GenerateOrderToken(mac, mesa, issued, ttl);
            VerifyOrderToken(mac, Some(t), mesa, now) ==
              if now <= issued + ttl then Ok(()) else Fail(401, "Token expirado")
  {
    var t := GenerateOrderToken(mac, mesa, issued, ttl);
    assert ParseToken(t).Some?;
  }

  /** A well-formed token for one table is refused for another with 403,
      whatever its signature (a forged one, or one with non-ASCII characters
      that would make the digest comparison raise) and whatever its expiry:
      the table check comes first. */
  lemma OtherTableForbidden(mac: Mac, mesa: int, exp: int, sig: string, other: int, now: int)
    requires '.' !in sig && other != mesa
    ensures VerifyOrderToken(mac, Some(Message(mesa, exp) + "." + sig), other, now) ==
              Fail(403, "Token no corresponde a la mesa")
  {
    ParseTokenAny(mesa, exp, sig);
  }

  /** In particular a token generated for one table is refused for any other. */
  lemma GeneratedForOtherTable(mac: Mac, mesa: int, issued: int, ttl: int, other: int, now: int)
    requires other != mesa
    ensures VerifyOrderToken(mac, Some(GenerateOrderToken(mac, mesa, issued, ttl)), other, now) ==
              Fail(403, "Token no corresponde a la mesa")
  {
    OtherTableForbidden(mac, mesa, issued + ttl, Sign(mac, Message(mesa, issued + ttl)), other, now);
  }

  /** A token for the right table with a signature other than the digest of
      its message is refused as "Firma inválida" when the signature is ASCII,
      and with a 500 when it is not, whatever its expiry. */
  lemma ForgedSignatureRefused(mac: Mac, mesa: int, exp: int, sig: string, now: int)
    requires '.' !in sig && sig != Sign(mac, Message(mesa, exp))
    ensures VerifyOrderToken(mac, Some(Message(mesa, exp) + "." + sig), mesa, now) ==
              if IsAscii(sig) then Fail(401, "Firma inválida") else Fail(500, "Internal Server Error")
  {
    ParseTokenAny(mesa, exp, sig);
  }
}

=== FILE: productos.dfy ===
/** The product catalogue endpoints: creating a product, a partial update in
    which every absent field keeps its value, and deletion, refused while any
    order line still names the product. */
module Productos {
  import opened Base
  import opened Store

  /** A product as the endpoints return it. */
  datatype ProductoOut = ProductoOut(id: int, nombre: string, precio: int, imagen: Option<string>)

  /** The database a request leaves behind together with its response. */
  datatype Change<T> = Change(db: Db, result: Result<T>)

  /** The body of PATCH /api/producto/{id}: None where a field was not sent (or sent as null). */
  datatype ProductoUpdate = ProductoUpdate(nombre: Option<string>, precio: Option<int>, imagen: Option<string>)

  /** Some order line, paid or not, names the product. */
  predicate Referenced(ordenes: seq<Orden>, id: int) {
    exists k :: 0 <= k < |ordenes| && id in ProductIds(ordenes[k].detalles)
  }

  /** crear_producto: stores the product under the next free id. */
  function CrearProducto(db: Db, nombre: string, precio: int, imagen: Option<string>): (r: Change<ProductoOut>)
    ensures r.result.Ok?
    ensures r.result.value == ProductoOut(db.next.producto, nombre, precio, imagen)
    ensures r.db.productos == db.productos[db.next.producto := Producto(nombre, precio, imagen)]
    ensures r.db.next == db.next.(producto := db.next.producto + 1)
    ensures r.db.mesas == db.mesas && r.db.ordenes == db.ordenes && r.db.pagos == db.pagos
  {
    var id := db.next.producto;
    Change(db.(productos := db.productos[id := Producto(nombre, precio, imagen)],
               next := db.next.(producto := id + 1)),
           Ok(ProductoOut(id, nombre, precio, imagen)))
  }

  /** The product after a partial update: each field sent replaces the stored one. */
  function Patched(p: Producto, u: ProductoUpdate): (q: Producto)
    ensures q.nombre == (if u.nombre.Some? then u.nombre.value else p.nombre)
    ensures q.precio == (if u.precio.Some? then u.precio.value else p.precio)
    ensures q.imagen == (if u.imagen.Some? then u.imagen else p.imagen)
  {
    var p1 := if u.nombre.Some? then p.(nombre := u.nombre.value) else p;
    var p2 := if u.precio.Some? then p1.(precio := u.precio.value) else p1;
    if u.imagen.Some? then p2.(imagen := u.imagen) else p2
  }

  /** actualizar_producto: 404 for an unknown id; otherwise only that product
      changes, by Patched. */
  function ActualizarProducto(db: Db, id: int, u: ProductoUpdate): (r: Change<ProductoOut>)
    ensures id !in db.productos ==> r == Change(db, Fail(404, "Producto no encontrado"))
    ensures id in db.productos ==>
              && r.db == db.(productos := db.productos[id := Patched(db.productos[id], u)])
              && r.result == Ok(ProductoOut(id, Patched(db.productos[id], u).nombre,
                                            Patched(db.productos[id], u).precio,
                                            Patched(db.productos[id], u).imagen))
  {
    if id !in db.productos then Change(db, Fail(404, "Producto no encontrado"))
    else
      var q := Patched(db.productos[id], u);
      Change(db.(productos := db.productos[id := q]), Ok(ProductoOut(id, q.nombre, q.precio, q.imagen)))
  }

  /** eliminar_producto: 404 for an unknown id, 400 while an order line names
      the product; otherwise exactly that product leaves the catalogue. */
  function EliminarProducto(db: Db, id: int): (r: Change<bool>)
    ensures id !in db.productos ==> r == Change(db, Fail(404, "Producto no encontrado"))
    ensures id in db.productos && Referenced(db.ordenes, id) ==>
              r == Change(db, Fail(400, "No se puede eliminar: producto con órdenes asociadas"))
    ensures r.result.Ok? <==> id in db.productos && !Referenced(db.ordenes, id)
    ensures r.result.Ok? ==> r.db.productos.Keys == db.productos.Keys - {id}
    ensures forall k :: k in r.db.productos ==> k in db.productos && r.db.productos[k] == db.productos[k]
    ensures r.db.mesas == db.mesas && r.db.ordenes == db.ordenes && r.db.pagos == db.pagos && r.db.next == db.next
  {
    if id !in db.productos then Change(db, Fail(404, "Producto no encontrado"))
    else if Referenced(db.ordenes, id) then Change(db, Fail(400, "No se puede eliminar: producto con órdenes asociadas"))
    else Change(db.(productos := db.productos - {id}), Ok(true))
  }

  // ---------------------------------------------------------------------------
  // Properties
  // ---------------------------------------------------------------------------

  /** Sending the same update twice changes nothing the first did not. */
  lemma ActualizarProductoIdempotent(db: Db, id: int, u: ProductoUpdate)
    ensures var once := ActualizarProducto(db, id, u);
            ActualizarProducto(once.db, id, u) == once
  {
  }

  /** An update that sends no field leaves the catalogue as it was. */
  lemma EmptyUpdateKeepsProduct(db: Db, id: int)
    requires id in db.productos
    ensures ActualizarProducto(db, id, ProductoUpdate(None, None, None)).db == db
  {
    assert db.productos[id := db.productos[id]] == db.productos;
  }

  /** A product just created can be deleted while no order names it, and the catalogue is back where it was. */
  lemma CrearThenEliminar(db: Db, nombre: string, precio: int, imagen: Option<string>)
    requires ProductosOk(db) && !Referenced(db.ordenes, db.next.producto)
    ensures var c := CrearProducto(db, nombre, precio, imagen);
            var e := EliminarProducto(c.db, c.result.value.id);
            e.result.Ok? && e.db.productos == db.productos
  {
    var id := db.next.producto;
    assert id !in db.productos;
    var c := CrearProducto(db, nombre, precio, imagen);
    assert c.db.productos - {id} == db.productos;
  }

  lemma CrearProductoValid(db: Db, nombre: string, precio: int, imagen: Option<string>)
    requires Valid(db)
    ensures Valid(CrearProducto(db, nombre, precio, imagen).db)
  {
    var db' := CrearProducto(db, nombre, precio, imagen).db;
    forall k | 0 <= k < |db'.ordenes|
      ensures OrdenOk(db', db'.ordenes[k])
    {
      assert OrdenOk(db, db.ordenes[k]);
    }
  }

  lemma ActualizarProductoValid(db: Db, id: int, u: ProductoUpdate)
    requires Valid(db)
    ensures Valid(ActualizarProducto(db, id, u).db)
  {
    var db' := ActualizarProducto(db, id, u).db;
    forall k | 0 <= k < |db'.ordenes|
      ensures OrdenOk(db', db'.ordenes[k])
    {
      assert OrdenOk(db, db.ordenes[k]);
    }
  }

  /** Deletion never leaves an order line naming a missing product. */
  lemma EliminarProductoValid(db: Db, id: int)
    requires Valid(db)
    ensures Valid(EliminarProducto(db, id).db)
  {
    var db' := EliminarProducto(db, id).db;
    forall k | 0 <= k < |db'.ordenes|
      ensures OrdenOk(db', db'.ordenes[k])
    {
      assert OrdenOk(db, db.ordenes[k]);
    }
  }
}

=== FILE: qr.dfy ===
/** The QR side of the admin API: the recommended link prefix derived from
    the request, the preview's fallback to it, and the naming of the entries
    of the batch archive. The images themselves are not modelled. */
module Qr {
  import opened Base
  import opened Strings

  /** The request's headers, keyed by lower-case name, with the URL's own scheme and host. */
  datatype RequestInfo = RequestInfo(headers: map<string, string>, scheme: string, netloc: string)

  /** _recommended_base_url: x-forwarded-proto over the URL's scheme, the
      host header over the URL's host, then the order page's query prefix. */
  function RecommendedBaseUrl(req: RequestInfo): (u: string)
    ensures var scheme := if "x-forwarded-proto" in req.headers then req.headers["x-forwarded-proto"] else req.scheme;
            var host := if "host" in req.headers then req.headers["host"] else req.netloc;
            && HasPrefix(u, scheme + "://")
            && u[|scheme| + 3..] == host + "/orden?mesa="
    ensures |u| > 0
  {
    var scheme := if "x-forwarded-proto" in req.headers then req.headers["x-forwarded-proto"] else req.scheme;
    var host := if "host" in req.headers then req.headers["host"] else req.netloc;
    var u := scheme + "://" + host + "/orden?mesa=";
    assert u[..|scheme| + 3] == scheme + "://";
    assert u[|scheme| + 3..] == host + "/orden?mesa=";
    u
  }

  /** The text encoded for table n: the link prefix followed by the table
      number, which reads back as n once the prefix is taken off. */
  function TableLink(base: string, n: int): (data: string)
    ensures HasPrefix(data, base) && data[|base|..] == IntToString(n)
    ensures ParseInt(data[|base|..]) == Some(n)
  {
    var data := base + IntToString(n);
    assert data[..|base|] == base;
    assert data[|base|..] == IntToString(n);
    IntRoundTrip(n);
    data
  }

  /** preview_qr: the given base_url unless it is missing or empty, else the
      recommended one; the 400 for an empty base therefore never fires. */
  function PreviewData(req: RequestInfo, baseUrl: Option<string>, mesa: int): (r: Result<string>)
    ensures baseUrl.Some? && baseUrl.value != "" ==> r == Ok(TableLink(baseUrl.value, mesa))
    ensures baseUrl.None? || baseUrl == Some("") ==> r == Ok(TableLink(RecommendedBaseUrl(req), mesa))
  {
    var base := if baseUrl.Some? && baseUrl.value != "" then baseUrl.value else RecommendedBaseUrl(req);
    if base == "" then Fail(400, "base_url requerido") else Ok(TableLink(base, mesa))
  }

  /** The file name of table n's image. */
  function EntryName(n: int): (name: string)
    ensures HasPrefix(name, "mesa_") && |name| >= 10
    ensures name[5..|name| - 4] == IntToString(n) && name[|name| - 4..] == ".png"
  {
    var name := "mesa_" + IntToString(n) + ".png";
    assert name[..5] == "mesa_";
    assert name[5..|name| - 4] == IntToString(n);
    name
  }

  /** Different tables get different file names. */
  lemma EntryNameInjective(a: int, b: int)
    requires a != b
    ensures EntryName(a) != EntryName(b)
  {
    var na, nb := EntryName(a), EntryName(b);
    if |na| == |nb| {
      assert na[5..|na| - 4] == IntToString(a) && nb[5..|nb| - 4] == IntToString(b);
      if IntToString(a) == IntToString(b) {
        IntToStringInjective(a, b);
      }
    }
  }

  /** One file of the batch archive: its name and the text its QR code encodes. */
  datatype Entry = Entry(name: string, data: string)

  datatype Archive = Archive(entries: seq<Entry>, filename: string)

  /** The largest batch the request model admits. */
  const MAX_MESAS := 10000

  /** generar_qr_zip: a base_url of at least one character and 1..10000
      tables, or the request fails validation (422); then one entry per table
      1..N, in order, and the archive named by the request or "qr_mesas.zip". */
  method GenerarQrZip(baseUrl: string, totalMesas: int, filename: Option<string>) returns (r: Result<Archive>)
    ensures r.Ok? <==> |baseUrl| >= 1 && 1 <= totalMesas <= MAX_MESAS
    ensures r.Err? ==> r.error.status == 422
    ensures r.Ok? ==> |r.value.entries| == totalMesas
    ensures r.Ok? ==> forall i :: 0 <= i < |r.value.entries| ==>
                        r.value.entries[i] == Entry(EntryName(i + 1), TableLink(baseUrl, i + 1))
    ensures r.Ok? ==> r.value.filename == if filename.Some? && filename.value != "" then filename.value else "qr_mesas.zip"
  {
    if |baseUrl| < 1 || totalMesas < 1 || totalMesas > MAX_MESAS {
      return Fail(422, "Unprocessable Entity");
    }
    var entries: seq<Entry> := [];
    var mesa := 1;
    while mesa <= totalMesas
      invariant 1 <= mesa <= totalMesas + 1
      invariant |entries| == mesa - 1
      invariant forall i :: 0 <= i < |entries| ==> entries[i] == Entry(EntryName(i + 1), TableLink(baseUrl, i + 1))
      decreases totalMesas - mesa
    {
      entries := entries + [Entry(EntryName(mesa), TableLink(baseUrl, mesa))];
      mesa := mesa + 1;
    }
    var fname := if filename.Some? && filename.value != "" then filename.value else "qr_mesas.zip";
    return Ok(Archive(entries, fname));
  }

  /** The archive never holds two files of the same name. */
  lemma ArchiveNamesDistinct(entries: seq<Entry>, baseUrl: string)
    requires forall i :: 0 <= i < |entries| ==> entries[i] == Entry(EntryName(i + 1), TableLink(baseUrl, i + 1))
    ensures forall i, j :: 0 <= i < j < |entries| ==> entries[i].name != entries[j].name
  {
    forall i, j | 0 <= i < j < |entries|
      ensures entries[i].name != entries[j].name
    {
      assert entries[i].name == EntryName(i + 1) && entries[j].name == EntryName(j + 1);
      EntryNameInjective(i + 1, j + 1);
    }
  }
}

=== FILE: routing.dfy ===
/** The single-page application's choice of page from the URL path: the
    admin dashboard, the finance login, the finance page, or the menu. */
module Routing {
  import opened Strings

  datatype Page = AdminPage | FinanceLogin | FinancePage | MenuPage

  /** App: a path under "/admin" shows the dashboard; one under "/finanzas"
      shows the login when it continues with "/login" and the finance page
      otherwise; every other path shows the menu. The tests are plain
      prefix tests, so "/administrator" and "/finanzasX" also match. */
  function Route(path: string): (p: Page)
    ensures p == AdminPage <==> HasPrefix(path, "/admin")
    ensures p == FinanceLogin <==> HasPrefix(path, "/finanzas/login")
    ensures p == FinancePage <==> HasPrefix(path, "/finanzas") && !HasPrefix(path, "/finanzas/login")
    ensures p == MenuPage <==> !HasPrefix(path, "/admin") && !HasPrefix(path, "/finanzas")
  {
    PrefixesExclusive(path);
    LoginUnderFinanzas(path);
    if HasPrefix(path, "/admin") then AdminPage
    else if HasPrefix(path, "/finanzas") then
      if HasPrefix(path, "/finanzas/login") then FinanceLogin else FinancePage
    else MenuPage
  }

  /** No path lies under both "/admin" and "/finanzas": the second characters differ. */
  lemma PrefixesExclusive(path: string)
    ensures HasPrefix(path, "/admin") ==> !HasPrefix(path, "/finanzas")
  {
    if HasPrefix(path, "/admin") {
      assert path[1] == 'a';
    }
  }

  /** A path under "/finanzas/login" is under "/finanzas". */
  lemma LoginUnderFinanzas(path: string)
    ensures HasPrefix(path, "/finanzas/login") ==> HasPrefix(path, "/finanzas")
  {
    if HasPrefix(path, "/finanzas/login") {
      assert path[..9] == "/finanzas/login"[..9];
    }
  }

  /** The prefix tests route paths that only begin like a section into it. */
  lemma PrefixRoutes()
    ensures Route("/administrator") == AdminPage
    ensures Route("/finanzas/loginx") == FinanceLogin
    ensures Route("/") == MenuPage
  {
    assert HasPrefix("/administrator", "/admin");
    assert HasPrefix("/finanzas/loginx", "/finanzas/login");
    assert !HasPrefix("/", "/admin") && !HasPrefix("/", "/finanzas");
  }
}

=== FILE: sequences.dfy ===
/** Sequence helpers the handlers and the dashboard share: the first element
    satisfying a condition (Array.find / Query.first), sums (reduce / sum()),
    filtering (Array.filter / list comprehensions) and ordering by an integer
    key (Array.sort with a numeric comparator / ORDER BY), with the facts about
    them the callers need. */
module Sequences {
  import opened Base

  // ---------------------------------------------------------------------------
  // First match
  // ---------------------------------------------------------------------------

  /** Index of the first element satisfying p. */
  function FindFirst<T>(s: seq<T>, p: T -> bool): (r: Option<nat>)
    ensures r.None? <==> forall i :: 0 <= i < |s| ==> !p(s[i])
    ensures r.Some? ==> r.value < |s| && p(s[r.value])
    ensures r.Some? ==> forall i :: 0 <= i < r.value ==> !p(s[i])
    decreases |s|
  {
    if |s| == 0 then None
    else if p(s[0]) then Some(0)
    else match FindFirst(s[1..], p)
      case None => None
      case Some(i) => Some(i + 1)
  }

  // ---------------------------------------------------------------------------
  // Sums
  // ---------------------------------------------------------------------------

  /** The sum of f over the elements of s. */
  function Sum<T>(s: seq<T>, f: T -> int): int
    decreases |s|
  {
    if |s| == 0 then 0 else f(s[0]) + Sum(s[1..], f)
  }

  lemma {:induction false} SumConcat<T>(a: seq<T>, b: seq<T>, f: T -> int)
    ensures Sum(a + b, f) == Sum(a, f) + Sum(b, f)
    decreases |a|
  {
    if |a| > 0 {
      assert (a + b)[0] == a[0];
      assert (a + b)[1..] == a[1..] + b;
      SumConcat(a[1..], b, f);
    } else {
      assert a + b == b;
    }
  }

  /** Replacing one element changes the sum by the difference of the two values. */
  lemma {:induction false} SumUpdate<T>(s: seq<T>, i: nat, v: T, f: T -> int)
    requires i < |s|
    ensures Sum(s[i := v], f) == Sum(s, f) - f(s[i]) + f(v)
    decreases |s|
  {
    if i > 0 {
      assert s[i := v][1..] == s[1..][i - 1 := v];
      SumUpdate(s[1..], i - 1, v, f);
    }
  }

  /** A sum of non-negative terms is non-negative, and zero exactly when every term is. */
  lemma {:induction false} SumNonNegative<T>(s: seq<T>, f: T -> int)
    requires forall i :: 0 <= i < |s| ==> f(s[i]) >= 0
    ensures Sum(s, f) >= 0
    ensures Sum(s, f) == 0 <==> forall i :: 0 <= i < |s| ==> f(s[i]) == 0
    decreases |s|
  {
    if |s| > 0 {
      SumNonNegative(s[1..], f);
      assert forall i :: 1 <= i < |s| ==> s[1..][i - 1] == s[i];
    }
  }

  /** A product of two non-negative factors, as in price times quantity. */
  lemma NonNegativeProduct(a: int, b: int)
    requires a >= 0 && b >= 0
    ensures a * b >= 0
  {
  }

  /** Summing a termwise difference is the difference of the two sums. */
  lemma {:induction false} SumDifference<T>(s: seq<T>, f: T -> int, g: T -> int, h: T -> int)
    requires forall i :: 0 <= i < |s| ==> h(s[i]) == f(s[i]) - g(s[i])
    ensures Sum(s, h) == Sum(s, f) - Sum(s, g)
    decreases |s|
  {
    if |s| > 0 {
      assert forall i :: 1 <= i < |s| ==> s[1..][i - 1] == s[i];
      SumDifference(s[1..], f, g, h);
    }
  }

  // ---------------------------------------------------------------------------
  // Filtering
  // ---------------------------------------------------------------------------

  /** The elements satisfying p, in their original order. */
  function Filter<T>(s: seq<T>, p: T -> bool): (r: seq<T>)
    ensures |r| <= |s|
    ensures forall i :: 0 <= i < |r| ==> r[i] in s && p(r[i])
    ensures forall i :: 0 <= i < |s| && p(s[i]) ==> s[i] in r
    decreases |s|
  {
    if |s| == 0 then []
    else if p(s[0]) then [s[0]] + Filter(s[1..], p)
    else Filter(s[1..], p)
  }

  /** f where p holds, zero elsewhere. */
  function Masked<T>(p: T -> bool, f: T -> int): T -> int {
    (x: T) => if p(x) then f(x) else 0
  }

  /** One for every element satisfying p. */
  function Indicator<T>(p: T -> bool): T -> int {
    (x: T) => if p(x) then 1 else 0
  }

  /** Summing over the kept elements is summing f masked by p over all of them. */
  lemma {:induction false} FilterSum<T>(s: seq<T>, p: T -> bool, f: T -> int)
    ensures Sum(Filter(s, p), f) == Sum(s, Masked(p, f))
    decreases |s|
  {
    if |s| > 0 {
      FilterSum(s[1..], p, f);
      if p(s[0]) {
        var r := [s[0]] + Filter(s[1..], p);
        assert r[0] == s[0] && r[1..] == Filter(s[1..], p);
      }
    }
  }

  /** The number of kept elements is the number of elements satisfying p. */
  lemma {:induction false} FilterLength<T>(s: seq<T>, p: T -> bool)
    ensures |Filter(s, p)| == Sum(s, Indicator(p))
    decreases |s|
  {
    if |s| > 0 {
      FilterLength(s[1..], p);
    }
  }

  /** Filtering keeps everything when every element passes. */
  lemma {:induction false} FilterAll<T>(s: seq<T>, p: T -> bool)
    requires forall i :: 0 <= i < |s| ==> p(s[i])
    ensures Filter(s, p) == s
    decreases |s|
  {
    if |s| > 0 {
      FilterAll(s[1..], p);
      assert [s[0]] + s[1..] == s;
    }
  }

  /** Filtering distributes over concatenation. */
  lemma {:induction false} FilterConcat<T>(a: seq<T>, b: seq<T>, p: T -> bool)
    ensures Filter(a + b, p) == Filter(a, p) + Filter(b, p)
    decreases |a|
  {
    if |a| == 0 {
      assert a + b == b;
    } else {
      assert (a + b)[0] == a[0] && (a + b)[1..] == a[1..] + b;
      FilterConcat(a[1..], b, p);
    }
  }

  /** Filtering keeps a sorted sequence sorted. */
  lemma {:induction false} FilterKeepsSorted<T>(s: seq<T>, p: T -> bool, key: T -> int)
    requires SortedBy(s, key)
    ensures SortedBy(Filter(s, p), key)
    decreases |s|
  {
    if |s| > 0 {
      assert SortedBy(s[1..], key);
      FilterKeepsSorted(s[1..], p, key);
      var rest := Filter(s[1..], p);
      assert forall i :: 0 <= i < |rest| ==> key(s[0]) <= key(rest[i]);
    }
  }

  /** Filtering keeps every copy of a passing element and no copy of a failing one. */
  lemma {:induction false} FilterMultiset<T>(s: seq<T>, p: T -> bool)
    ensures forall x :: multiset(Filter(s, p))[x] == if p(x) then multiset(s)[x] else 0
    decreases |s|
  {
    if |s| > 0 {
      FilterMultiset(s[1..], p);
      assert s == [s[0]] + s[1..];
    }
  }

  /** Filtering two arrangements of the same elements keeps the same elements. */
  lemma FilterPermutation<T>(a: seq<T>, b: seq<T>, p: T -> bool)
    requires multiset(a) == multiset(b)
    ensures multiset(Filter(a, p)) == multiset(Filter(b, p))
  {
    FilterMultiset(a, p);
    FilterMultiset(b, p);
  }

  /** The positions of s whose elements satisfy p, in increasing order. */
  function KeptPositions<T>(s: seq<T>, p: T -> bool): seq<nat>
    decreases |s|
  {
    if |s| == 0 then []
    else if p(s[0]) then [0] + Shifted(KeptPositions(s[1..], p))
    else Shifted(KeptPositions(s[1..], p))
  }

  /** Every position moved one place right. */
  function Shifted(idx: seq<nat>): (r: seq<nat>)
    ensures |r| == |idx| && forall k :: 0 <= k < |idx| ==> r[k] == idx[k] + 1
  {
    seq(|idx|, k requires 0 <= k < |idx| => idx[k] + 1)
  }

  /** There are as many kept positions as kept elements, each of them a
      position of s, in increasing order. */
  lemma {:induction false} KeptPositionsShape<T>(s: seq<T>, p: T -> bool)
    ensures |KeptPositions(s, p)| == |Filter(s, p)|
    ensures forall k :: 0 <= k < |KeptPositions(s, p)| ==> KeptPositions(s, p)[k] < |s|
    ensures forall k, l :: 0 <= k < l < |KeptPositions(s, p)| ==> KeptPositions(s, p)[k] < KeptPositions(s, p)[l]
    decreases |s|
  {
    if |s| > 0 {
      KeptPositionsShape(s[1..], p);
      var shifted := Shifted(KeptPositions(s[1..], p));
      if p(s[0]) {
        var idx := [0] + shifted;
        assert forall k :: 1 <= k < |idx| ==> idx[k] == shifted[k - 1];
      }
    }
  }

  /** Filtering keeps the survivors in their relative order: the k-th kept
      element is the one at the k-th kept position. */
  lemma {:induction false} FilterKeepsOrder<T>(s: seq<T>, p: T -> bool)
    ensures |KeptPositions(s, p)| == |Filter(s, p)|
    ensures forall k :: 0 <= k < |KeptPositions(s, p)| ==>
              KeptPositions(s, p)[k] < |s| && Filter(s, p)[k] == s[KeptPositions(s, p)[k]]
    decreases |s|
  {
    KeptPositionsShape(s, p);
    if |s| > 0 {
      FilterKeepsOrder(s[1..], p);
      var rest := KeptPositions(s[1..], p);
      var f := Filter(s[1..], p);
      if p(s[0]) {
        assert Filter(s, p) == [s[0]] + f;
        forall k | 1 <= k < |KeptPositions(s, p)|
          ensures Filter(s, p)[k] == s[KeptPositions(s, p)[k]]
        {
          assert KeptPositions(s, p)[k] == rest[k - 1] + 1;
          assert s[1..][rest[k - 1]] == s[rest[k - 1] + 1];
        }
      } else {
        forall k | 0 <= k < |KeptPositions(s, p)|
          ensures Filter(s, p)[k] == s[KeptPositions(s, p)[k]]
        {
          assert KeptPositions(s, p)[k] == rest[k] + 1;
          assert s[1..][rest[k]] == s[rest[k] + 1];
        }
      }
    }
  }

  // ---------------------------------------------------------------------------
  // Ordering
  // ---------------------------------------------------------------------------

  predicate SortedBy<T>(s: seq<T>, key: T -> int) {
    forall i, j :: 0 <= i < j < |s| ==> key(s[i]) <= key(s[j])
  }

  /** No two positions of s share a key. */
  predicate DistinctBy<T>(s: seq<T>, key: T -> int) {
    forall i, j :: 0 <= i < j < |s| ==> key(s[i]) != key(s[j])
  }

  /** Places x after the trailing elements whose key does not exceed its own. */
  function Insert<T(==)>(t: seq<T>, x: T, key: T -> int): (r: seq<T>)
    ensures multiset(r) == multiset(t) + multiset{x}
    decreases |t|
  {
    if |t| == 0 || key(t[|t| - 1]) <= key(x) then t + [x]
    else
      var init := t[..|t| - 1];
      assert t == init + [t[|t| - 1]];
      Insert(init, x, key) + [t[|t| - 1]]
  }

  /** Filtering keeps keys pairwise distinct. */
  lemma {:induction false} FilterKeepsDistinct<T>(s: seq<T>, p: T -> bool, key: T -> int)
    requires DistinctBy(s, key)
    ensures DistinctBy(Filter(s, p), key)
    decreases |s|
  {
    if |s| > 0 {
      assert DistinctBy(s[1..], key);
      FilterKeepsDistinct(s[1..], p, key);
      var rest := Filter(s[1..], p);
      forall i | 0 <= i < |rest|
        ensures key(s[0]) != key(rest[i])
      {
        var k :| 0 <= k < |s[1..]| && s[1..][k] == rest[i];
        assert s[k + 1] == rest[i];
      }
    }
  }

  /** Inserting into a sorted sequence keeps it sorted, and no key grows beyond the larger of x's and the old last one's. */
  lemma {:induction false} InsertSorted<T>(t: seq<T>, x: T, key: T -> int)
    requires SortedBy(t, key)
    ensures SortedBy(Insert(t, x, key), key)
    ensures |t| > 0 ==> forall i :: 0 <= i < |Insert(t, x, key)| ==> key(Insert(t, x, key)[i]) <= Max(key(x), key(t[|t| - 1]))
    decreases |t|
  {
    var r := Insert(t, x, key);
    if |t| == 0 {
    } else if key(t[|t| - 1]) <= key(x) {
      assert r == t + [x];
      assert forall i :: 0 <= i < |t| ==> key(t[i]) <= key(t[|t| - 1]);
    } else {
      var init := t[..|t| - 1];
      var last := t[|t| - 1];
      var r' := Insert(init, x, key);
      assert r == r' + [last];
      assert forall i :: 0 <= i < |init| ==> key(init[i]) <= key(last);
      InsertSorted(init, x, key);
      assert forall i :: 0 <= i < |r'| ==> key(r'[i]) <= key(last);
    }
  }

  function Max(a: int, b: int): int {
    if a < b then b else a
  }

  /** The sequence ordered by key, equal keys keeping their relative order. */
  function SortBy<T(==)>(s: seq<T>, key: T -> int): (r: seq<T>)
    ensures SortedBy(r, key)
    ensures multiset(r) == multiset(s)
    decreases |s|
  {
    if |s| == 0 then []
    else
      assert s == s[..|s| - 1] + [s[|s| - 1]];
      var sorted := SortBy(s[..|s| - 1], key);
      InsertSorted(sorted, s[|s| - 1], key);
      Insert(sorted, s[|s| - 1], key)
  }

  /** Two equal entries at different positions are counted twice. */
  lemma RepeatCounted<T>(s: seq<T>, i: nat, j: nat)
    requires i < j < |s|
    ensures s[i] == s[j] ==> multiset(s)[s[i]] >= 2
  {
    assert s == s[..i] + [s[i]] + s[i + 1..];
    assert s[i + 1..][j - i - 1] == s[j];
  }

  /** Distinct keys mean no entry occurs twice. */
  lemma {:induction false} DistinctSingleCopies<T>(a: seq<T>, key: T -> int, x: T)
    requires DistinctBy(a, key)
    ensures multiset(a)[x] <= 1
    decreases |a|
  {
    if |a| > 0 {
      var init := a[..|a| - 1];
      var last := a[|a| - 1];
      assert a == init + [last];
      DistinctSingleCopies(init, key, x);
      forall k | 0 <= k < |init|
        ensures init[k] != last
      {
        assert key(a[k]) != key(a[|a| - 1]);
      }
    }
  }

  /** Rearranging a sequence keeps its keys pairwise distinct. */
  lemma PermutationKeepsDistinct<T>(a: seq<T>, b: seq<T>, key: T -> int)
    requires multiset(a) == multiset(b)
    requires DistinctBy(a, key)
    ensures DistinctBy(b, key)
  {
    forall i, j | 0 <= i < j < |b|
      ensures key(b[i]) != key(b[j])
    {
      RepeatCounted(b, i, j);
      DistinctSingleCopies(a, key, b[i]);
      assert b[i] in multiset(a) && b[j] in multiset(a);
      var p :| 0 <= p < |a| && a[p] == b[i];
      var q :| 0 <= q < |a| && a[q] == b[j];
      assert p != q;
    }
  }
}

=== FILE: store.dfy ===
/** The backend's persistent entities (tables mesas, productos, ordenes,
    orden_detalle and pagos) as immutable records, the whole database as one
    value, and the integrity the request handlers keep between requests.
    Prices and amounts are integer cents; timestamps are integers. */
module Store {
  import opened Base

  /** The three values an order's estado column takes. */
  datatype Estado = Pendiente | EnProceso | Entregado

  function EstadoName(e: Estado): string {
    match e
    case Pendiente => "pendiente"
    case EnProceso => "en_proceso"
    case Entregado => "entregado"
  }

  /** Membership in VALID_ESTADOS: only the three names are accepted. */
  function ParseEstado(s: string): (r: Option<Estado>)
    ensures r.Some? <==> s in {"pendiente", "en_proceso", "entregado"}
    ensures r.Some? ==> EstadoName(r.value) == s
  {
    if s == "pendiente" then Some(Pendiente)
    else if s == "en_proceso" then Some(EnProceso)
    else if s == "entregado" then Some(Entregado)
    else None
  }

  /** The two payment methods of VALID_METODOS. */
  datatype Metodo = Efectivo | Tarjeta

  function ParseMetodo(s: string): (r: Option<Metodo>)
    ensures r.Some? <==> s in {"efectivo", "tarjeta"}
  {
    if s == "efectivo" then Some(Efectivo)
    else if s == "tarjeta" then Some(Tarjeta)
    else None
  }

  datatype Mesa = Mesa(id: int, numero: int)

  /** A catalogue entry; its id is its key in Db.productos. */
  datatype Producto = Producto(nombre: string, precio: int, imagen: Option<string>)

  /** One line of an order: a product, how many were ordered, the boolean
      delivered flag and the delivered count. */
  datatype Detalle = Detalle(productoId: int, cantidad: int, entregado: bool, entregados: int)

  datatype Orden = Orden(id: int, mesaId: int, fecha: int, estado: Estado, detalles: seq<Detalle>)

  datatype Pago = Pago(id: int, ordenId: int, metodo: Metodo, montoTotal: int, propina: int, fecha: int)

  /** The next primary key each table hands out. */
  datatype NextIds = NextIds(mesa: int, producto: int, orden: int, pago: int)

  /** The database: rows of each table in insertion order, products keyed by id. */
  datatype Db = Db(
    mesas: seq<Mesa>,
    productos: map<int, Producto>,
    ordenes: seq<Orden>,
    pagos: seq<Pago>,
    next: NextIds)

  /** A line whose counts make sense: ordered at least once, delivered between none and all. */
  predicate LineOk(d: Detalle) {
    1 <= d.cantidad && 0 <= d.entregados <= d.cantidad
  }

  predicate LinesOk(ds: seq<Detalle>) {
    forall j :: 0 <= j < |ds| ==> LineOk(ds[j])
  }

  /** The products the lines name. */
  function ProductIds(ds: seq<Detalle>): set<int> {
    set j | 0 <= j < |ds| :: ds[j].productoId
  }

  lemma ProductIdsSingle(d: Detalle)
    ensures ProductIds([d]) == {d.productoId}
  {
    assert [d][0].productoId in ProductIds([d]);
  }

  lemma ProductIdsConcat(a: seq<Detalle>, b: seq<Detalle>)
    ensures ProductIds(a + b) == ProductIds(a) + ProductIds(b)
  {
    var ab := a + b;
    forall x | x in ProductIds(a) + ProductIds(b)
      ensures x in ProductIds(ab)
    {
      if x in ProductIds(a) {
        var j :| 0 <= j < |a| && a[j].productoId == x;
        assert ab[j] == a[j];
      } else {
        var j :| 0 <= j < |b| && b[j].productoId == x;
        assert ab[|a| + j] == b[j];
      }
    }
  }

  /** Rewriting a line without changing its product keeps the product set. */
  lemma ProductIdsUpdate(ds: seq<Detalle>, j: nat, v: Detalle)
    requires j < |ds| && v.productoId == ds[j].productoId
    ensures ProductIds(ds[j := v]) == ProductIds(ds)
  {
    var r := ds[j := v];
    forall x | x in ProductIds(ds)
      ensures x in ProductIds(r)
    {
      var i :| 0 <= i < |ds| && ds[i].productoId == x;
      assert r[i].productoId == x;
    }
  }

  predicate LinesReferTo(ds: seq<Detalle>, productos: map<int, Producto>) {
    ProductIds(ds) <= productos.Keys
  }

  predicate HasMesa(mesas: seq<Mesa>, id: int) {
    exists m :: 0 <= m < |mesas| && mesas[m].id == id
  }

  predicate HasOrden(ordenes: seq<Orden>, id: int) {
    exists k :: 0 <= k < |ordenes| && ordenes[k].id == id
  }

  /** True when some payment refers to the order. */
  predicate IsPaid(pagos: seq<Pago>, ordenId: int) {
    exists p :: 0 <= p < |pagos| && pagos[p].ordenId == ordenId
  }

  predicate MesasOk(db: Db) {
    && (forall m :: 0 <= m < |db.mesas| ==> db.mesas[m].id < db.next.mesa)
    && (forall m, n :: 0 <= m < n < |db.mesas| ==> db.mesas[m].id != db.mesas[n].id)
    && (forall m, n :: 0 <= m < n < |db.mesas| ==> db.mesas[m].numero != db.mesas[n].numero)
  }

  predicate ProductosOk(db: Db) {
    forall id :: id in db.productos ==> id < db.next.producto
  }

  predicate OrdenOk(db: Db, o: Orden) {
    && o.id < db.next.orden
    && HasMesa(db.mesas, o.mesaId)
    && LinesOk(o.detalles)
    && LinesReferTo(o.detalles, db.productos)
  }

  predicate OrdenesOk(db: Db) {
    && (forall k :: 0 <= k < |db.ordenes| ==> OrdenOk(db, db.ordenes[k]))
    && (forall k, l :: 0 <= k < l < |db.ordenes| ==> db.ordenes[k].id != db.ordenes[l].id)
  }

  /** Payments refer to existing orders and no order is paid twice
      (pagos.orden_id is a unique column). */
  predicate PagosOk(db: Db) {
    && (forall p :: 0 <= p < |db.pagos| ==> db.pagos[p].id < db.next.pago)
    && (forall p :: 0 <= p < |db.pagos| ==> HasOrden(db.ordenes, db.pagos[p].ordenId))
    && (forall p, q :: 0 <= p < q < |db.pagos| ==> db.pagos[p].id != db.pagos[q].id)
    && (forall p, q :: 0 <= p < q < |db.pagos| ==> db.pagos[p].ordenId != db.pagos[q].ordenId)
  }

  /** The integrity every handler keeps: fresh keys, unique table numbers,
      lines with sensible counts that name existing products, and at most
      one payment per order. */
  predicate Valid(db: Db) {
    MesasOk(db) && ProductosOk(db) && OrdenesOk(db) && PagosOk(db)
  }

  /** The database a fresh install starts from. */
  function Empty(): (db: Db)
    ensures Valid(db)
  {
    Db([], map[], [], [], NextIds(1, 1, 1, 1))
  }
}

=== FILE: strings.dfy ===
/** Text helpers shared by the token codecs, the colour parser, the QR naming
    scheme, page routing and the dashboard's category rules: Python's decimal
    str()/int() pair, str.split/str.rsplit, str.strip, JavaScript's startsWith,
    includes and toLowerCase, and lowercase hexadecimal. */
module Strings {
  import opened Base

  // ---------------------------------------------------------------------------
  // Decimal integers: str(n) and int(s)
  // ---------------------------------------------------------------------------

  predicate IsDigit(c: char) {
    '0' <= c <= '9'
  }

  predicate AllDigits(s: string) {
    forall i :: 0 <= i < |s| ==> IsDigit(s[i])
  }

  function DigitValue(c: char): nat
    requires IsDigit(c)
  {
    (c as int) - ('0' as int)
  }

  function DigitChar(d: nat): (c: char)
    requires d < 10
    ensures IsDigit(c) && DigitValue(c) == d
  {
    ('0' as int + d) as char
  }

  /** str(n) for n >= 0: the shortest decimal form, so only zero starts with '0'. */
  function NatToString(n: nat): (s: string)
    ensures 1 <= |s| && AllDigits(s)
    ensures s[0] == '0' <==> n == 0
    decreases n
  {
    if n < 10 then [DigitChar(n)] else NatToString(n / 10) + [DigitChar(n % 10)]
  }

  /** str(n): a '-' in front of the magnitude exactly when n is negative. */
  function IntToString(n: int): (s: string)
    ensures 1 <= |s|
    ensures s[0] == '-' <==> n < 0
    ensures AllDigits(s[1..])
  {
    if n < 0 then "-" + NatToString(-n) else NatToString(n)
  }

  /** The value of a string of decimal digits, read left to right. */
  function DigitsValue(s: string): nat
    requires AllDigits(s)
    decreases |s|
  {
    if |s| == 0 then 0 else DigitsValue(s[..|s| - 1]) * 10 + DigitValue(s[|s| - 1])
  }

  /** The strings int() accepts in this model: an optional sign and at least one ASCII digit. */
  predicate IsIntLiteral(s: string) {
    if 1 <= |s| && (s[0] == '-' || s[0] == '+') then 2 <= |s| && AllDigits(s[1..])
    else 1 <= |s| && AllDigits(s)
  }

  /** int(s) on a signed ASCII decimal string; None for anything else. Python
      also accepts surrounding whitespace, underscores between digits and
      non-ASCII decimal digits, which this model refuses. */
  function ParseInt(s: string): (r: Option<int>)
    ensures r.Some? <==> IsIntLiteral(s)
    ensures r.Some? && 1 <= |s| && s[0] == '-' ==> r.value <= 0
    ensures r.Some? && 1 <= |s| && s[0] != '-' ==> r.value >= 0
  {
    if 1 <= |s| && (s[0] == '-' || s[0] == '+') then
      if 2 <= |s| && AllDigits(s[1..]) then
        var m: int := DigitsValue(s[1..]);
        var v: int := if s[0] == '-' then -m else m;
        Some(v)
      else None
    else if 1 <= |s| && AllDigits(s) then Some(DigitsValue(s))
    else None
  }

  lemma {:induction false} DigitsValueOfNatToString(n: nat)
    ensures DigitsValue(NatToString(n)) == n
    decreases n
  {
    if n >= 10 {
      var s := NatToString(n);
      assert s[..|s| - 1] == NatToString(n / 10);
      DigitsValueOfNatToString(n / 10);
    }
  }

  /** int(str(n)) == n for every integer n. */
  lemma IntRoundTrip(n: int)
    ensures ParseInt(IntToString(n)) == Some(n)
  {
    if n < 0 {
      var s := IntToString(n);
      assert s == "-" + NatToString(-n);
      assert s[1..] == NatToString(-n);
      assert s[0] == '-' && 2 <= |s|;
      DigitsValueOfNatToString(-n);
      var m: int := DigitsValue(s[1..]);
      assert ParseInt(s) == Some(-m);
    } else {
      DigitsValueOfNatToString(n);
    }
  }

  /** Distinct integers print differently. */
  lemma IntToStringInjective(a: int, b: int)
    requires IntToString(a) == IntToString(b)
    ensures a == b
  {
    IntRoundTrip(a);
    IntRoundTrip(b);
  }

  /** A printed integer holds only digits and a leading '-', so no separator occurs in it. */
  lemma SeparatorNotInInt(n: int, c: char)
    requires !IsDigit(c) && c != '-'
    ensures c !in IntToString(n)
  {
    var s := IntToString(n);
    forall i | 1 <= i < |s|
      ensures s[i] != c
    {
      assert s[1..][i - 1] == s[i];
    }
  }

  // ---------------------------------------------------------------------------
  // Searching and splitting: str.split(sep) and str.rsplit(sep, 1)
  // ---------------------------------------------------------------------------

  /** Position of the first occurrence of c. */
  function IndexOf(s: string, c: char): (r: Option<nat>)
    ensures r.None? <==> c !in s
    ensures r.Some? ==> r.value < |s| && s[r.value] == c && c !in s[..r.value]
    decreases |s|
  {
    if |s| == 0 then None
    else if s[0] == c then Some(0)
    else match IndexOf(s[1..], c)
      case None => None
      case Some(i) => assert s[..i + 1] == [s[0]] + s[1..][..i]; Some(i + 1)
  }

  /** Position of the last occurrence of c. */
  function LastIndexOf(s: string, c: char): (r: Option<nat>)
    ensures r.None? <==> c !in s
    ensures r.Some? ==> r.value < |s| && s[r.value] == c && c !in s[r.value + 1..]
    decreases |s|
  {
    if |s| == 0 then None
    else if s[|s| - 1] == c then Some(|s| - 1)
    else match LastIndexOf(s[..|s| - 1], c)
      case None => assert s == s[..|s| - 1] + [s[|s| - 1]]; None
      case Some(i) => assert s[i + 1..] == s[..|s| - 1][i + 1..] + [s[|s| - 1]]; Some(i)
  }

  /** Python's s.split(c): the pieces between occurrences of c; one more piece than there are separators. */
  function Split(s: string, c: char): (parts: seq<string>)
    ensures |parts| == multiset(s)[c] + 1
    ensures forall i :: 0 <= i < |parts| ==> c !in parts[i]
    decreases |s|
  {
    match IndexOf(s, c)
    case None => [s]
    case Some(i) =>
      assert s == s[..i] + [c] + s[i + 1..];
      [s[..i]] + Split(s[i + 1..], c)
  }

  /** c.join(parts): the pieces with c between neighbours. */
  function Join(parts: seq<string>, c: char): string
    requires |parts| >= 1
    decreases |parts|
  {
    if |parts| == 1 then parts[0] else parts[0] + [c] + Join(parts[1..], c)
  }

  /** Joining the pieces of a split gives back the string. */
  lemma {:induction false} SplitJoin(s: string, c: char)
    ensures Join(Split(s, c), c) == s
    decreases |s|
  {
    match IndexOf(s, c)
    case None =>
    case Some(i) =>
      var rest := Split(s[i + 1..], c);
      assert Split(s, c) == [s[..i]] + rest;
      assert ([s[..i]] + rest)[1..] == rest;
      SplitJoin(s[i + 1..], c);
      assert s == s[..i] + [c] + s[i + 1..];
  }

  /** A string that splits into three pieces is those pieces joined by the separator. */
  lemma SplitThree(s: string, c: char)
    requires |Split(s, c)| == 3
    ensures s == Split(s, c)[0] + [c] + Split(s, c)[1] + [c] + Split(s, c)[2]
  {
    var i := SplitHead(s, c);
    var t := s[i + 1..];
    assert |Split(t, c)| == 2;
    var j := SplitHead(t, c);
    var u := t[j + 1..];
    assert |Split(u, c)| == 1;
    SplitSingle(u, c);
    var p := Split(s, c);
    assert p[0] == s[..i] && p[1..] == Split(t, c);
    assert p[1] == t[..j] && p[2] == u;
    JoinThree(s[..i], t[..j], u, c);
  }

  lemma JoinThree(a: string, b: string, u: string, c: char)
    ensures a + [c] + b + [c] + u == a + [c] + (b + [c] + u)
  {
  }

  /** A string that splits into two or more pieces: the first piece, the
      separator, then the split of the remainder. */
  lemma SplitHead(s: string, c: char) returns (i: nat)
    requires |Split(s, c)| >= 2
    ensures i < |s| && s == s[..i] + [c] + s[i + 1..]
    ensures Split(s, c) == [s[..i]] + Split(s[i + 1..], c)
  {
    assert c in multiset(s);
    i := IndexOf(s, c).value;
  }

  /** A string that splits into one piece is that piece. */
  lemma SplitSingle(s: string, c: char)
    requires |Split(s, c)| == 1
    ensures Split(s, c) == [s]
  {
    assert c !in multiset(s);
  }

  /** A string free of the separator splits into itself. */
  lemma SplitWithout(s: string, c: char)
    requires c !in s
    ensures Split(s, c) == [s]
  {
  }

  /** The first separator ends the first piece. */
  lemma SplitAt(a: string, b: string, c: char)
    requires c !in a
    ensures Split(a + [c] + b, c) == [a] + Split(b, c)
  {
    var s := a + [c] + b;
    assert s[..|a|] == a && s[|a|] == c;
    assert IndexOf(s, c) == Some(|a|);
    assert s[|a| + 1..] == b;
  }

  // ---------------------------------------------------------------------------
  // Prefixes and substrings: JavaScript startsWith and includes
  // ---------------------------------------------------------------------------

  predicate HasPrefix(s: string, p: string) {
    |p| <= |s| && s[..|p|] == p
  }

  /** JavaScript s.includes(sub): sub occurs at some position of s. */
  predicate Contains(s: string, sub: string)
    decreases |s|
  {
    HasPrefix(s, sub) || (0 < |s| && Contains(s[1..], sub))
  }

  // ---------------------------------------------------------------------------
  // Case and whitespace
  // ---------------------------------------------------------------------------

  function LowerChar(c: char): char {
    if 'A' <= c <= 'Z' then (c as int + 32) as char else c
  }

  function UpperChar(c: char): char {
    if 'a' <= c <= 'z' then (c as int - 32) as char else c
  }

  /** toLowerCase over the ASCII letters. */
  function Lower(s: string): (r: string)
    ensures |r| == |s|
  {
    seq(|s|, i requires 0 <= i < |s| => LowerChar(s[i]))
  }

  /** toUpperCase over the ASCII letters. */
  function Upper(s: string): (r: string)
    ensures |r| == |s|
  {
    seq(|s|, i requires 0 <= i < |s| => UpperChar(s[i]))
  }

  /** Lowering forgets the case a string was written in. */
  lemma LowerOfUpper(s: string)
    ensures Lower(Upper(s)) == Lower(s)
  {
    forall i | 0 <= i < |s|
      ensures Lower(Upper(s))[i] == Lower(s)[i]
    {
      var c := s[i];
      assert Upper(s)[i] == UpperChar(c);
    }
  }

  /** Python's str.isspace() for a single character. */
  predicate IsSpace(c: char) {
    var k := c as int;
    || k == 0x20 || 0x09 <= k <= 0x0D || 0x1C <= k <= 0x1F || k == 0x85 || k == 0xA0
    || k == 0x1680 || 0x2000 <= k <= 0x200A || k == 0x2028 || k == 0x2029
    || k == 0x202F || k == 0x205F || k == 0x3000
  }

  function LeadingSpaces(s: string): (n: nat)
    ensures n <= |s|
    ensures forall i :: 0 <= i < n ==> IsSpace(s[i])
    ensures n < |s| ==> !IsSpace(s[n])
    decreases |s|
  {
    if |s| == 0 || !IsSpace(s[0]) then 0 else 1 + LeadingSpaces(s[1..])
  }

  function TrailingSpaces(s: string): (n: nat)
    ensures n <= |s|
    ensures forall i :: |s| - n <= i < |s| ==> IsSpace(s[i])
    ensures n < |s| ==> !IsSpace(s[|s| - 1 - n])
    decreases |s|
  {
    if |s| == 0 || !IsSpace(s[|s| - 1]) then 0 else 1 + TrailingSpaces(s[..|s| - 1])
  }

  /** Python's s.strip(): s without its leading and trailing whitespace. */
  function Strip(s: string): (r: string)
    ensures |r| == 0 || (!IsSpace(r[0]) && !IsSpace(r[|r| - 1]))
    ensures exists a, b ::
              && 0 <= a <= b <= |s| && r == s[a..b]
              && (forall i :: 0 <= i < a ==> IsSpace(s[i]))
              && (forall i :: b <= i < |s| ==> IsSpace(s[i]))
  {
    var a := LeadingSpaces(s);
    if a == |s| then
      assert s[|s|..|s|] == "";
      ""
    else
      var b := |s| - TrailingSpaces(s);
      assert a < b;
      s[a..b]
  }

  // ---------------------------------------------------------------------------
  // Hexadecimal
  // ---------------------------------------------------------------------------

  newtype byte = x: int | 0 <= x < 256

  predicate IsHexDigit(c: char) {
    '0' <= c <= '9' || 'a' <= c <= 'f' || 'A' <= c <= 'F'
  }

  function HexValue(c: char): (v: nat)
    requires IsHexDigit(c)
    ensures v < 16
  {
    if '0' <= c <= '9' then c as int - '0' as int
    else if 'a' <= c <= 'f' then c as int - 'a' as int + 10
    else c as int - 'A' as int + 10
  }

  function HexChar(d: nat): (c: char)
    requires d < 16
    ensures IsHexDigit(c) && HexValue(c) == d
  {
    if d < 10 then ('0' as int + d) as char else ('a' as int + d - 10) as char
  }

  /** bytes.hex(): two lowercase hexadecimal digits per byte, high nibble first. */
  function HexEncode(bs: seq<byte>): (s: string)
    ensures |s| == 2 * |bs|
    ensures forall i :: 0 <= i < |s| ==> IsHexDigit(s[i])
  {
    if |bs| == 0 then ""
    else [HexChar(bs[0] as int / 16), HexChar(bs[0] as int % 16)] + HexEncode(bs[1..])
  }
}
